=== FILE: README.md ===
# Forest phenology tracking: a verified model of the point pipeline

This project models the core of the forest phenology tracking system in Dafny. The
system turns a year of MODIS NDVI rasters into start-of-season (SOS) and
end-of-season (EOS) dates per location. The model covers each step of that pipeline:

- **Ingestion.** STAC items become a plan of NDVI assets sorted by day of year (DOY).
  Each asset is stored as `doy_DDD.tif` under `data_dir/raw/product/year`.
- **Raster repository.** The local repository lists a year's stack files, sorted by
  name.
- **Stack loading.** Files are keyed by the DOY in their names and stable-sorted by
  it. The stack is sampled at the nearest pixel to give an NDVI time series.
- **Threshold algorithm.** The amplitude-threshold algorithm finds SOS, EOS and the
  season length.
- **Computation service.** Day numbers become calendar dates in a `PhenologyMetric`.
- **Query service.** Read-only queries go through optional cache-aside caches. The
  cache keys are built by `fpts.cache.keys`. The in-memory repository stands behind
  the query service.

Every operation is a pure function over immutable datatypes. The pieces that touch
the outside world are parameters:

- raster reading: `read: Path -> Raster`;
- the directory tree: `FileSystem`, a duplicate-free sequence of paths;
- ISO datetime parsing: `parse`;
- downloading and hashing: `transfer`;
- float rounding, float text and SHA-256: `KeyEncoding`.

A failure that the source raises as an exception is a `Failure` of a `Result`. The
query service is a value that each query returns in its next state. Its `repoCalls`
field counts repository calls, so "a cache hit avoids the repository" is a statement
about that counter.

Modules, one per source file or concern:

- `Wrappers`, `Text`, `Sorting`, `Paths`: helpers shared by the rest.
  - `Text` holds digits, `int()`/`str()`, `:03d`, and lexicographic string order.
  - `Sorting` holds Python's stable `sorted` as an insertion sort with its
    specification.
- `Calendar`: proleptic Gregorian dates as Python's `date` has them, years 1..9999.
- `Domain`: `fpts/domain/models.py`.
- `PhenologyAlgorithm`: `fpts/processing/phenology_algorithm.py`.
- `NdviStack`: `fpts/processing/ndvi_stack.py`.
- `RasterRepository`: `fpts/storage/raster_repository.py` and
  `fpts/storage/local_raster_repository.py`.
- `PhenologyService`: `fpts/processing/phenology_service.py`.
- `GeoJson`: JSON documents and the canonical form `json.dumps(sort_keys=True)` writes.
- `CacheKeys`: `fpts/cache/keys.py`.
- `MetricStorage`: `fpts/storage/phenology_repository.py` and
  `fpts/storage/in_memory_repository.py`.
- `Query`: `fpts/query/service.py`.
- `Ingestion`: the planning and storing logic of `fpts/ingestion/mod13q1.py`.
- `Scenarios`, `PipelineScenarios`: the concrete examples of the repository's tests,
  and the pipeline end to end.

## Model

| member | source | states |
|---|---|---|
| Domain.MakeLocation | src/fpts/domain/models.py:6-19 | A location is built exactly when -90 <= lat <= 90 and -180 <= lon <= 180. A bad latitude is reported before the longitude is looked at. |
| Domain.MakeLocationRoundTrip | src/fpts/domain/models.py:15-19 | Rebuilding a valid location gives back the same location. |
| Domain.LocationBoundsInclusive | src/fpts/domain/models.py:16-19 | The corners of the coordinate range are accepted. Coordinates half a degree beyond are rejected with the error of the coordinate at fault, latitude first. |
| Calendar.DayOfYear | src/fpts/ingestion/mod13q1.py:33-36 | `%j` of a valid date lies in 1..days-in-year. It equals the date's distance from January 1 of its year, plus one. |
| Calendar.DateFromDoy | src/fpts/processing/phenology_service.py:13-15 | `date(year,1,1) + timedelta(doy-1)` fails with a year error outside years 1..9999. For a valid year it succeeds exactly when the target ordinal, January 1's plus doy-1, lies between 0001-01-01 and 9999-12-31, and fails with an overflow otherwise. A result is the valid date with that ordinal, so it may lie in another year. |
| Calendar.YearOfDay | src/fpts/processing/phenology_service.py:15 | Day n of a year lies in a year 1..9999 exactly when its ordinal lies between those of 0001-01-01 and 9999-12-31. |
| Calendar.DoyRoundTrip | src/fpts/processing/phenology_service.py:13-15 | For doy in 1..days-in-year, the date built from doy has that year and gives back doy as its `%j`. |
| Calendar.DateRoundTrip | src/fpts/ingestion/mod13q1.py:33-36 | Rebuilding a valid date from its own year and `%j` gives back the date. |
| Calendar.DayOfYearInjective | src/fpts/ingestion/mod13q1.py:36 | Two dates of one year with the same `%j` are equal. |
| Scenarios.NewYearDayOfYear | tests/test_mod13q1_ingestion_plan.py:4-7 | 2020-01-01 is day 1. |
| Scenarios.LeapDayDayOfYear | tests/test_mod13q1_ingestion_plan.py:4-7 | 2020-02-29 is day 60. |
| Scenarios.LeapYearLastDayOfYear | tests/test_mod13q1_ingestion_plan.py:4-7 | 2020-12-31 is day 366. |
| Scenarios.LeapYearDateExamples | tests/unit/test_phenology_service.py:30-54 | Days 150 and 250 of 2020 are May 29 and September 6. |
| PhenologyAlgorithm.Min | src/fpts/processing/phenology_algorithm.py:36 | `min` of a non-empty series is one of its values and is at most every value. |
| PhenologyAlgorithm.Max | src/fpts/processing/phenology_algorithm.py:37 | `max` of a non-empty series is one of its values and is at least every value. |
| PhenologyAlgorithm.FirstAtLeast | src/fpts/processing/phenology_algorithm.py:45-49 | The first index whose value reaches the threshold, with every earlier index below it, or None when no index reaches it. |
| PhenologyAlgorithm.LastAtLeast | src/fpts/processing/phenology_algorithm.py:45-50 | The last index whose value reaches the threshold, with every later index below it, or None when no index reaches it. |
| PhenologyAlgorithm.SeasonLength | src/fpts/processing/phenology_algorithm.py:55 | Present exactly when eos >= sos, and then sos plus the length is eos. |
| PhenologyAlgorithm.ComputeSosEos | src/fpts/processing/phenology_algorithm.py:14-56 | Unequal lengths fail, and only they fail on empty input. Empty input gives the all-None result. A frac outside (0,1) fails otherwise. SOS is present exactly when EOS is. The season length is EOS minus SOS when EOS >= SOS. |
| PhenologyAlgorithm.ThresholdCrossings | src/fpts/processing/phenology_algorithm.py:45-50 | One scan finds the first and the last index reaching the threshold, with no earlier and no later index reaching it. Both are absent exactly when no value reaches it. |
| PhenologyAlgorithm.SeasonAtCrossings | src/fpts/processing/phenology_algorithm.py:43-56 | On a non-flat series with a valid frac, SOS and EOS are the DOYs at the first and last indices whose NDVI is at least `min + frac*(max-min)`. |
| PhenologyAlgorithm.FirstAtLeastUnique | src/fpts/processing/phenology_algorithm.py:49 | Only one index satisfies the "first index at or above the threshold" property. |
| PhenologyAlgorithm.LastAtLeastUnique | src/fpts/processing/phenology_algorithm.py:50 | Only one index satisfies the "last index at or above the threshold" property. |
| PhenologyAlgorithm.ThresholdBelowMax | src/fpts/processing/phenology_algorithm.py:43-47 | For frac in (0,1) and a non-flat series, the threshold lies strictly between min and max, so `above` is never empty. |
| PhenologyAlgorithm.FlatHasNoSeason | src/fpts/processing/phenology_algorithm.py:39-41 | A non-empty series whose values are all equal has no SOS, no EOS and no length for any valid frac. |
| PhenologyAlgorithm.NonFlatHasSeason | src/fpts/processing/phenology_algorithm.py:36-53 | A non-empty, non-flat series with a valid frac always has both SOS and EOS. |
| PhenologyAlgorithm.EmptyBeforeFracCheck | src/fpts/processing/phenology_algorithm.py:31-34 | Empty input gives the all-None result for any frac, the out-of-range ones included. |
| Scenarios.SummerPeakScenario | tests/test_phenology_algorithm.py:4-16 | The summer-peak curve at frac 0.5 gives SOS 150, EOS 250 and a season of 100 days. |
| Scenarios.SummerPeakFacts | tests/test_phenology_algorithm.py:11-13 | On that curve min is 0.1, max is 0.7 and the threshold is 0.4, with the first and last crossings at indices 3 and 5. |
| NdviStack.DoyFromFilename | src/fpts/processing/ndvi_stack.py:22-26 | A parsed DOY is in 0..999, and a name without a match fails with that name. |
| NdviStack.DoyFromFilenameIsSearch | src/fpts/processing/ndvi_stack.py:13-26 | Parsing succeeds exactly when `doy_(\d{3})\.tif$` matches somewhere in the name, where `$` also matches before a final newline. The value is then the matched digits. |
| NdviStack.DoyFromFilenameSuffix | src/fpts/processing/ndvi_stack.py:13-26 | Any name ending in `doy_DDD.tif`, whatever precedes it, parses to DDD. |
| NdviStack.DoyFilenameRoundTrip | src/fpts/processing/ndvi_stack.py:13-26 | The name `doy_{doy:03d}.tif` parses back to doy for every doy in 0..999. |
| NdviStack.DoyFromFilenameRejects | src/fpts/processing/ndvi_stack.py:13-25 | Names with another prefix, two digits or a `.tiff` suffix fail. |
| NdviStack.DoyKeys | src/fpts/processing/ndvi_stack.py:38 | Either every name parses and the keys are those DOYs in path order, or the error names the first path that does not parse. |
| NdviStack.SortedByDoy | src/fpts/processing/ndvi_stack.py:38 | `sorted(paths, key=_doy_from_filename)` fails exactly when a key fails. Otherwise it is a permutation of the keyed paths. |
| NdviStack.SortedByDoyIsStableSort | src/fpts/processing/ndvi_stack.py:38 | The sorted paths ascend by DOY, and paths with equal DOY keep their input order. |
| NdviStack.LoadNdviStack | src/fpts/processing/ndvi_stack.py:29-47 | No paths fails with the empty-paths error, and a bad name fails as the key parse does. Otherwise there is one raster per path, each read from the path whose DOY is its time coordinate. |
| NdviStack.LoadedTimeAscends | src/fpts/processing/ndvi_stack.py:37-46 | The time coordinate of a loaded stack is non-decreasing. |
| NdviStack.LoadAscendingKeys | src/fpts/processing/ndvi_stack.py:29-47 | Paths whose DOYs already ascend load in their own order, with time equal to those DOYs. |
| NdviStack.AscendingKeysKeepOrder | src/fpts/processing/ndvi_stack.py:38 | The stable sort leaves DOY-ascending paths where they are. |
| NdviStack.Nearest | src/fpts/processing/ndvi_stack.py:55 | The chosen coordinate index is at least as close to the requested value as every other index. |
| NdviStack.SampleBand0 | src/fpts/processing/ndvi_stack.py:55-56 | The sample is band 0 at a row nearest the latitude and a column nearest the longitude. |
| NdviStack.ExtractNdviTimeseries | src/fpts/processing/ndvi_stack.py:50-59 | The DOYs are the stack's time coordinate. There is one NDVI value per slice, each the nearest-pixel band-0 value of that slice. |
| NdviStack.ConstantStackSeries | src/fpts/processing/ndvi_stack.py:50-59 | A stack whose slices each hold one value everywhere reads as those values at any location. |
| RasterRepository.RawRasterPath | src/fpts/storage/local_raster_repository.py:21-22 | The raw raster path is three components below the data directory and is named `{year}.tif`. |
| RasterRepository.RawRasterPathInjective | src/fpts/storage/local_raster_repository.py:21-22 | Distinct product/year pairs have distinct raw raster paths. |
| RasterRepository.ExistsAfterAdd | src/fpts/storage/local_raster_repository.py:24-25 | Nothing exists in an empty tree. After one path is created, a raster exists exactly when it existed before or the new path is its raw raster path. |
| RasterRepository.StoringRasterMakesOnlyItExist | src/fpts/storage/local_raster_repository.py:21-25 | Storing the raw raster of one product and year makes that raster exist and no other raster that did not already. |
| RasterRepository.GlobHits | src/fpts/storage/local_raster_repository.py:31 | The glob yields exactly the directory's children whose names match `doy_*.tif`, without repeating a path. |
| RasterRepository.ListNdviStackPaths | src/fpts/storage/local_raster_repository.py:27-31 | A missing stack directory gives the empty listing. Otherwise a path is listed exactly when it is a `doy_*.tif` child of the directory, and the listing is sorted by name. |
| RasterRepository.ListingStrictlyAscends | src/fpts/storage/local_raster_repository.py:31 | Listed names strictly ascend, so no name repeats. |
| RasterRepository.ListingIgnoresEnumerationOrder | src/fpts/storage/local_raster_repository.py:31 | The listing depends only on which paths exist, not on the order the directory yields them. |
| RasterRepository.ListingOfAscendingNames | src/fpts/storage/local_raster_repository.py:27-31 | When the glob hits are exactly some name-ascending paths, the listing is exactly those paths. |
| RasterRepository.DoyNamesOrderedByValue | src/fpts/storage/local_raster_repository.py:31 | Among `doy_DDD.tif` names, name order is DOY order in both directions. |
| RasterRepository.GlobWiderThanDoyPattern | src/fpts/storage/local_raster_repository.py:31 | The glob also admits `doy_1.tif` and `doy_.tif`, which the stack loader rejects. It is case-sensitive. |
| RasterRepository.AsRasterStore | src/fpts/storage/raster_repository.py:6-32 | The local repository implements the raster interface: `exists` is presence of the raw raster path, and the listing is `ListNdviStackPaths`. |
| Sorting.SortBy | src/fpts/processing/ndvi_stack.py:38 | Python's stable sort keeps the length and the multiset of its input. |
| Sorting.SortBySorted | src/fpts/processing/ndvi_stack.py:38 | The sorted output is ordered by any total preorder key. |
| Sorting.SortByStable | src/fpts/processing/ndvi_stack.py:38 | Elements with equal keys keep their input order. |
| Sorting.StableSortUnique | src/fpts/processing/ndvi_stack.py:38 | Any sorted, order-preserving permutation is the stable sort's output. |
| Sorting.DistinctKeysSortUnique | src/fpts/ingestion/mod13q1.py:170-172 | With no key shared, two permutations of the same elements sort to the same sequence. |
| PhenologyService.DateIfTruthy | src/fpts/processing/phenology_service.py:47-52 | A DOY of None or 0 gives no date. Any other DOY gives the date `_date_from_doy` builds, or its error. |
| PhenologyService.MetricFromDates | src/fpts/processing/phenology_service.py:47-61 | The metric has the requested year, location and forest flag and the algorithm's season length. Each date is absent exactly when its DOY is falsy. The SOS date's error wins. |
| PhenologyService.ComputePointPhenology | src/fpts/processing/phenology_service.py:26-61 | An empty listing fails as not found. Otherwise a loader error is the result's error. After a load, an algorithm error on the extracted series is the result's error. Without one, the result is the metric built from the detected dates, or that conversion's date error. A metric carries the requested year, location and forest flag and the algorithm's season length. |
| PhenologyService.ComputeNeverFailsInAlgorithm | src/fpts/processing/phenology_service.py:31-45 | With the default frac, the algorithm never raises inside the service, since extracted series have equal lengths. |
| PhenologyService.DoyZeroDropsDates | src/fpts/processing/phenology_service.py:47-52 | A SOS/EOS of DOY 0 becomes absent dates, while season length 0 is kept. |
| PhenologyService.AlgorithmCanReturnDoyZero | src/fpts/processing/phenology_algorithm.py:45-56 | The algorithm returns SOS = EOS = 0 for DOYs [0, 100] with NDVI [0.9, 0.1], the series a `doy_000.tif` slice can give. |
| PhenologyService.ListedOrderIsDoyOrder | src/fpts/processing/phenology_service.py:34-40 | A name-sorted listing of DOY files loads without reordering, with strictly ascending time. |
| PipelineScenarios.DoyFile | src/fpts/ingestion/mod13q1.py:196-197 | The stored file of a DOY is a child of its directory whose name parses back to the DOY. |
| PipelineScenarios.ComputeFromSeries | src/fpts/processing/phenology_service.py:40-61 | Once the listing loads into a stack that reads as a given series at the location, the result is decided by the algorithm on that series and the date conversion alone. |
| PipelineScenarios.ComputeOnConstantStack | tests/unit/test_ndvi_stack_to_phenology.py:29-58 | For listed DOY files with constant slices, the computed metric is the algorithm's result on those values, dated in the requested year. |
| PipelineScenarios.DoyFilesAscend | src/fpts/storage/local_raster_repository.py:31 | Files of strictly ascending DOYs parse to those DOYs and have strictly ascending names. |
| PipelineScenarios.ListedDoyFiles | src/fpts/storage/local_raster_repository.py:27-31 | When a stack directory's matches are exactly some DOY files, the listing is those files in DOY order. |
| PipelineScenarios.SyntheticSeason | tests/unit/test_phenology_service.py:30-54 | The synthetic 2020 series gives SOS 2020-05-29, EOS 2020-09-06 and a season of 100 days. |
| PipelineScenarios.SyntheticStackPhenology | tests/unit/test_phenology_service.py:30-54 | The eight synthetic files on local disk, computed with the defaults, give exactly that metric at any location. |
| GeoJson.ByKeyIsTotalPreorder | src/fpts/cache/keys.py:14 | Comparing members by key is a total preorder, so `sort_keys` has a well-defined order. |
| GeoJson.CanonObjectSorted | src/fpts/cache/keys.py:14 | The canonical dump of a well-formed object lists its keys in strictly ascending order. |
| GeoJson.Canon | src/fpts/cache/keys.py:14 | The `sort_keys` dump keeps every scalar as it is, keeps arrays as arrays and objects as objects, and keeps their sizes. |
| GeoJson.CanonIdempotent | src/fpts/cache/keys.py:14 | Dumping a canonical document again with sorted keys changes nothing. |
| GeoJson.CanonIgnoresMemberOrder | src/fpts/cache/keys.py:9-15 | Documents that differ only in the order of object members, at any depth, have the same canonical dump. |
| GeoJson.KeyIndex | src/fpts/cache/keys.py:14 | The position of a key in an object is its first occurrence, or past the end when it is absent. |
| CacheKeys.StableJsonHash | src/fpts/cache/keys.py:9-15 | The polygon hash has no `:`, so it cannot shift the fields of a key. |
| CacheKeys.StableHashOfCanon | src/fpts/cache/keys.py:9-15 | The hash depends only on the canonical dump: hashing the dump's document gives the same hash. |
| CacheKeys.StableHashIgnoresMemberOrder | src/fpts/cache/keys.py:9-15 | Polygons that differ only in member order hash alike, as the docstring promises. |
| CacheKeys.ValidEncodingSatisfiable | src/fpts/cache/keys.py:9-64 | Some encoding has all the assumed properties: colon-free float text that is never `None`, distinct texts for distinct rounded values, and a colon-free digest. So the lemmas that assume them are not vacuous. |
| CacheKeys.PointMetricKey | src/fpts/cache/keys.py:47-64 | A point key begins with `phenology:point:`. |
| CacheKeys.TimeseriesKey | src/fpts/cache/keys.py:35-44 | A timeseries key begins with `phenology:timeseries:`. |
| CacheKeys.AreaStatsKey | src/fpts/cache/keys.py:18-32 | An area key begins with `phenology:area_stats:`. |
| CacheKeys.ThresholdText | src/fpts/cache/keys.py:63 | An absent threshold is the text `None`, and a present one never is. |
| CacheKeys.PointKeyInjective | src/fpts/cache/keys.py:47-64 | Two point keys are equal exactly when source, product, year, rounded coordinates and rounded threshold are. |
| CacheKeys.PointKeySeparatesSources | src/fpts/cache/keys.py:47-64 | Repository and compute point keys never collide. |
| CacheKeys.TimeseriesKeyInjective | src/fpts/cache/keys.py:35-44 | Two timeseries keys are equal exactly when product, rounded coordinates and both years are. |
| CacheKeys.AreaStatsKeyInjective | src/fpts/cache/keys.py:18-32 | Two area keys are equal exactly when product, year, polygon hash and the three filter values are, so changing any filter changes the key. |
| CacheKeys.AreaKeyIgnoresMemberOrder | src/fpts/cache/keys.py:9-32 | Polygons that differ only in the order of their members, at any depth, give the same area key. |
| CacheKeys.KeyFamiliesDisjoint | src/fpts/cache/keys.py:18-64 | Point, timeseries and area keys never collide. |
| CacheKeys.OptionIntTextInjective | src/fpts/cache/keys.py:30 | `min_season_length` text determines the value, None included. |
| MetricStorage.AddMetric | src/fpts/storage/in_memory_repository.py:23-25 | Adding grows the key set by exactly the metric's own key. |
| MetricStorage.GetMetric | src/fpts/storage/in_memory_repository.py:27-31 | A lookup finds a metric exactly when its exact (product, lat, lon, year) key is stored. |
| MetricStorage.AddThenGet | src/fpts/storage/in_memory_repository.py:23-31 | A metric added is read back at its own location and year. |
| MetricStorage.AddOverwrites | src/fpts/storage/in_memory_repository.py:23-25 | A second metric for the same key replaces the first. |
| MetricStorage.AddKeepsOtherKeys | src/fpts/storage/in_memory_repository.py:23-31 | Adding leaves every other key's lookup unchanged. |
| MetricStorage.EmptyHasNothing | src/fpts/storage/in_memory_repository.py:20-21 | A fresh repository finds nothing. |
| MetricStorage.AddKeepsKeysMatching | src/fpts/storage/in_memory_repository.py:23-25 | Adding keeps every metric stored under its own location and year. |
| MetricStorage.GetMatchesRequest | src/fpts/storage/in_memory_repository.py:27-31 | A metric found has the location and year asked for. |
| MetricStorage.AsPhenologyRepository | src/fpts/storage/phenology_repository.py:9-30 | The in-memory repository answers point lookups, and raises on the timeseries and area operations it lacks. |
| Query.NewQueryService | src/fpts/query/service.py:23-34 | A fresh service has made no repository call. |
| Query.GetPointMetric | src/fpts/query/service.py:36-61 | A hit answers from the cache without a repository call. A miss calls the repository once and stores the answer only when it is not None. Other caches are untouched. |
| Query.GetPointTimeseries | src/fpts/query/service.py:63-90 | A hit, the empty list included, answers from the cache. A miss calls the repository once and stores the returned list. |
| Query.GetAreaStats | src/fpts/query/service.py:92-129 | A hit answers from the cache. A miss calls the repository once with the given filters and stores only a non-None result. |
| Query.FreshServiceSound | src/fpts/query/service.py:23-34 | Empty caches hold only repository answers. |
| Query.PointQueryKeepsSound | src/fpts/query/service.py:36-61 | After a point query, every cached entry is still the repository's answer for its key. |
| Query.TimeseriesQueryKeepsSound | src/fpts/query/service.py:63-90 | After a timeseries query, every cached entry is still the repository's answer for its key. |
| Query.AreaQueryKeepsSound | src/fpts/query/service.py:92-129 | After an area query, every cached entry is still the repository's answer for its key. |
| Query.PointAnswerComesFromRepository | tests/unit/test_query_service.py:8-40 | From sound caches, a point answer is the repository's metric for the same product and year at a location that rounds to the same 6-place coordinates. `None` means the repository has nothing at that very location. |
| Query.StaleHitAfterOverwrite | src/fpts/query/service.py:36-61 | Once a point metric is cached, overwriting it in the in-memory store leaves the old metric cached. The next query returns the old metric without a repository call, although the store now answers the new one. |
| Query.RepeatedPointQueryHitsCache | tests/unit/test_query_service_caching.py:9-31 | Repeating a found point query makes no second repository call and returns the same metric. |
| Query.MissingPointQueriedAgain | src/fpts/query/service.py:58-59 | A point query that found nothing calls the repository again next time. |
| Query.PointYearChangeCallsRepository | tests/unit/test_query_service_caching.py:34-55 | From an empty point cache, queries for two different years call the repository twice. |
| Query.RepeatedTimeseriesQueryHitsCache | tests/unit/test_query_service_caching.py:58-83 | A repeated timeseries query makes no second repository call and returns the same list. |
| Query.TimeseriesStartYearChangeCallsRepository | tests/unit/test_query_service_caching.py:86-103 | A different start year misses the timeseries cache and calls the repository. |
| Query.RepeatedAreaQuery | tests/unit/test_query_service_caching.py:106-135 | A repeated area query that found statistics makes no second repository call and returns the same answer. One that found `None` calls the repository again. |
| Query.AreaFilterChangeCallsRepository | tests/unit/test_query_service_caching.py:138-167 | From an empty area cache, two queries that differ only in the forest filter call the repository twice. |
| Query.AreaCacheIgnoresKeyOrder | src/fpts/query/service.py:103-115 | An area query whose polygon differs from a cached one only in member order hits the cached entry. |
| Ingestion.ReplaceZ | src/fpts/ingestion/mod13q1.py:35 | Every `Z` is rewritten, and text without `Z` is unchanged. |
| Ingestion.ReplaceZConcat | src/fpts/ingestion/mod13q1.py:35 | The rewrite distributes over concatenation, so it acts on each character on its own. |
| Ingestion.ReplaceZSingle | src/fpts/ingestion/mod13q1.py:35 | A `Z` becomes `+00:00`, and any other character is kept. |
| Ingestion.DoyFromIso | src/fpts/ingestion/mod13q1.py:33-36 | The DOY is defined exactly when the rewritten text parses. It lies in 1..days-in-year and rebuilds the parsed date. Otherwise the error carries the text. |
| Ingestion.ItemDatetime | src/fpts/ingestion/mod13q1.py:139-146 | `datetime` wins when truthy, then `start_datetime`, then `end_datetime`. With none truthy, the error names the item id. |
| Ingestion.AssetFromItem | src/fpts/ingestion/mod13q1.py:139-168 | The errors come in code order: datetime, then NDVI asset, then `href`, then parse. With datetime, asset and `href` present, an asset is built exactly when the datetime parses, and otherwise the parse error names the datetime text. An asset copies id, datetime, DOY, key and href from the item. |
| Ingestion.ExtractAssets | src/fpts/ingestion/mod13q1.py:139-168 | One asset per item, in search order, or the error of the first bad item. |
| Ingestion.ByDoyThenIdIsTotalPreorder | src/fpts/ingestion/mod13q1.py:170-172 | The (doy, item_id) tuple order is a total preorder. |
| Ingestion.BuildPlan | src/fpts/ingestion/mod13q1.py:119-178 | A plan exists exactly when every item yields an asset. It has the requested collection, year and bbox, and its assets are a permutation of the extracted ones sorted by (doy, item_id). |
| Ingestion.PlanDoysInRange | src/fpts/ingestion/mod13q1.py:33-36 | Every planned DOY is in 1..366. |
| Ingestion.PlanOrderIgnoresSearchOrder | src/fpts/ingestion/mod13q1.py:170-172 | With no duplicated (doy, item_id), the plan's order does not depend on the search order. |
| Ingestion.YearDir | src/fpts/ingestion/mod13q1.py:194 | The download directory is exactly the stack directory the local raster repository lists: the child `str(year)` of `data_dir/raw/product`. |
| Ingestion.OutputName | src/fpts/ingestion/mod13q1.py:197 | Every stored name matches the stack glob `doy_*.tif`. For a DOY in 0..999 it is a `doy_DDD.tif` name that parses back to the DOY. |
| Ingestion.RecordFor | src/fpts/ingestion/mod13q1.py:199-225 | A record names the stored file and copies href, item id, datetime and DOY from its asset. |
| Ingestion.FetchPlan | src/fpts/ingestion/mod13q1.py:180-228 | One record per asset in plan order, each named `doy_{doy:03d}.tif` and carrying its asset's fields. |
| Ingestion.FetchedNamesParseBack | src/fpts/ingestion/mod13q1.py:196-197 | Each stored name parses back to its asset's DOY in the stack loader. |
| Ingestion.FetchedFilesAreListed | src/fpts/ingestion/mod13q1.py:194-197 | Each stored file is a glob hit of the directory the local raster repository lists for that product and year. |
| Text.Format03RoundTrip | src/fpts/ingestion/mod13q1.py:197 | `:03d` of 0..999 is three digits whose value is the number. |
| Text.IntTextInjective | src/fpts/cache/keys.py:28-64 | `str()` of distinct integers differs, so the year fields of a key determine the years. |

## Left out

- Raster I/O is a parameter `read: Path -> Raster`. `rioxarray.open_rasterio`, `xr.concat`, the CRS and the band/y/x layout beyond a rectangular grid are not modelled.
- NdviStack.SampleBand0: `sel(method="nearest")` is stated only up to ties. The model picks a nearest coordinate, but xarray's tie-breaking between two equally close cells is not modelled.
- NdviStack.DoyFromFilename: `\d` is ASCII digits only. Python's `\d` also matches other Unicode decimal digits, which `int()` would accept.
- Floats are `real`. Rounding, IEEE-754 error and `repr` of floats are not modelled. Cache-key rounding, float text and the SHA-256 of the JSON dump are the uninterpreted functions of `CacheKeys.KeyEncoding`. Only the properties the keys rely on are assumed of them (`CacheKeys.ValidEncoding`). Float text has no colon and is never `None`. Two rounded values with the same text are equal, as `repr` of distinct floats differs. A digest has no colon. `CacheKeys.ValidEncodingSatisfiable` exhibits an encoding with all of these properties. The area-key lemmas assume only the colon-free digest.
- CacheKeys.PointKeyInjective: requires a source without ':'. The key is a colon-joined string, so a source containing ':' could collide.
- CacheKeys.AreaStatsKeyInjective: requires a `season_length_stat` without ':', for the same reason.
- CacheKeys.TimeseriesKeyInjective: equality is of the rounded coordinates. Rounding itself is uninterpreted.
- The directory tree is a sequence of paths with no duplicates rather than a set. `RasterRepository.ListingIgnoresEnumerationOrder` shows that only its membership matters. Path comparison is by name within one directory, which is all `sorted(glob)` compares.
- Cache TTL, expiry and eviction are not modelled. A cache is a map. Expiry could only turn a hit into a miss.
- The MOD13Q1 catalogue search, the planetary-computer signing, HTTP downloads, `sha256_file`, the `verify_existing` re-download decision, `write_checksums`, `write_manifest` and `read_plan` are left out. The STAC items are an input, and the digest and size of each stored file come from the parameter `transfer`.
- `datetime.fromisoformat` is the parameter `parse`, assumed to return only valid dates.
- The PostGIS repository, batch processing, the raster service, the HTTP API, the CLI entry points and settings are outside the modelled core.
- The phenology computation service has no stack or point cache in this code, so none is modelled.
- RasterRepository.RawRasterPath: the product is one path component. pathlib's `/` would split a product containing `/`, drop an empty or `.` product, and restart at an absolute product. None of that is modelled.
- RasterRepository.StackDir: the same one-component simplification for `data_dir / "raw" / product / str(year)`.
- Ingestion.YearDir: the same one-component simplification for the download directory `data_dir / "raw" / product / str(plan.year)`.
- RasterRepository.RawRasterPathInjective: holds in the source only for products that are plain components (non-empty, not `.`, no `/`). For example, the product `.` and the empty product both give `data_dir/raw/{year}.tif` in pathlib.
- GeoJson.SameUpToMemberOrder: stricter than Python's `==`, which equates `1`, `1.0` and `True` while `json.dumps` writes them differently. The model keeps ints, floats and booleans apart, as the dump does.
- GeoJson.CanonIgnoresMemberOrder: covers documents that differ only in member order, not every pair of documents Python calls equal. Pairs such as `1` and `1.0` have different dumps and hashes in the source too.
- CacheKeys.AreaKeyIgnoresMemberOrder: stated for member order only, for the reason given for `GeoJson.CanonIgnoresMemberOrder`.
- Query.AreaCacheIgnoresKeyOrder: stated for member order only, for the reason given for `GeoJson.CanonIgnoresMemberOrder`.
- Query.PointAnswerComesFromRepository: holds for a repository that does not change once answers are cached. The service holds its repository as a value, while the source shares the repository object. An `add_metric` after a query therefore leaves a stale cached entry, which `Query.StaleHitAfterOverwrite` exhibits.
- The text of the JSON dump is not modelled: separators, `ensure_ascii=False`, float text and NaN or infinite floats. The hash is an uninterpreted function of the canonical document.

## Notes on the source

- The algorithm returns the all-None result for empty input before it validates `frac` (`PhenologyAlgorithm.EmptyBeforeFracCheck`).
- `compute_point_phenology` treats DOY 0 as "no date", because it tests `if dates.sos_doy`. The model keeps this as written (`PhenologyService.DoyZeroDropsDates`).
- The timeseries query caches an empty list like any other result, and has no special case for an inverted year range: `end_year < start_year` calls the repository like any other miss.
- The cache keys round coordinates and thresholds, but they do not unify the repository and compute sources. An absent threshold is the text `None` in the point key.
- The compute service keeps no stack cache and no point cache.
- `fetch_plan` names each file by DOY alone (`src/fpts/ingestion/mod13q1.py:197`), so plan assets that share a DOY, such as several MODIS tiles of one composite, share one file. With `verify_existing`, a later asset of that DOY is never downloaded. Its record carries the digest of the file already there under its own href (`src/fpts/ingestion/mod13q1.py:199-212`). In the model, the records of such assets have equal file names (`Ingestion.FetchPlan`). Which bytes end up in the file is the parameter `transfer`.

=== FILE: algorithm.dfy ===
/** The dynamic-threshold season detector (`compute_sos_eos_threshold`): with
    `threshold = min + frac * (max - min)`, the start of season is the DOY of the
    first sample at or above the threshold and the end of season the DOY of the
    last one. NDVI values are exact reals. */
module PhenologyAlgorithm {
  import opened Wrappers

  /** Start and end of season as days of the year, and the season length. */
  datatype PhenologyDates = PhenologyDates(sosDoy: Option<int>, eosDoy: Option<int>, seasonLength: Option<int>)

  const NoSeason := PhenologyDates(None, None, None)

  datatype AlgorithmError =
    | LengthMismatch(ndviLength: nat, doyLength: nat)  // ValueError: lengths differ
    | FracOutOfRange(frac: real)                      // ValueError: frac not in (0, 1)

  function Min(s: seq<real>): (m: real)
    requires s != []
    ensures m in s
    ensures forall i :: 0 <= i < |s| ==> m <= s[i]
  {
    if |s| == 1 then s[0]
    else
      var rest := Min(s[1..]);
      assert forall i :: 1 <= i < |s| ==> s[i] == s[1..][i - 1];
      if s[0] <= rest then s[0] else rest
  }

  function Max(s: seq<real>): (m: real)
    requires s != []
    ensures m in s
    ensures forall i :: 0 <= i < |s| ==> s[i] <= m
  {
    if |s| == 1 then s[0]
    else
      var rest := Max(s[1..]);
      assert forall i :: 1 <= i < |s| ==> s[i] == s[1..][i - 1];
      if s[0] >= rest then s[0] else rest
  }

  function Threshold(lo: real, hi: real, frac: real): real {
    lo + frac * (hi - lo)
  }

  /** `i` is the first index whose value reaches `t`. */
  predicate IsFirstAtLeast(s: seq<real>, t: real, i: int) {
    0 <= i < |s| && s[i] >= t && forall k :: 0 <= k < i ==> s[k] < t
  }

  /** `i` is the last index whose value reaches `t`. */
  predicate IsLastAtLeast(s: seq<real>, t: real, i: int) {
    0 <= i < |s| && s[i] >= t && forall k :: i < k < |s| ==> s[k] < t
  }

  predicate NoneAtLeast(s: seq<real>, t: real) {
    forall k :: 0 <= k < |s| ==> s[k] < t
  }

  /** `above[0]` of `above = [i for i, v in enumerate(s) if v >= t]`, or None when `above` is empty. */
  function FirstAtLeast(s: seq<real>, t: real): (r: Option<nat>)
    ensures r.Some? ==> IsFirstAtLeast(s, t, r.value)
    ensures r.None? ==> NoneAtLeast(s, t)
  {
    if s == [] then None
    else if s[0] >= t then Some(0)
    else
      match FirstAtLeast(s[1..], t)
      case None =>
        assert forall k :: 1 <= k < |s| ==> s[k] == s[1..][k - 1];
        None
      case Some(i) =>
        assert forall k :: 1 <= k <= i ==> s[k] == s[1..][k - 1];
        Some(i + 1)
  }

  /** `above[-1]`, or None when `above` is empty. */
  function LastAtLeast(s: seq<real>, t: real): (r: Option<nat>)
    ensures r.Some? ==> IsLastAtLeast(s, t, r.value)
    ensures r.None? ==> NoneAtLeast(s, t)
  {
    if s == [] then None
    else if s[|s| - 1] >= t then Some(|s| - 1)
    else
      var r := LastAtLeast(s[..|s| - 1], t);
      assert forall k :: 0 <= k < |s| - 1 ==> s[k] == s[..|s| - 1][k];
      r
  }

  /** `eos - sos if eos >= sos else None`. */
  function SeasonLength(sos: int, eos: int): (r: Option<int>)
    ensures r.Some? <==> eos >= sos
    ensures r.Some? ==> r.value >= 0 && sos + r.value == eos
  {
    if eos >= sos then Some(eos - sos) else None
  }

  /** `compute_sos_eos_threshold(ndvi, doys, frac)`; the checks run in the source's
      order: lengths, then emptiness, then `frac`, then flatness. */
  function ComputeSosEos(ndvi: seq<real>, doys: seq<int>, frac: real): (r: Result<PhenologyDates, AlgorithmError>)
    ensures |ndvi| != |doys| ==> r == Failure(LengthMismatch(|ndvi|, |doys|))
    ensures |ndvi| == |doys| && ndvi == [] ==> r == Success(NoSeason)
    ensures |ndvi| == |doys| && ndvi != [] && !(0.0 < frac < 1.0) ==> r == Failure(FracOutOfRange(frac))
    ensures r.Failure? <==> |ndvi| != |doys| || (ndvi != [] && !(0.0 < frac < 1.0))
    ensures r.Success? ==> (r.value.sosDoy.Some? <==> r.value.eosDoy.Some?)
    ensures r.Success? && r.value.seasonLength.Some? ==>
              && r.value.sosDoy.Some? && r.value.eosDoy.Some?
              && r.value.seasonLength.value >= 0
              && r.value.seasonLength.value == r.value.eosDoy.value - r.value.sosDoy.value
  {
    if |ndvi| != |doys| then Failure(LengthMismatch(|ndvi|, |doys|))
    else if |ndvi| == 0 then Success(NoSeason)
    else if !(0.0 < frac < 1.0) then Failure(FracOutOfRange(frac))
    else
      var lo, hi := Min(ndvi), Max(ndvi);
      if hi == lo then Success(NoSeason)
      else
        var t := Threshold(lo, hi, frac);
        match (FirstAtLeast(ndvi, t), LastAtLeast(ndvi, t))
        case (Some(i), Some(j)) =>
          Success(PhenologyDates(Some(doys[i]), Some(doys[j]), SeasonLength(doys[i], doys[j])))
        case _ => Success(NoSeason)
  }

  /** A single left-to-right scan that finds the first and the last index reaching `t`
      at once, as the list comprehension plus `above[0]`, `above[-1]` do. */
  method ThresholdCrossings(s: seq<real>, t: real) returns (first: Option<nat>, last: Option<nat>)
    ensures first.Some? ==> IsFirstAtLeast(s, t, first.value)
    ensures last.Some? ==> IsLastAtLeast(s, t, last.value)
    ensures first.None? <==> NoneAtLeast(s, t)
    ensures first.None? <==> last.None?
  {
    first, last := None, None;
    var k := 0;
    while k < |s|
      invariant 0 <= k <= |s|
      invariant first.None? <==> NoneAtLeast(s[..k], t)
      invariant first.None? <==> last.None?
      invariant first.Some? ==> IsFirstAtLeast(s[..k], t, first.value)
      invariant last.Some? ==> IsLastAtLeast(s[..k], t, last.value)
    {
      assert s[..k + 1] == s[..k] + [s[k]];
      if s[k] >= t {
        if first.None? {
          first := Some(k);
        }
        last := Some(k);
      }
      k := k + 1;
    }
    assert s[..k] == s;
  }

  /** In exact arithmetic the threshold of a non-flat series lies strictly below its
      maximum, so some sample reaches it and the `if not above` branch never runs. */
  lemma ThresholdBelowMax(ndvi: seq<real>, frac: real)
    requires ndvi != [] && 0.0 < frac < 1.0
    requires Min(ndvi) != Max(ndvi)
    ensures Min(ndvi) < Threshold(Min(ndvi), Max(ndvi), frac) < Max(ndvi)
    ensures FirstAtLeast(ndvi, Threshold(Min(ndvi), Max(ndvi), frac)).Some?
    ensures LastAtLeast(ndvi, Threshold(Min(ndvi), Max(ndvi), frac)).Some?
  {
    var lo, hi := Min(ndvi), Max(ndvi);
    var i :| 0 <= i < |ndvi| && ndvi[i] == hi;
    assert lo < hi;
    FractionStrictlyInside(lo, hi, frac);
    var t := Threshold(lo, hi, frac);
    assert ndvi[i] >= t;
    assert !NoneAtLeast(ndvi, t);
  }

  lemma FractionStrictlyInside(lo: real, hi: real, frac: real)
    requires lo < hi && 0.0 < frac < 1.0
    ensures lo < Threshold(lo, hi, frac) < hi
  {
    var d, g := hi - lo, 1.0 - frac;
    var fd, gd := frac * d, g * d;
    MulPositive(frac, d);
    MulPositive(g, d);
    Complement(frac, g, d);
    assert Threshold(lo, hi, frac) == lo + fd;
  }

  lemma Complement(a: real, g: real, b: real)
    requires a + g == 1.0
    ensures a * b + g * b == b
  {
  }

  lemma MulPositive(a: real, b: real)
    requires 0.0 < a && 0.0 < b
    ensures 0.0 < a * b
  {
  }

  /** The season of a valid, non-flat series: the DOYs at the first and the last index
      whose NDVI reaches the threshold, and their distance when it is not negative. */
  lemma SeasonAtCrossings(ndvi: seq<real>, doys: seq<int>, frac: real, i: int, j: int)
    requires |ndvi| == |doys| && ndvi != [] && 0.0 < frac < 1.0
    requires Min(ndvi) != Max(ndvi)
    requires IsFirstAtLeast(ndvi, Threshold(Min(ndvi), Max(ndvi), frac), i)
    requires IsLastAtLeast(ndvi, Threshold(Min(ndvi), Max(ndvi), frac), j)
    ensures i <= j
    ensures ComputeSosEos(ndvi, doys, frac)
         == Success(PhenologyDates(Some(doys[i]), Some(doys[j]),
                                   if doys[j] >= doys[i] then Some(doys[j] - doys[i]) else None))
  {
    var t := Threshold(Min(ndvi), Max(ndvi), frac);
    FirstAtLeastUnique(ndvi, t, i);
    LastAtLeastUnique(ndvi, t, j);
  }

  lemma FirstAtLeastUnique(s: seq<real>, t: real, i: int)
    requires IsFirstAtLeast(s, t, i)
    ensures FirstAtLeast(s, t) == Some(i)
  {
    var r := FirstAtLeast(s, t);
    assert r.Some? by {
      assert !NoneAtLeast(s, t);
    }
  }

  lemma LastAtLeastUnique(s: seq<real>, t: real, j: int)
    requires IsLastAtLeast(s, t, j)
    ensures LastAtLeast(s, t) == Some(j)
  {
    var r := LastAtLeast(s, t);
    assert r.Some? by {
      assert !NoneAtLeast(s, t);
    }
  }

  /** A flat series (all samples equal) has no season, whatever valid `frac` is given. */
  lemma FlatHasNoSeason(ndvi: seq<real>, doys: seq<int>, frac: real)
    requires |ndvi| == |doys| && ndvi != [] && 0.0 < frac < 1.0
    requires forall k :: 0 <= k < |ndvi| ==> ndvi[k] == ndvi[0]
    ensures ComputeSosEos(ndvi, doys, frac) == Success(NoSeason)
  {
    var lo, hi := Min(ndvi), Max(ndvi);
    var a :| 0 <= a < |ndvi| && ndvi[a] == lo;
    var b :| 0 <= b < |ndvi| && ndvi[b] == hi;
  }

  /** A non-flat series with a valid `frac` always has both a start and an end of season. */
  lemma NonFlatHasSeason(ndvi: seq<real>, doys: seq<int>, frac: real)
    requires |ndvi| == |doys| && ndvi != [] && 0.0 < frac < 1.0
    requires exists k :: 0 <= k < |ndvi| && ndvi[k] != ndvi[0]
    ensures ComputeSosEos(ndvi, doys, frac).Success?
    ensures ComputeSosEos(ndvi, doys, frac).value.sosDoy.Some?
    ensures ComputeSosEos(ndvi, doys, frac).value.eosDoy.Some?
  {
    var k :| 0 <= k < |ndvi| && ndvi[k] != ndvi[0];
    assert Min(ndvi) != Max(ndvi) by {
      assert Min(ndvi) <= ndvi[k] <= Max(ndvi);
      assert Min(ndvi) <= ndvi[0] <= Max(ndvi);
    }
    ThresholdBelowMax(ndvi, frac);
  }

  lemma MinIs(s: seq<real>, m: real)
    requires m in s && forall i :: 0 <= i < |s| ==> m <= s[i]
    ensures Min(s) == m
  {
    var k :| 0 <= k < |s| && s[k] == Min(s);
  }

  lemma MaxIs(s: seq<real>, m: real)
    requires m in s && forall i :: 0 <= i < |s| ==> s[i] <= m
    ensures Max(s) == m
  {
    var k :| 0 <= k < |s| && s[k] == Max(s);
  }

  /** Empty input has no season even with an out-of-range `frac`: the `frac` check comes later. */
  lemma EmptyBeforeFracCheck(frac: real)
    ensures ComputeSosEos([], [], frac) == Success(NoSeason)
  {
  }
}

=== FILE: cache_keys.dfy ===
/** Cache keys for the query service (`fpts.cache.keys`): colon-separated strings
    behind a fixed prefix per family. Python's float rounding, float formatting and
    the SHA-256 digest are not computed here; they are the functions of a
    `KeyEncoding`, constrained only by what the keys rely on. */
module CacheKeys {
  import opened Wrappers
  import opened Text
  import opened Domain
  import opened GeoJson
  import opened Sorting

  /** `round(x, n)`, `str(x)` of a float, and the hex SHA-256 of the compact
      `sort_keys` dump of a JSON document. */
  datatype KeyEncoding = KeyEncoding(
    round: (real, nat) -> real,
    floatText: real -> string,
    digest: Json -> string)

  /** Float text never holds a colon and is never `None`; the texts of two rounded
      values differ unless the rounded values are equal, as `repr` of distinct floats
      differs; a hex digest has no colon. */
  ghost predicate ValidEncoding(enc: KeyEncoding) {
    && (forall x :: ColonFree(enc.floatText(x)) && enc.floatText(x) != "None")
    && (forall x, y, n :: enc.floatText(enc.round(x, n)) == enc.floatText(enc.round(y, n))
                          ==> enc.round(x, n) == enc.round(y, n))
    && DigestColonFree(enc)
  }

  /** A hex digest has no colon. */
  ghost predicate DigestColonFree(enc: KeyEncoding) {
    forall j :: ColonFree(enc.digest(j))
  }

  /** Rounding down to an integer and writing that integer meets every requirement,
      so the assumptions on an encoding are consistent. */
  lemma ValidEncodingSatisfiable()
    ensures exists enc :: ValidEncoding(enc)
  {
    var enc := KeyEncoding((x: real, n: nat) => x.Floor as real, (r: real) => IntText(r.Floor), (j: Json) => "0");
    forall x
      ensures ColonFree(enc.floatText(x)) && enc.floatText(x) != "None"
    {
      IntTextNotNone(x.Floor);
    }
    forall x, y, n | enc.floatText(enc.round(x, n)) == enc.floatText(enc.round(y, n))
      ensures enc.round(x, n) == enc.round(y, n)
    {
      IntTextInjective(x.Floor, y.Floor);
    }
    assert ValidEncoding(enc);
  }

  predicate ColonFree(s: string) {
    ':' !in s
  }

  const PointPrefix: string := "phenology:point:"
  const TimeseriesPrefix: string := "phenology:timeseries:"
  const AreaStatsPrefix: string := "phenology:area_stats:"

  /** `f"{b}"` of a bool. */
  function BoolText(b: bool): (r: string)
    ensures ':' !in r
    ensures r == "True" || r == "False"
  {
    if b then "True" else "False"
  }

  /** `f"{n}"` of an `int | None`. */
  function OptionIntText(n: Option<int>): (r: string)
    ensures ':' !in r
  {
    match n
    case None => "None"
    case Some(v) => IntText(v)
  }

  /** A coordinate as the key writes it: `str(round(x, 6))`. */
  function CoordText(enc: KeyEncoding, x: real): (r: string)
    ensures ValidEncoding(enc) ==> ':' !in r
  {
    var rounded := enc.round(x, 6);
    enc.floatText(rounded)
  }

  /** The threshold after normalisation: `None`, or the fraction rounded to 3 places. */
  function RoundedThreshold(enc: KeyEncoding, thresholdFrac: Option<real>): (r: Option<real>)
    ensures r.None? <==> thresholdFrac.None?
  {
    match thresholdFrac
    case None => None
    case Some(t) => Some(enc.round(t, 3))
  }

  function ThresholdText(enc: KeyEncoding, thresholdFrac: Option<real>): (r: string)
    ensures ValidEncoding(enc) ==> ':' !in r
    ensures thresholdFrac.None? ==> r == "None"
    ensures ValidEncoding(enc) && thresholdFrac.Some? ==> r != "None"
  {
    match RoundedThreshold(enc, thresholdFrac)
    case None => "None"
    case Some(t) => enc.floatText(t)
  }

  /** `_stable_json_hash(obj)`: the digest of the canonical form. */
  function StableJsonHash(enc: KeyEncoding, obj: Json): (r: string)
    ensures DigestColonFree(enc) ==> ':' !in r
  {
    enc.digest(Canon(obj))
  }

  /** The hash depends only on the canonical dump: hashing an already canonical
      document gives the hash of the original. */
  lemma StableHashOfCanon(enc: KeyEncoding, obj: Json)
    ensures StableJsonHash(enc, Canon(obj)) == StableJsonHash(enc, obj)
  {
    CanonIdempotent(obj);
  }

  /** Documents that differ only in member order hash alike. */
  lemma StableHashIgnoresMemberOrder(enc: KeyEncoding, g1: Json, g2: Json)
    requires WellFormed(g1) && WellFormed(g2) && SameUpToMemberOrder(g1, g2)
    ensures StableJsonHash(enc, g1) == StableJsonHash(enc, g2)
  {
    CanonIgnoresMemberOrder(g1, g2);
  }

  /** `point_metric_cache_key(source, product, year, location, threshold_frac)`. */
  function PointMetricKey(enc: KeyEncoding, source: string, product: string, year: int,
                          location: Location, thresholdFrac: Option<real>): (k: string)
    ensures |PointPrefix| <= |k| && k[..|PointPrefix|] == PointPrefix
  {
    PointPrefix + Join([source, product, IntText(year), CoordText(enc, location.lat),
                        CoordText(enc, location.lon), ThresholdText(enc, thresholdFrac)])
  }

  /** `timeseries_cache_key(product, location, start_year, end_year)`. */
  function TimeseriesKey(enc: KeyEncoding, product: string, location: Location,
                         startYear: int, endYear: int): (k: string)
    ensures |TimeseriesPrefix| <= |k| && k[..|TimeseriesPrefix|] == TimeseriesPrefix
  {
    TimeseriesPrefix + Join([product, CoordText(enc, location.lat), CoordText(enc, location.lon),
                             IntText(startYear), IntText(endYear)])
  }

  /** `area_stats_cache_key(product, year, polygon_geojson, only_forest,
      min_season_length, season_length_stat)`. */
  function AreaStatsKey(enc: KeyEncoding, product: string, year: int, polygon: Json, onlyForest: bool,
                        minSeasonLength: Option<int>, seasonLengthStat: string): (k: string)
    ensures |AreaStatsPrefix| <= |k| && k[..|AreaStatsPrefix|] == AreaStatsPrefix
  {
    AreaStatsPrefix + Join([product, IntText(year), StableJsonHash(enc, polygon),
                            "only_forest=" + BoolText(onlyForest),
                            "min_season_length=" + OptionIntText(minSeasonLength),
                            "season_length_stat=" + seasonLengthStat])
  }

  /** `str()` of an int is never the text `None`, so `f"{n}"` of `int | None` is injective. */
  lemma OptionIntTextInjective(a: Option<int>, b: Option<int>)
    requires OptionIntText(a) == OptionIntText(b)
    ensures a == b
  {
    if a.Some? && b.Some? {
      IntTextInjective(a.value, b.value);
    } else if a.Some? {
      IntTextNotNone(a.value);
    } else if b.Some? {
      IntTextNotNone(b.value);
    }
  }

  lemma IntTextNotNone(n: int)
    ensures IntText(n) != "None"
  {
    if n >= 0 {
      assert IsDigit(NatText(n)[0]);
    }
  }

  /** Threshold texts are equal exactly when the normalised thresholds are. */
  lemma ThresholdTextInjective(enc: KeyEncoding, t1: Option<real>, t2: Option<real>)
    requires ValidEncoding(enc)
    requires ThresholdText(enc, t1) == ThresholdText(enc, t2)
    ensures RoundedThreshold(enc, t1) == RoundedThreshold(enc, t2)
  {
  }

  /** Two point requests share a key exactly when they agree on source, product and
      year, on both coordinates after rounding to 6 places, and on the threshold after
      rounding to 3 places (or both omit it). The source is `"repo"` or `"compute"`,
      neither holding a colon. */
  lemma PointKeyInjective(enc: KeyEncoding,
                          s1: string, p1: string, y1: int, l1: Location, t1: Option<real>,
                          s2: string, p2: string, y2: int, l2: Location, t2: Option<real>)
    requires ValidEncoding(enc)
    requires ':' !in s1 && ':' !in s2
    ensures PointMetricKey(enc, s1, p1, y1, l1, t1) == PointMetricKey(enc, s2, p2, y2, l2, t2)
        <==> && s1 == s2 && p1 == p2 && y1 == y2
             && enc.round(l1.lat, 6) == enc.round(l2.lat, 6)
             && enc.round(l1.lon, 6) == enc.round(l2.lon, 6)
             && RoundedThreshold(enc, t1) == RoundedThreshold(enc, t2)
  {
    var k1, k2 := PointMetricKey(enc, s1, p1, y1, l1, t1), PointMetricKey(enc, s2, p2, y2, l2, t2);
    if k1 == k2 {
      var f1 := [s1, p1, IntText(y1), CoordText(enc, l1.lat), CoordText(enc, l1.lon), ThresholdText(enc, t1)];
      var f2 := [s2, p2, IntText(y2), CoordText(enc, l2.lat), CoordText(enc, l2.lon), ThresholdText(enc, t2)];
      CancelHead(PointPrefix, Join(f1), Join(f2));
      JoinInjectiveAt(f1, f2, 1);
      assert f1[2] == f2[2] && f1[3] == f2[3] && f1[4] == f2[4] && f1[5] == f2[5];
      IntTextInjective(y1, y2);
      ThresholdTextInjective(enc, t1, t2);
    }
  }

  /** A repository lookup and a computation never share a point key. */
  lemma PointKeySeparatesSources(enc: KeyEncoding, p1: string, y1: int, l1: Location, t1: Option<real>,
                                 p2: string, y2: int, l2: Location, t2: Option<real>)
    ensures PointMetricKey(enc, "repo", p1, y1, l1, t1) != PointMetricKey(enc, "compute", p2, y2, l2, t2)
  {
    var k1, k2 := PointMetricKey(enc, "repo", p1, y1, l1, t1), PointMetricKey(enc, "compute", p2, y2, l2, t2);
    assert k1[|PointPrefix|] == 'r';
    assert k2[|PointPrefix|] == 'c';
  }

  /** Two timeseries requests share a key exactly when they agree on product, on both
      rounded coordinates and on both years. */
  lemma TimeseriesKeyInjective(enc: KeyEncoding, p1: string, l1: Location, s1: int, e1: int,
                               p2: string, l2: Location, s2: int, e2: int)
    requires ValidEncoding(enc)
    ensures TimeseriesKey(enc, p1, l1, s1, e1) == TimeseriesKey(enc, p2, l2, s2, e2)
        <==> && p1 == p2 && s1 == s2 && e1 == e2
             && enc.round(l1.lat, 6) == enc.round(l2.lat, 6)
             && enc.round(l1.lon, 6) == enc.round(l2.lon, 6)
  {
    if TimeseriesKey(enc, p1, l1, s1, e1) == TimeseriesKey(enc, p2, l2, s2, e2) {
      var f1 := [p1, CoordText(enc, l1.lat), CoordText(enc, l1.lon), IntText(s1), IntText(e1)];
      var f2 := [p2, CoordText(enc, l2.lat), CoordText(enc, l2.lon), IntText(s2), IntText(e2)];
      CancelHead(TimeseriesPrefix, Join(f1), Join(f2));
      JoinInjectiveAt(f1, f2, 0);
      assert f1[1] == f2[1] && f1[2] == f2[2] && f1[3] == f2[3] && f1[4] == f2[4];
      IntTextInjective(s1, s2);
      IntTextInjective(e1, e2);
    }
  }

  /** Two area requests share a key exactly when they agree on product, year, polygon
      hash and the three options; the statistic name holds no colon. */
  lemma AreaStatsKeyInjective(enc: KeyEncoding,
                              p1: string, y1: int, g1: Json, f1: bool, m1: Option<int>, st1: string,
                              p2: string, y2: int, g2: Json, f2: bool, m2: Option<int>, st2: string)
    requires DigestColonFree(enc)
    requires ':' !in st1 && ':' !in st2
    ensures AreaStatsKey(enc, p1, y1, g1, f1, m1, st1) == AreaStatsKey(enc, p2, y2, g2, f2, m2, st2)
        <==> && p1 == p2 && y1 == y2 && StableJsonHash(enc, g1) == StableJsonHash(enc, g2)
             && f1 == f2 && m1 == m2 && st1 == st2
  {
    if AreaStatsKey(enc, p1, y1, g1, f1, m1, st1) == AreaStatsKey(enc, p2, y2, g2, f2, m2, st2) {
      var a := [p1, IntText(y1), StableJsonHash(enc, g1), "only_forest=" + BoolText(f1),
                "min_season_length=" + OptionIntText(m1), "season_length_stat=" + st1];
      var b := [p2, IntText(y2), StableJsonHash(enc, g2), "only_forest=" + BoolText(f2),
                "min_season_length=" + OptionIntText(m2), "season_length_stat=" + st2];
      CancelHead(AreaStatsPrefix, Join(a), Join(b));
      AreaFieldsColonFree(enc, y1, g1, f1, m1, st1);
      AreaFieldsColonFree(enc, y2, g2, f2, m2, st2);
      JoinInjectiveAt(a, b, 0);
      assert a[1] == b[1] && a[2] == b[2];
      IntTextInjective(y1, y2);
      FilterFieldsInjective(f1, m1, st1, f2, m2, st2);
    }
  }

  /** Every field of an area key after the product is free of colons. */
  lemma AreaFieldsColonFree(enc: KeyEncoding, y: int, g: Json, f: bool, m: Option<int>, st: string)
    requires DigestColonFree(enc) && ':' !in st
    ensures ColonFree(IntText(y)) && ColonFree(StableJsonHash(enc, g))
    ensures ColonFree("only_forest=" + BoolText(f))
    ensures ColonFree("min_season_length=" + OptionIntText(m))
    ensures ColonFree("season_length_stat=" + st)
  {
  }

  /** The three filter fields of an area key determine the filters. */
  lemma FilterFieldsInjective(f1: bool, m1: Option<int>, st1: string, f2: bool, m2: Option<int>, st2: string)
    requires "only_forest=" + BoolText(f1) == "only_forest=" + BoolText(f2)
    requires "min_season_length=" + OptionIntText(m1) == "min_season_length=" + OptionIntText(m2)
    requires "season_length_stat=" + st1 == "season_length_stat=" + st2
    ensures f1 == f2 && m1 == m2 && st1 == st2
  {
    CancelHead("only_forest=", BoolText(f1), BoolText(f2));
    CancelHead("min_season_length=", OptionIntText(m1), OptionIntText(m2));
    OptionIntTextInjective(m1, m2);
    CancelHead("season_length_stat=", st1, st2);
  }

  /** Polygons that differ only in the order of their members, at any depth, share an area key. */
  lemma AreaKeyIgnoresMemberOrder(enc: KeyEncoding, product: string, year: int, g1: Json, g2: Json,
                                  onlyForest: bool, minSeasonLength: Option<int>, stat: string)
    requires WellFormed(g1) && WellFormed(g2) && SameUpToMemberOrder(g1, g2)
    ensures AreaStatsKey(enc, product, year, g1, onlyForest, minSeasonLength, stat)
         == AreaStatsKey(enc, product, year, g2, onlyForest, minSeasonLength, stat)
  {
    CanonIgnoresMemberOrder(g1, g2);
  }

  /** The three key families never collide: their prefixes differ after `phenology:`. */
  lemma KeyFamiliesDisjoint(enc: KeyEncoding, source: string, product: string, year: int, location: Location,
                            thr: Option<real>, startYear: int, endYear: int, polygon: Json,
                            onlyForest: bool, minSeasonLength: Option<int>, stat: string)
    ensures PointMetricKey(enc, source, product, year, location, thr)
         != TimeseriesKey(enc, product, location, startYear, endYear)
    ensures PointMetricKey(enc, source, product, year, location, thr)
         != AreaStatsKey(enc, product, year, polygon, onlyForest, minSeasonLength, stat)
    ensures TimeseriesKey(enc, product, location, startYear, endYear)
         != AreaStatsKey(enc, product, year, polygon, onlyForest, minSeasonLength, stat)
  {
    var k1 := PointMetricKey(enc, source, product, year, location, thr);
    var k2 := TimeseriesKey(enc, product, location, startYear, endYear);
    var k3 := AreaStatsKey(enc, product, year, polygon, onlyForest, minSeasonLength, stat);
    PrefixesSeparate(k1, k2, PointPrefix, TimeseriesPrefix);
    PrefixesSeparate(k1, k3, PointPrefix, AreaStatsPrefix);
    PrefixesSeparate(k2, k3, TimeseriesPrefix, AreaStatsPrefix);
  }

  /** Texts starting with prefixes that differ at a common position are different. */
  lemma PrefixesSeparate(k1: string, k2: string, p1: string, p2: string)
    requires |p1| <= |k1| && k1[..|p1|] == p1
    requires |p2| <= |k2| && k2[..|p2|] == p2
    requires p1 in {PointPrefix, TimeseriesPrefix, AreaStatsPrefix}
    requires p2 in {PointPrefix, TimeseriesPrefix, AreaStatsPrefix}
    requires p1 != p2
    ensures k1 != k2
  {
    assert PointPrefix[10] == 'p' && TimeseriesPrefix[10] == 't' && AreaStatsPrefix[10] == 'a';
    assert k1[10] == p1[10] && k2[10] == p2[10];
  }
}

=== FILE: calendar.dfy ===
/** Proleptic Gregorian calendar arithmetic as Python's `datetime.date` does it:
    the date `doy - 1` days after January 1 (`_date_from_doy`) and the ordinal day
    of a date (`strftime("%j")`, used by `_doy_from_iso`). Dates exist for the years
    1 through 9999; leaving that range is an error, as in Python. */
module Calendar {
  import opened Wrappers

  datatype Date = Date(year: int, month: int, day: int)

  datatype DateError =
    | YearOutOfRange(year: int)  // `date(year, 1, 1)` raises ValueError
    | DateOverflow               // `date + timedelta` raises OverflowError

  const MinYear := 1
  const MaxYear := 9999

  predicate IsLeapYear(y: int) {
    y % 4 == 0 && (y % 100 != 0 || y % 400 == 0)
  }

  function DaysInYear(y: int): int {
    if IsLeapYear(y) then 366 else 365
  }

  function DaysInMonth(y: int, m: int): int
    requires 1 <= m <= 12
  {
    if m == 2 then (if IsLeapYear(y) then 29 else 28)
    else if m == 4 || m == 6 || m == 9 || m == 11 then 30
    else 31
  }

  /** Days in the months of year `y` before month `m`. */
  function DaysBeforeMonth(y: int, m: int): int
    requires 1 <= m <= 12
  {
    [0, 31, 59, 90, 120, 151, 181, 212, 243, 273, 304, 334][m - 1]
      + (if m > 2 && IsLeapYear(y) then 1 else 0)
  }

  /** Days in the years 1 .. y-1; the ordinal of January 1 of `y` is one more. */
  function DaysBeforeYear(y: int): int {
    var p := y - 1;
    p * 365 + p / 4 - p / 100 + p / 400
  }

  predicate ValidDate(d: Date) {
    && MinYear <= d.year <= MaxYear
    && 1 <= d.month <= 12
    && 1 <= d.day <= DaysInMonth(d.year, d.month)
  }

  /** Python's `date.toordinal()`: January 1 of year 1 is day 1. */
  function Ordinal(d: Date): int
    requires ValidDate(d)
  {
    DaysBeforeYear(d.year) + DaysBeforeMonth(d.year, d.month) + d.day
  }

  lemma MonthStep(y: int, m: int)
    requires 1 <= m <= 12
    ensures m < 12 ==> DaysBeforeMonth(y, m + 1) == DaysBeforeMonth(y, m) + DaysInMonth(y, m)
    ensures m == 12 ==> DaysBeforeMonth(y, m) + DaysInMonth(y, m) == DaysInYear(y)
  {
  }

  /** Month `m1` ends no later than any later month starts. */
  lemma {:induction false} MonthsOrdered(y: int, m1: int, m2: int)
    requires 1 <= m1 < m2 <= 12
    ensures DaysBeforeMonth(y, m1) + DaysInMonth(y, m1) <= DaysBeforeMonth(y, m2)
    decreases m2 - m1
  {
    MonthStep(y, m1);
    if m1 + 1 < m2 {
      MonthsOrdered(y, m1 + 1, m2);
      MonthStep(y, m1 + 1);
    }
  }

  /** Python's `int(d.strftime("%j"))`: the ordinal day within the date's year. */
  function DayOfYear(d: Date): (n: int)
    requires ValidDate(d)
    ensures 1 <= n <= DaysInYear(d.year)
    ensures n == Ordinal(d) - Ordinal(Date(d.year, 1, 1)) + 1
  {
    assert DaysBeforeMonth(d.year, d.month) + DaysInMonth(d.year, d.month) <= DaysInYear(d.year) by {
      MonthStep(d.year, d.month);
      if d.month < 12 {
        MonthsOrdered(d.year, d.month, 12);
        MonthStep(d.year, 12);
      }
    }
    DaysBeforeMonth(d.year, d.month) + d.day
  }

  lemma DaysBeforeYearStep(y: int)
    ensures DaysBeforeYear(y + 1) == DaysBeforeYear(y) + DaysInYear(y)
  {
    var p := y - 1;
    assert y / 4 == p / 4 + (if y % 4 == 0 then 1 else 0);
    assert y / 100 == p / 100 + (if y % 100 == 0 then 1 else 0);
    assert y / 400 == p / 400 + (if y % 400 == 0 then 1 else 0);
  }

  lemma {:induction false} DaysBeforeYearMonotone(a: int, b: int)
    requires a <= b
    ensures DaysBeforeYear(a) <= DaysBeforeYear(b)
    decreases b - a
  {
    if a < b {
      DaysBeforeYearStep(a);
      DaysBeforeYearMonotone(a + 1, b);
    }
  }

  /** Day `n` of year `y` lies in a representable year exactly when its ordinal lies
      between 0001-01-01 and 9999-12-31. */
  lemma YearOfDay(y: int, n: int)
    requires 1 <= n <= DaysInYear(y)
    ensures MinYear <= y <= MaxYear <==> DaysBeforeYear(MinYear) < DaysBeforeYear(y) + n <= DaysBeforeYear(MaxYear + 1)
  {
    DaysBeforeYearStep(y);
    if y < MinYear {
      DaysBeforeYearMonotone(y + 1, MinYear);
    } else if y > MaxYear {
      DaysBeforeYearMonotone(MaxYear + 1, y);
    } else {
      DaysBeforeYearMonotone(MinYear, y);
      DaysBeforeYearMonotone(y + 1, MaxYear + 1);
    }
  }

  /** Moves day `d` counted from January 1 of `year` (day 1) into the year it falls in. */
  function NormalizeDay(year: int, d: int): (r: (int, int))
    ensures 1 <= r.1 <= DaysInYear(r.0)
    ensures DaysBeforeYear(r.0) + r.1 == DaysBeforeYear(year) + d
    decreases (if d < 1 then 1 - d else 0), (if d >= 1 then d else 0)
  {
    if d < 1 then
      DaysBeforeYearStep(year - 1);
      NormalizeDay(year - 1, d + DaysInYear(year - 1))
    else if d > DaysInYear(year) then
      DaysBeforeYearStep(year);
      NormalizeDay(year + 1, d - DaysInYear(year))
    else (year, d)
  }

  /** Finds the month holding day `n` of year `y`, trying months `m`, `m + 1`, ... */
  function MonthSearch(y: int, n: int, m: int): (d: Date)
    requires 1 <= m <= 12
    requires DaysBeforeMonth(y, m) < n <= DaysInYear(y)
    ensures d.year == y && m <= d.month <= 12
    ensures 1 <= d.day <= DaysInMonth(y, d.month)
    ensures DaysBeforeMonth(y, d.month) + d.day == n
    decreases 12 - m
  {
    MonthStep(y, m);
    if m == 12 || n <= DaysBeforeMonth(y, m) + DaysInMonth(y, m) then
      Date(y, m, n - DaysBeforeMonth(y, m))
    else
      MonthSearch(y, n, m + 1)
  }

  /** The date that is day `n` of year `y`. */
  function DateInYear(y: int, n: int): (d: Date)
    requires MinYear <= y <= MaxYear
    requires 1 <= n <= DaysInYear(y)
    ensures ValidDate(d) && d.year == y && DayOfYear(d) == n
  {
    MonthSearch(y, n, 1)
  }

  /** Python's `date(year, 1, 1) + timedelta(days=doy - 1)`. */
  function DateFromDoy(year: int, doy: int): (r: Result<Date, DateError>)
    ensures !(MinYear <= year <= MaxYear) ==> r == Failure(YearOutOfRange(year))
    ensures r.Success? ==> ValidDate(r.value)
    ensures r.Success? ==> Ordinal(r.value) == Ordinal(Date(year, 1, 1)) + doy - 1
    ensures r.Failure? && MinYear <= year <= MaxYear ==> r.error == DateOverflow
    ensures MinYear <= year <= MaxYear ==>
              (r.Success? <==> DaysBeforeYear(MinYear) < DaysBeforeYear(year) + doy <= DaysBeforeYear(MaxYear + 1))
  {
    if !(MinYear <= year <= MaxYear) then Failure(YearOutOfRange(year))
    else
      var (y, n) := NormalizeDay(year, doy);
      YearOfDay(y, n);
      if !(MinYear <= y <= MaxYear) then Failure(DateOverflow)
      else Success(DateInYear(y, n))
  }

  /** Within a year, distinct valid dates have distinct ordinal days. */
  lemma DayOfYearInjective(a: Date, b: Date)
    requires ValidDate(a) && ValidDate(b) && a.year == b.year
    requires DayOfYear(a) == DayOfYear(b)
    ensures a == b
  {
    if a.month < b.month {
      MonthsOrdered(a.year, a.month, b.month);
    } else if b.month < a.month {
      MonthsOrdered(a.year, b.month, a.month);
    }
  }

  /** A valid day of a valid year converts to a date in that same year, and
      `strftime("%j")` of that date gives the day back. */
  lemma DoyRoundTrip(year: int, doy: int)
    requires MinYear <= year <= MaxYear
    requires 1 <= doy <= DaysInYear(year)
    ensures DateFromDoy(year, doy).Success?
    ensures DateFromDoy(year, doy).value.year == year
    ensures DayOfYear(DateFromDoy(year, doy).value) == doy
  {
  }

  /** Every valid date is recovered from its year and its ordinal day. */
  lemma DateRoundTrip(d: Date)
    requires ValidDate(d)
    ensures DateFromDoy(d.year, DayOfYear(d)) == Success(d)
  {
    DoyRoundTrip(d.year, DayOfYear(d));
    DayOfYearInjective(DateFromDoy(d.year, DayOfYear(d)).value, d);
  }
}

=== FILE: domain.dfy ===
/** The domain values: a WGS84 location, checked on construction, and the
    phenology metric of one location and year, a plain record. */
module Domain {
  import opened Wrappers
  import opened Calendar

  /** Latitude and longitude in degrees; `real` stands for Python's `float`. */
  datatype Location = Location(lat: real, lon: real)

  datatype LocationError =
    | LatitudeOutOfRange(lat: real)
    | LongitudeOutOfRange(lon: real)

  predicate ValidLatitude(lat: real) {
    -90.0 <= lat <= 90.0
  }

  predicate ValidLongitude(lon: real) {
    -180.0 <= lon <= 180.0
  }

  predicate ValidLocation(l: Location) {
    ValidLatitude(l.lat) && ValidLongitude(l.lon)
  }

  /** `Location(lat=..., lon=...)` with the checks of its `__post_init__`:
      the latitude is checked first, both bounds are inclusive. */
  function MakeLocation(lat: real, lon: real): (r: Result<Location, LocationError>)
    ensures r.Success? <==> ValidLatitude(lat) && ValidLongitude(lon)
    ensures r.Success? ==> r.value.lat == lat && r.value.lon == lon && ValidLocation(r.value)
    ensures !ValidLatitude(lat) ==> r == Failure(LatitudeOutOfRange(lat))
    ensures ValidLatitude(lat) && !ValidLongitude(lon) ==> r == Failure(LongitudeOutOfRange(lon))
  {
    if !(-90.0 <= lat <= 90.0) then Failure(LatitudeOutOfRange(lat))
    else if !(-180.0 <= lon <= 180.0) then Failure(LongitudeOutOfRange(lon))
    else Success(Location(lat, lon))
  }

  /** A valid location is rebuilt from its own coordinates, so construction loses nothing. */
  lemma MakeLocationRoundTrip(l: Location)
    requires ValidLocation(l)
    ensures MakeLocation(l.lat, l.lon) == Success(l)
  {
  }

  /** The corners of the coordinate range are accepted, anything just beyond is not. */
  lemma LocationBoundsInclusive()
    ensures MakeLocation(90.0, 180.0).Success? && MakeLocation(-90.0, -180.0).Success?
    ensures MakeLocation(90.5, 0.0) == Failure(LatitudeOutOfRange(90.5))
    ensures MakeLocation(0.0, -180.5) == Failure(LongitudeOutOfRange(-180.5))
    ensures MakeLocation(100.0, 200.0) == Failure(LatitudeOutOfRange(100.0))
  {
  }

  /** Phenology metrics of one location and year, stored as given. */
  datatype PhenologyMetric = PhenologyMetric(
    year: int,
    location: Location,
    sosDate: Option<Date>,
    eosDate: Option<Date>,
    seasonLength: Option<int>,
    isForest: bool)
}

=== FILE: ingestion.dfy ===
/** MOD13Q1 ingestion (`Mod13Q1IngestionService`): turning signed STAC items into a
    plan of NDVI assets ordered by (DOY, item id), and the download records of
    `fetch_plan`, one per asset, named `doy_{doy:03d}.tif` under
    `data_dir/raw/product/year`. The catalogue search, signing, downloads and hashing
    are outside the model: the items are an input, `datetime.fromisoformat` is the
    parameter `parse`, and the digest and size of each stored file come from the
    parameter `transfer`. */
module Ingestion {
  import opened Wrappers
  import opened Text
  import opened Calendar
  import opened Paths
  import opened Sorting
  import opened NdviStack
  import opened RasterRepository

  /** The parts of a signed STAC item the plan reads: its id, the three datetime
      properties, and the asset dicts by asset key. */
  datatype StacItem = StacItem(
    id: Option<string>,
    datetime: Option<string>,
    startDatetime: Option<string>,
    endDatetime: Option<string>,
    assets: map<string, map<string, string>>)

  datatype IngestError =
    | MissingDatetime(itemId: string)   // ValueError: no datetime fields
    | MissingNdviAsset(itemId: string)  // ValueError: the NDVI asset key is absent
    | MissingHref(itemId: string)       // KeyError: the asset has no "href"
    | BadDatetime(text: string)         // ValueError from `fromisoformat`

  datatype AssetRef = AssetRef(itemId: string, dt: string, doy: int, assetKey: string, href: string)

  datatype Plan = Plan(collection: string, year: int, bbox: (real, real, real, real), assets: seq<AssetRef>)

  datatype DownloadRecord = DownloadRecord(
    filename: string, sha256: string, bytes: int, href: string, itemId: string, dt: string, doy: int)

  /** `datetime.fromisoformat` after the `Z` suffix is rewritten, returning only valid dates. */
  ghost predicate ParsesValidDates(parse: string -> Option<Date>) {
    forall s :: parse(s).Some? ==> ValidDate(parse(s).value)
  }

  /** Python truthiness of an optional property: `None` and `""` are false. */
  predicate TruthyText(t: Option<string>) {
    t.Some? && t.value != ""
  }

  /** `str(signed.get("id"))`. */
  function IdText(id: Option<string>): string {
    match id
    case None => "None"
    case Some(s) => s
  }

  /** `dt.replace("Z", "+00:00")`. */
  function ReplaceZ(dt: string): (r: string)
    ensures 'Z' !in r
    ensures 'Z' !in dt ==> r == dt
  {
    if dt == [] then []
    else (if dt[0] == 'Z' then "+00:00" else [dt[0]]) + ReplaceZ(dt[1..])
  }

  /** The rewrite works character by character: it distributes over concatenation,
      turns `Z` into `+00:00`, and keeps every other character. */
  lemma {:induction false} ReplaceZConcat(a: string, b: string)
    ensures ReplaceZ(a + b) == ReplaceZ(a) + ReplaceZ(b)
    decreases |a|
  {
    if a == [] {
      assert a + b == b;
    } else {
      var head := if a[0] == 'Z' then "+00:00" else [a[0]];
      assert (a + b)[0] == a[0] && (a + b)[1..] == a[1..] + b;
      ReplaceZConcat(a[1..], b);
      assert ReplaceZ(a + b) == head + (ReplaceZ(a[1..]) + ReplaceZ(b));
    }
  }

  lemma ReplaceZSingle(c: char)
    ensures ReplaceZ([c]) == if c == 'Z' then "+00:00" else [c]
  {
  }

  /** `_doy_from_iso(dt)`: the ordinal day of the parsed date. */
  function DoyFromIso(parse: string -> Option<Date>, dt: string): (r: Result<int, IngestError>)
    requires ParsesValidDates(parse)
    ensures r.Success? <==> parse(ReplaceZ(dt)).Some?
    ensures r.Success? ==> 1 <= r.value <= DaysInYear(parse(ReplaceZ(dt)).value.year)
    ensures r.Success? ==> DateFromDoy(parse(ReplaceZ(dt)).value.year, r.value) == Success(parse(ReplaceZ(dt)).value)
    ensures r.Failure? ==> r.error == BadDatetime(dt)
  {
    match parse(ReplaceZ(dt))
    case None => Failure(BadDatetime(dt))
    case Some(d) =>
      DateRoundTrip(d);
      Success(DayOfYear(d))
  }

  /** The datetime of an item: `datetime`, else `start_datetime or end_datetime`. */
  function ItemDatetime(item: StacItem): (r: Result<string, IngestError>)
    ensures r.Success? <==> TruthyText(item.datetime) || TruthyText(item.startDatetime) || TruthyText(item.endDatetime)
    ensures TruthyText(item.datetime) ==> r == Success(item.datetime.value)
    ensures !TruthyText(item.datetime) && TruthyText(item.startDatetime) ==> r == Success(item.startDatetime.value)
    ensures (!TruthyText(item.datetime) && !TruthyText(item.startDatetime) && TruthyText(item.endDatetime))
              ==> r == Success(item.endDatetime.value)
    ensures r.Failure? ==> r.error == MissingDatetime(IdText(item.id))
  {
    if TruthyText(item.datetime) then Success(item.datetime.value)
    else
      var fallback := if TruthyText(item.startDatetime) then item.startDatetime else item.endDatetime;
      if TruthyText(fallback) then Success(fallback.value) else Failure(MissingDatetime(IdText(item.id)))
  }

  /** One loop iteration of `build_plan`: the NDVI asset of an item, checked in the
      order the code checks it. */
  function AssetFromItem(parse: string -> Option<Date>, item: StacItem, ndviKey: string)
    : (r: Result<AssetRef, IngestError>)
    requires ParsesValidDates(parse)
    ensures ItemDatetime(item).Failure? ==> r == Failure(ItemDatetime(item).error)
    ensures ItemDatetime(item).Success? && ndviKey !in item.assets ==> r == Failure(MissingNdviAsset(IdText(item.id)))
    ensures (ItemDatetime(item).Success? && ndviKey in item.assets && "href" !in item.assets[ndviKey])
              ==> r == Failure(MissingHref(IdText(item.id)))
    ensures r.Success? ==>
              && ItemDatetime(item) == Success(r.value.dt)
              && DoyFromIso(parse, r.value.dt) == Success(r.value.doy)
              && r.value.itemId == IdText(item.id) && r.value.assetKey == ndviKey
              && ndviKey in item.assets && "href" in item.assets[ndviKey]
              && r.value.href == item.assets[ndviKey]["href"]
    ensures ItemDatetime(item).Success? && ndviKey in item.assets && "href" in item.assets[ndviKey] ==>
              var doy := DoyFromIso(parse, ItemDatetime(item).value);
              && (r.Success? <==> doy.Success?)
              && (doy.Failure? ==> r == Failure(BadDatetime(ItemDatetime(item).value)))
  {
    var dt :- ItemDatetime(item);
    if ndviKey !in item.assets then Failure(MissingNdviAsset(IdText(item.id)))
    else if "href" !in item.assets[ndviKey] then Failure(MissingHref(IdText(item.id)))
    else
      var doy :- DoyFromIso(parse, dt);
      Success(AssetRef(IdText(item.id), dt, doy, ndviKey, item.assets[ndviKey]["href"]))
  }

  /** The first item, in search order, whose asset cannot be built. */
  predicate FirstBadItem(parse: string -> Option<Date>, items: seq<StacItem>, ndviKey: string, i: int)
    requires ParsesValidDates(parse)
  {
    && 0 <= i < |items|
    && AssetFromItem(parse, items[i], ndviKey).Failure?
    && forall j :: 0 <= j < i ==> AssetFromItem(parse, items[j], ndviKey).Success?
  }

  /** The loop of `build_plan` over the items: one asset per item, or the first error. */
  function ExtractAssets(parse: string -> Option<Date>, items: seq<StacItem>, ndviKey: string)
    : (r: Result<seq<AssetRef>, IngestError>)
    requires ParsesValidDates(parse)
    ensures r.Success? ==> |r.value| == |items|
    ensures r.Success? ==> forall i :: 0 <= i < |items| ==> AssetFromItem(parse, items[i], ndviKey) == Success(r.value[i])
    ensures r.Failure? ==> exists i :: FirstBadItem(parse, items, ndviKey, i)
                                     && r.error == AssetFromItem(parse, items[i], ndviKey).error
  {
    if items == [] then Success([])
    else
      match AssetFromItem(parse, items[0], ndviKey)
      case Failure(e) =>
        assert FirstBadItem(parse, items, ndviKey, 0);
        Failure(e)
      case Success(a) =>
        match ExtractAssets(parse, items[1..], ndviKey)
        case Failure(e) =>
          var i :| FirstBadItem(parse, items[1..], ndviKey, i) && e == AssetFromItem(parse, items[1..][i], ndviKey).error;
          FirstBadItemShift(parse, items, ndviKey, i);
          Failure(e)
        case Success(rest) => Success([a] + rest)
  }

  /** Behind a good first item, the first bad item of the rest is the first bad item. */
  lemma FirstBadItemShift(parse: string -> Option<Date>, items: seq<StacItem>, ndviKey: string, i: int)
    requires ParsesValidDates(parse)
    requires items != [] && AssetFromItem(parse, items[0], ndviKey).Success?
    requires FirstBadItem(parse, items[1..], ndviKey, i)
    ensures FirstBadItem(parse, items, ndviKey, i + 1)
    ensures AssetFromItem(parse, items[i + 1], ndviKey) == AssetFromItem(parse, items[1..][i], ndviKey)
  {
    forall j | 0 <= j < i + 1
      ensures AssetFromItem(parse, items[j], ndviKey).Success?
    {
      if j > 0 {
        assert items[j] == items[1..][j - 1];
      }
    }
  }

  /** Python's tuple order on `(a.doy, a.item_id)`. */
  predicate ByDoyThenId(a: AssetRef, b: AssetRef) {
    a.doy < b.doy || (a.doy == b.doy && LexLeq(a.itemId, b.itemId))
  }

  lemma ByDoyThenIdIsTotalPreorder()
    ensures TotalPreorder(ByDoyThenId)
  {
    forall a: AssetRef, b: AssetRef
      ensures ByDoyThenId(a, b) || ByDoyThenId(b, a)
    {
      LexTrichotomy(a.itemId, b.itemId);
    }
    forall a: AssetRef, b: AssetRef, c: AssetRef | ByDoyThenId(a, b) && ByDoyThenId(b, c)
      ensures ByDoyThenId(a, c)
    {
      if a.doy == b.doy == c.doy && LexLess(a.itemId, b.itemId) && LexLess(b.itemId, c.itemId) {
        LexLessTransitive(a.itemId, b.itemId, c.itemId);
      }
    }
  }

  /** `build_plan(year, bbox)` over the items the catalogue search returned. */
  function BuildPlan(parse: string -> Option<Date>, items: seq<StacItem>, ndviKey: string,
                     collection: string, year: int, bbox: (real, real, real, real))
    : (r: Result<Plan, IngestError>)
    requires ParsesValidDates(parse)
    ensures r.Success? <==> ExtractAssets(parse, items, ndviKey).Success?
    ensures r.Failure? ==> r.error == ExtractAssets(parse, items, ndviKey).error
    ensures r.Success? ==> r.value.collection == collection && r.value.year == year && r.value.bbox == bbox
    ensures r.Success? ==> multiset(r.value.assets) == multiset(ExtractAssets(parse, items, ndviKey).value)
    ensures r.Success? ==> SortedBy(r.value.assets, ByDoyThenId)
  {
    var assets :- ExtractAssets(parse, items, ndviKey);
    ByDoyThenIdIsTotalPreorder();
    SortBySorted(assets, ByDoyThenId);
    Success(Plan(collection, year, bbox, SortBy(assets, ByDoyThenId)))
  }

  /** Every planned asset has a day of the year in 1..366. */
  lemma PlanDoysInRange(parse: string -> Option<Date>, items: seq<StacItem>, ndviKey: string,
                        collection: string, year: int, bbox: (real, real, real, real))
    requires ParsesValidDates(parse)
    requires BuildPlan(parse, items, ndviKey, collection, year, bbox).Success?
    ensures forall a :: a in BuildPlan(parse, items, ndviKey, collection, year, bbox).value.assets ==> 1 <= a.doy <= 366
  {
    var assets := ExtractAssets(parse, items, ndviKey).value;
    var plan := BuildPlan(parse, items, ndviKey, collection, year, bbox).value;
    forall a | a in plan.assets
      ensures 1 <= a.doy <= 366
    {
      assert a in multiset(assets);
      var i :| 0 <= i < |assets| && assets[i] == a;
      AssetDoyInRange(parse, items[i], ndviKey, a);
    }
  }

  lemma AssetDoyInRange(parse: string -> Option<Date>, item: StacItem, ndviKey: string, a: AssetRef)
    requires ParsesValidDates(parse)
    requires AssetFromItem(parse, item, ndviKey) == Success(a)
    ensures 1 <= a.doy <= 366
  {
  }

  /** When no two assets share both DOY and item id, the plan's order does not depend
      on the order the catalogue returned the items in. */
  lemma PlanOrderIgnoresSearchOrder(a: seq<AssetRef>, b: seq<AssetRef>)
    requires multiset(a) == multiset(b)
    requires DistinctKeys(a, ByDoyThenId) && DistinctKeys(b, ByDoyThenId)
    ensures SortBy(a, ByDoyThenId) == SortBy(b, ByDoyThenId)
  {
    ByDoyThenIdIsTotalPreorder();
    DistinctKeysSortUnique(a, b, ByDoyThenId);
  }

  /** `year_dir = data_dir / "raw" / product / str(plan.year)`. */
  function YearDir(dataDir: Path, product: string, year: int): (d: Path)
    ensures d == StackDir(LocalRasterRepository(dataDir), product, year)
    ensures IsChildOf(d, dataDir + ["raw", product]) && Name(d) == IntText(year)
  {
    dataDir + ["raw", product, IntText(year)]
  }

  /** `f"doy_{asset.doy:03d}.tif"`: always listed by the stack glob, and for a DOY of
      at most three digits it parses back to that DOY. */
  function OutputName(doy: int): (n: string)
    ensures GlobMatch(n)
    ensures 0 <= doy <= 999 ==> IsDoyName(n) && DoyFromFilename(n) == Success(doy)
  {
    var n := "doy_" + Format03(doy) + ".tif";
    assert n[..4] == "doy_" && n[|n| - 4..] == ".tif";
    if 0 <= doy <= 999 then
      DoyFilenameRoundTrip(doy);
      Format03RoundTrip(doy);
      assert n[4..7] == Format03(doy) && n[7..] == ".tif";
      n
    else n
  }

  /** The record `fetch_plan` writes for one asset stored at `out`. */
  function RecordFor(asset: AssetRef, out: Path, transfer: (Path, AssetRef) -> (string, int)): (r: DownloadRecord)
    ensures r.filename == Name(out) && r.href == asset.href && r.itemId == asset.itemId
    ensures r.dt == asset.dt && r.doy == asset.doy
  {
    var (digest, size) := transfer(out, asset);
    DownloadRecord(Name(out), digest, size, asset.href, asset.itemId, asset.dt, asset.doy)
  }

  /** `fetch_plan(plan, data_dir, product)`: one record per asset, in plan order. */
  function FetchPlan(plan: Plan, dataDir: Path, product: string, transfer: (Path, AssetRef) -> (string, int))
    : (records: seq<DownloadRecord>)
    ensures |records| == |plan.assets|
    ensures forall i :: 0 <= i < |plan.assets| ==>
              && records[i].doy == plan.assets[i].doy
              && records[i].itemId == plan.assets[i].itemId
              && records[i].href == plan.assets[i].href
              && records[i].dt == plan.assets[i].dt
              && records[i].filename == OutputName(plan.assets[i].doy)
  {
    var dir := YearDir(dataDir, product, plan.year);
    seq(|plan.assets|, i requires 0 <= i < |plan.assets| =>
      RecordFor(plan.assets[i], dir + [OutputName(plan.assets[i].doy)], transfer))
  }

  /** Each stored file name parses back to its asset's DOY, so the stack loader reads
      the days the plan fetched. */
  lemma FetchedNamesParseBack(plan: Plan, dataDir: Path, product: string,
                              transfer: (Path, AssetRef) -> (string, int), i: int)
    requires 0 <= i < |plan.assets| && 0 <= plan.assets[i].doy <= 999
    ensures DoyFromFilename(FetchPlan(plan, dataDir, product, transfer)[i].filename) == Success(plan.assets[i].doy)
  {
    DoyFilenameRoundTrip(plan.assets[i].doy);
  }

  /** The files of a plan land where the stack listing looks: each is a glob hit of
      `data_dir/raw/product/year` for the local raster repository over `data_dir`. */
  lemma FetchedFilesAreListed(plan: Plan, dataDir: Path, product: string, i: int)
    requires 0 <= i < |plan.assets| && 0 <= plan.assets[i].doy <= 999
    ensures GlobHit(YearDir(dataDir, product, plan.year) + [OutputName(plan.assets[i].doy)],
                    StackDir(LocalRasterRepository(dataDir), product, plan.year))
  {
    var dir := YearDir(dataDir, product, plan.year);
    var p := dir + [OutputName(plan.assets[i].doy)];
    Format03RoundTrip(plan.assets[i].doy);
    assert p[..|dir|] == dir;
    var n := OutputName(plan.assets[i].doy);
    assert |n| == 11 && n[..4] == "doy_" && n[|n| - 4..] == ".tif";
  }
}

=== FILE: json.dfy ===
/** JSON documents such as GeoJSON polygons, with objects kept in insertion order as
    Python dicts are, and the canonical form `json.dumps(obj, sort_keys=True)` writes:
    every object's members sorted by key, at every depth. */
module GeoJson {
  import opened Text
  import opened Sorting

  datatype Json =
    | JNull
    | JBool(b: bool)
    | JInt(i: int)     // `json.dumps` writes `1`
    | JFloat(f: real)  // `json.dumps` writes `1.0`
    | JString(s: string)
    | JArray(items: seq<Json>)
    | JObject(members: seq<(string, Json)>)  // a dict, in insertion order

  type Member = (string, Json)

  /** Members ordered by key, in code-point order as Python compares `str`. */
  predicate ByKey(a: Member, b: Member) {
    LexLeq(a.0, b.0)
  }

  lemma ByKeyIsTotalPreorder()
    ensures TotalPreorder(ByKey)
  {
    forall a: Member, b: Member
      ensures ByKey(a, b) || ByKey(b, a)
    {
      LexTrichotomy(a.0, b.0);
    }
    forall a: Member, b: Member, c: Member | ByKey(a, b) && ByKey(b, c)
      ensures ByKey(a, c)
    {
      if LexLess(a.0, b.0) && LexLess(b.0, c.0) {
        LexLessTransitive(a.0, b.0, c.0);
      }
    }
  }

  /** Two members are equivalent under `ByKey` exactly when their keys are equal. */
  lemma ByKeyEquivalent(a: Member, b: Member)
    ensures Equivalent(a, b, ByKey) <==> a.0 == b.0
  {
    if LexLess(a.0, b.0) {
      LexLessAsymmetric(a.0, b.0);
    }
  }

  predicate DistinctNames(ms: seq<Member>) {
    forall i, j :: 0 <= i < j < |ms| ==> ms[i].0 != ms[j].0
  }

  /** What a Python dict can hold: no key occurs twice in any object, at any depth. */
  predicate WellFormed(j: Json)
    decreases j
  {
    match j
    case JArray(items) => forall i :: 0 <= i < |items| ==> WellFormed(items[i])
    case JObject(ms) => DistinctNames(ms) && forall i :: 0 <= i < |ms| ==> WellFormed(ms[i].1)
    case _ => true
  }

  /** The position of `key` among the members, or `|ms|` when it is absent. */
  function KeyIndex(ms: seq<Member>, key: string): (i: nat)
    ensures i <= |ms|
    ensures i < |ms| ==> ms[i].0 == key
    ensures forall j :: 0 <= j < i ==> ms[j].0 != key
  {
    if ms == [] then 0
    else if ms[0].0 == key then 0
    else 1 + KeyIndex(ms[1..], key)
  }

  /** The same document up to the order of object members: arrays element by element;
      objects with the same keys and, under each key, the same value, in any order.
      Scalars must be identical, so unlike Python's `==` this keeps `1`, `1.0` and
      `true` apart, as `json.dumps` does. */
  predicate SameUpToMemberOrder(a: Json, b: Json)
    decreases a
  {
    match a
    case JArray(x) =>
      b.JArray? && |x| == |b.items| && forall i :: 0 <= i < |x| ==> SameUpToMemberOrder(x[i], b.items[i])
    case JObject(x) =>
      && b.JObject?
      && |x| == |b.members|
      && (forall i :: 0 <= i < |x| ==>
            KeyIndex(b.members, x[i].0) < |b.members| && SameUpToMemberOrder(x[i].1, b.members[KeyIndex(b.members, x[i].0)].1))
      && (forall k :: 0 <= k < |b.members| ==> KeyIndex(x, b.members[k].0) < |x|)
    case _ => a == b
  }

  function CanonMember(m: Member): (r: Member)
    decreases m
  {
    (m.0, Canon(m.1))
  }

  /** The document `json.dumps(..., sort_keys=True)` writes: scalars as they are,
      arrays in their order, objects with the same members reordered. */
  function Canon(j: Json): (r: Json)
    decreases j
    ensures j.JArray? <==> r.JArray?
    ensures j.JObject? <==> r.JObject?
    ensures j.JArray? ==> |r.items| == |j.items|
    ensures j.JObject? ==> |r.members| == |j.members|
    ensures !j.JArray? && !j.JObject? ==> r == j
  {
    match j
    case JArray(items) => JArray(seq(|items|, i requires 0 <= i < |items| => Canon(items[i])))
    case JObject(ms) =>
      JObject(SortBy(CanonMembers(ms), ByKey))
    case _ => j
  }

  /** The members of an object with each value canonicalised, in their original order. */
  function CanonMembers(ms: seq<Member>): (r: seq<Member>)
    decreases ms
    ensures |r| == |ms|
    ensures forall i :: 0 <= i < |ms| ==> r[i] == CanonMember(ms[i])
  {
    seq(|ms|, i requires 0 <= i < |ms| => CanonMember(ms[i]))
  }

  /** Canonicalising values keeps keys, so distinct keys stay distinct. */
  lemma CanonMembersDistinct(ms: seq<Member>)
    requires DistinctNames(ms)
    ensures NoDuplicates(CanonMembers(ms))
    ensures DistinctKeys(CanonMembers(ms), ByKey)
  {
    var cs := CanonMembers(ms);
    forall i, j | 0 <= i < j < |cs|
      ensures !Equivalent(cs[i], cs[j], ByKey)
    {
      ByKeyEquivalent(cs[i], cs[j]);
    }
  }

  /** A canonical object lists its members in ascending key order, each key once. */
  lemma CanonObjectSorted(j: Json)
    requires j.JObject? && WellFormed(j)
    ensures Canon(j).JObject?
    ensures SortedBy(Canon(j).members, ByKey)
    ensures forall p, q :: 0 <= p < q < |Canon(j).members| ==> LexLess(Canon(j).members[p].0, Canon(j).members[q].0)
  {
    var cs := CanonMembers(j.members);
    ByKeyIsTotalPreorder();
    SortBySorted(cs, ByKey);
    CanonMembersDistinct(j.members);
    var r := SortBy(cs, ByKey);
    forall p, q | 0 <= p < q < |r|
      ensures LexLess(r[p].0, r[q].0)
    {
      SortByKeepsDistinctKeys(cs, p, q);
    }
  }

  lemma SortByKeepsDistinctKeys(cs: seq<Member>, p: int, q: int)
    requires NoDuplicates(cs) && DistinctKeys(cs, ByKey)
    requires 0 <= p < q < |SortBy(cs, ByKey)|
    ensures SortBy(cs, ByKey)[p].0 != SortBy(cs, ByKey)[q].0
  {
    var r := SortBy(cs, ByKey);
    SortByDistinctKeys(cs, ByKey, p, q);
    ByKeyEquivalent(r[p], r[q]);
  }

  /** Dumping a dump's document again with sorted keys changes nothing. */
  lemma {:induction false} CanonIdempotent(j: Json)
    ensures Canon(Canon(j)) == Canon(j)
    decreases j
  {
    match j
    case JArray(items) =>
      var c := Canon(j).items;
      forall i | 0 <= i < |items|
        ensures Canon(c[i]) == c[i]
      {
        assert items[i] in items;
        CanonIdempotent(items[i]);
      }
      assert Canon(Canon(j)).items == c;
    case JObject(ms) =>
      forall i | 0 <= i < |ms|
        ensures CanonMember(CanonMember(ms[i])) == CanonMember(ms[i])
      {
        assert ms[i] in ms;
        CanonIdempotent(ms[i].1);
      }
      SortedCanonMembersStable(ms);
    case _ =>
  }

  /** When every value is already fixed by `Canon`, the sorted canonical members are too. */
  lemma SortedCanonMembersStable(ms: seq<Member>)
    requires forall i :: 0 <= i < |ms| ==> CanonMember(CanonMember(ms[i])) == CanonMember(ms[i])
    ensures var r := SortBy(CanonMembers(ms), ByKey);
            SortBy(CanonMembers(r), ByKey) == r
  {
    var cs := CanonMembers(ms);
    var r := SortBy(cs, ByKey);
    SortKeepsFixedPoints(cs, CanonMember, ByKey);
    assert CanonMembers(r) == r;
    ByKeyIsTotalPreorder();
    SortBySorted(cs, ByKey);
    SortByIdentity(r, ByKey);
  }

  /** Documents that differ only in the order of object members have the same
      canonical form, so their `sort_keys` dumps, and hence their hashes, coincide. */
  lemma {:induction false} CanonIgnoresMemberOrder(a: Json, b: Json)
    requires WellFormed(a) && WellFormed(b) && SameUpToMemberOrder(a, b)
    ensures Canon(a) == Canon(b)
    decreases a, 2
  {
    match a
    case JArray(x) =>
      var y := b.items;
      forall i | 0 <= i < |x|
        ensures Canon(x[i]) == Canon(y[i])
      {
        assert x[i] in x;
        CanonIgnoresMemberOrder(x[i], y[i]);
      }
      assert Canon(a).items == Canon(b).items;
    case JObject(x) =>
      var y := b.members;
      var ca, cb := CanonMembers(x), CanonMembers(y);
      CanonMembersSameElements(a, b);
      CanonMembersDistinct(x);
      CanonMembersDistinct(y);
      SameElementsSameMultiset(ca, cb);
      ByKeyIsTotalPreorder();
      DistinctKeysSortUnique(ca, cb, ByKey);
    case _ =>
  }

  /** Equal objects have the same canonical members, up to order. */
  lemma {:induction false} CanonMembersSameElements(a: Json, b: Json)
    requires a.JObject? && b.JObject?
    requires WellFormed(a) && WellFormed(b) && SameUpToMemberOrder(a, b)
    ensures forall e :: e in CanonMembers(a.members) <==> e in CanonMembers(b.members)
    decreases a, 1
  {
    var x, y := a.members, b.members;
    forall i | 0 <= i < |x|
      ensures CanonMember(x[i]) in CanonMembers(y)
    {
      MatchedMembersAgree(a, b, i, KeyIndex(y, x[i].0));
    }
    forall k | 0 <= k < |y|
      ensures CanonMember(y[k]) in CanonMembers(x)
    {
      var i := KeyIndex(x, y[k].0);
      assert KeyIndex(y, x[i].0) == k by {
        var k' := KeyIndex(y, x[i].0);
        assert k' < |y| && y[k'].0 == y[k].0;
      }
      MatchedMembersAgree(a, b, i, k);
    }
  }

  lemma {:induction false} MatchedMembersAgree(a: Json, b: Json, i: int, k: int)
    requires a.JObject? && b.JObject?
    requires WellFormed(a) && WellFormed(b) && SameUpToMemberOrder(a, b)
    requires 0 <= i < |a.members| && k == KeyIndex(b.members, a.members[i].0)
    ensures k < |b.members|
    ensures CanonMember(a.members[i]) == CanonMember(b.members[k])
    ensures CanonMember(a.members[i]) in CanonMembers(a.members)
    ensures CanonMember(b.members[k]) in CanonMembers(b.members)
    decreases a, 0
  {
    assert a.members[i] in a.members;
    CanonIgnoresMemberOrder(a.members[i].1, b.members[k].1);
    assert CanonMembers(a.members)[i] == CanonMember(a.members[i]);
    assert CanonMembers(b.members)[k] == CanonMember(b.members[k]);
  }
}

=== FILE: metric_storage.dfy ===
/** Where phenology metrics are read from: the repository interface the query
    service calls, and the in-memory repository used in tests and development. */
module MetricStorage {
  import opened Wrappers
  import opened Domain
  import opened GeoJson

  /** An operation the repository at hand does not implement; calling it raises. */
  datatype RepoError = Unsupported(operation: string)

  /** The repository interface (`PhenologyRepository`): one metric per product,
      location and year; the metrics of a year range; and statistics over a polygon
      (a dict, or None when the polygon holds no data). */
  datatype PhenologyRepository = PhenologyRepository(
    metricFor: (string, Location, int) -> Option<PhenologyMetric>,
    timeseriesFor: (string, Location, int, int) -> Result<seq<PhenologyMetric>, RepoError>,
    areaStatsFor: (string, int, Json, bool, Option<int>, string) -> Result<Option<Json>, RepoError>)

  /** `(product, lat, lon, year)`, with the coordinates exactly as given. */
  type MetricKey = (string, real, real, int)

  datatype InMemoryRepository = InMemoryRepository(store: map<MetricKey, PhenologyMetric>)

  function KeyFor(product: string, location: Location, year: int): MetricKey {
    (product, location.lat, location.lon, year)
  }

  const EmptyRepository: InMemoryRepository := InMemoryRepository(map[])

  /** `add_metric(product, metric)`: store the metric under its own location and year,
      replacing whatever was there. */
  function AddMetric(repo: InMemoryRepository, product: string, metric: PhenologyMetric): (r: InMemoryRepository)
    ensures r.store.Keys == repo.store.Keys + {KeyFor(product, metric.location, metric.year)}
  {
    InMemoryRepository(repo.store[KeyFor(product, metric.location, metric.year) := metric])
  }

  /** `get_metric_for_location(product, location, year)`: `self._store.get(key)`. */
  function GetMetric(repo: InMemoryRepository, product: string, location: Location, year: int)
    : (r: Option<PhenologyMetric>)
    ensures r.Some? <==> KeyFor(product, location, year) in repo.store
  {
    var key := KeyFor(product, location, year);
    if key in repo.store then Some(repo.store[key]) else None
  }

  /** A metric added is the one read back for its product, location and year. */
  lemma AddThenGet(repo: InMemoryRepository, product: string, metric: PhenologyMetric)
    ensures GetMetric(AddMetric(repo, product, metric), product, metric.location, metric.year) == Some(metric)
  {
  }

  /** Adding under a key already present replaces the earlier metric. */
  lemma AddOverwrites(repo: InMemoryRepository, product: string, m1: PhenologyMetric, m2: PhenologyMetric)
    requires m1.location == m2.location && m1.year == m2.year
    ensures AddMetric(AddMetric(repo, product, m1), product, m2) == AddMetric(repo, product, m2)
  {
  }

  /** Adding leaves every other product, location and year as it was; the key is
      exact, so a location differing in the last digit is another key. */
  lemma AddKeepsOtherKeys(repo: InMemoryRepository, product: string, metric: PhenologyMetric,
                          p: string, location: Location, year: int)
    requires (p, location, year) != (product, metric.location, metric.year)
    ensures GetMetric(AddMetric(repo, product, metric), p, location, year) == GetMetric(repo, p, location, year)
  {
  }

  /** Nothing is found in a fresh repository. */
  lemma EmptyHasNothing(product: string, location: Location, year: int)
    ensures GetMetric(EmptyRepository, product, location, year) == None
  {
  }

  /** Every stored metric sits under its own location and year. */
  predicate KeysMatchMetrics(repo: InMemoryRepository) {
    forall k :: k in repo.store ==> KeyFor(k.0, repo.store[k].location, repo.store[k].year) == k
  }

  /** Adding keeps every stored metric under its own location and year. */
  lemma AddKeepsKeysMatching(repo: InMemoryRepository, product: string, metric: PhenologyMetric)
    requires KeysMatchMetrics(repo)
    ensures KeysMatchMetrics(AddMetric(repo, product, metric))
  {
  }

  /** In a repository built by `add_metric` alone, a lookup returns a metric of the
      location and year asked for. */
  lemma GetMatchesRequest(repo: InMemoryRepository, product: string, location: Location, year: int)
    requires KeysMatchMetrics(repo)
    ensures var r := GetMetric(repo, product, location, year);
            r.Some? ==> r.value.location == location && r.value.year == year
  {
    var key := KeyFor(product, location, year);
    if key in repo.store {
      var m := repo.store[key];
      assert KeyFor(product, m.location, m.year) == key;
    }
  }

  /** The in-memory repository behind the interface: it implements only the point
      lookup, so the timeseries and area operations raise. */
  function AsPhenologyRepository(repo: InMemoryRepository): (r: PhenologyRepository)
    ensures forall p, l, y :: r.metricFor(p, l, y) == GetMetric(repo, p, l, y)
    ensures forall p, l, s, e :: r.timeseriesFor(p, l, s, e).Failure?
    ensures forall p, y, g, f, m, st :: r.areaStatsFor(p, y, g, f, m, st).Failure?
  {
    PhenologyRepository(
      (p, l, y) => GetMetric(repo, p, l, y),
      (p, l, s, e) => Failure(Unsupported("get_timeseries_for_location")),
      (p, y, g, f, m, st) => Failure(Unsupported("get_area_stats")))
  }
}

=== FILE: ndvi_stack.dfy ===
/** Assembling the NDVI time stack from one single-band raster per day of year
    (`load_ndvi_stack`) and reading the series of one point out of it
    (`extract_ndvi_timeseries`). Reading a GeoTIFF is the parameter `read`; a raster
    is its coordinate axes and its bands, `bands[b][y][x]`. */
module NdviStack {
  import opened Wrappers
  import opened Text
  import opened Paths
  import opened Sorting
  import opened Domain

  datatype StackError =
    | EmptyPaths                 // ValueError("Paths must not be empty")
    | BadFilename(name: string)  // ValueError("Unexpected NDVI filename format: ...")

  /** Exactly the text `doy_DDD.tif` with three ASCII digits. */
  predicate IsDoyName(s: string) {
    |s| == 11 && s[..4] == "doy_" && AllDigits(s[4..7]) && s[7..] == ".tif"
  }

  /** The pattern `doy_(\d{3})\.tif$` matches at offset `k` of `name`: `$` accepts the
      end of the text and also the position just before a final newline. */
  predicate DoyMatchAt(name: string, k: int) {
    && 0 <= k && k + 11 <= |name|
    && IsDoyName(name[k..k + 11])
    && (k + 11 == |name| || (k + 12 == |name| && name[k + 11] == '\n'))
  }

  /** The value of the three digits matched at offset `k`. */
  function MatchedDoy(name: string, k: int): int
    requires DoyMatchAt(name, k)
  {
    Digits3Value(name[k..k + 11][4..7])
  }

  /** `_doy_from_filename`: `re.search` of the pattern in the name, then `int` of the
      group; `DoyFromFilenameIsSearch` relates it to the pattern. */
  function DoyFromFilename(name: string): (r: Result<int, StackError>)
    ensures r.Success? ==> 0 <= r.value <= 999
    ensures r.Failure? ==> r.error == BadFilename(name)
  {
    var n := |name|;
    if n >= 11 && IsDoyName(name[n - 11..n]) then
      Success(Digits3Value(name[n - 11..n][4..7]))
    else if n >= 12 && name[n - 1] == '\n' && IsDoyName(name[n - 12..n - 1]) then
      Success(Digits3Value(name[n - 12..n - 1][4..7]))
    else
      Failure(BadFilename(name))
  }

  /** A name parses exactly when the pattern matches in it, and then to the digits matched. */
  lemma DoyFromFilenameIsSearch(name: string)
    ensures DoyFromFilename(name).Success? <==> exists k :: DoyMatchAt(name, k)
    ensures DoyFromFilename(name).Success? ==>
              exists k :: DoyMatchAt(name, k) && DoyFromFilename(name).value == MatchedDoy(name, k)
  {
    var n := |name|;
    if n >= 11 && IsDoyName(name[n - 11..n]) {
      assert DoyMatchAt(name, n - 11);
    } else if n >= 12 && name[n - 1] == '\n' && IsDoyName(name[n - 12..n - 1]) {
      assert DoyMatchAt(name, n - 12);
    } else {
      NoMatch(name);
    }
  }

  /** Where the text does not end in the pattern, optionally before a newline, the
      pattern matches nowhere. */
  lemma NoMatch(name: string)
    requires !(|name| >= 11 && IsDoyName(name[|name| - 11..|name|]))
    requires !(|name| >= 12 && name[|name| - 1] == '\n' && IsDoyName(name[|name| - 12..|name| - 1]))
    ensures forall k :: !DoyMatchAt(name, k)
  {
    forall k
      ensures !DoyMatchAt(name, k)
    {
      if 0 <= k && k + 11 == |name| {
        assert name[k..k + 11] == name[|name| - 11..|name|];
      } else if 0 <= k && k + 12 == |name| {
        assert name[k..k + 11] == name[|name| - 12..|name| - 1];
      }
    }
  }

  /** Any name ending in `doy_` and three digits and `.tif` parses to those digits'
      value, whatever precedes it. */
  lemma DoyFromFilenameSuffix(prefix: string, digits: string)
    requires |digits| == 3 && AllDigits(digits)
    ensures DoyFromFilename(prefix + "doy_" + digits + ".tif") == Success(Digits3Value(digits))
  {
    var name := prefix + "doy_" + digits + ".tif";
    var n := |name|;
    var m := name[n - 11..n];
    assert m == "doy_" + digits + ".tif";
    assert m[..4] == "doy_" && m[4..7] == digits && m[7..] == ".tif";
  }

  /** The bare name `doy_DDD.tif` parses to the value of its digits. */
  lemma DoyNameParses(digits: string)
    requires |digits| == 3 && AllDigits(digits)
    ensures DoyFromFilename("doy_" + digits + ".tif") == Success(Digits3Value(digits))
  {
    var name := "doy_" + digits + ".tif";
    assert name[0..11] == name;
    assert IsDoyName(name);
    assert name[4..7] == digits;
  }

  /** The name the ingestion step writes for `doy`, `doy_{doy:03d}.tif`, parses back
      to `doy` for every DOY in 0..999. */
  lemma DoyFilenameRoundTrip(doy: int)
    requires 0 <= doy <= 999
    ensures DoyFromFilename("doy_" + Format03(doy) + ".tif") == Success(doy)
  {
    Format03RoundTrip(doy);
    DoyNameParses(Format03(doy));
  }

  /** A name that does not end in the pattern is rejected, e.g. `ndvi_001.tif`. */
  lemma DoyFromFilenameRejects()
    ensures DoyFromFilename("ndvi_001.tif") == Failure(BadFilename("ndvi_001.tif"))
    ensures DoyFromFilename("doy_01.tif") == Failure(BadFilename("doy_01.tif"))
    ensures DoyFromFilename("doy_001.tiff") == Failure(BadFilename("doy_001.tiff"))
  {
    var a, c := "ndvi_001.tif", "doy_001.tiff";
    assert !IsDoyName(a[1..12]) by {
      var w := a[1..12][..4];
      assert w[1] == a[2] == 'v';
    }
    assert !IsDoyName(c[1..12]) by {
      var w := c[1..12][..4];
      assert w[0] == c[1] == 'o';
    }
    assert c[|c| - 1] != '\n';
  }

  /** The DOY key of every path, computed in input order as `sorted(key=...)` does,
      so the first unparsable name is the one reported. */
  function DoyKeys(paths: seq<Path>): (r: Result<seq<int>, StackError>)
    ensures r.Success? ==> |r.value| == |paths|
    ensures r.Success? ==> forall i :: 0 <= i < |paths| ==> DoyFromFilename(Name(paths[i])) == Success(r.value[i])
    ensures r.Failure? ==> exists i :: FirstBadPath(paths, i) && r.error == BadFilename(Name(paths[i]))
  {
    if paths == [] then Success([])
    else
      match DoyFromFilename(Name(paths[0]))
      case Failure(e) =>
        assert FirstBadPath(paths, 0);
        Failure(e)
      case Success(d) =>
        match DoyKeys(paths[1..])
        case Failure(e) =>
          FirstBadPathShift(paths, e);
          Failure(e)
        case Success(ds) =>
          KeysCons(paths, d, ds);
          Success([d] + ds)
  }

  /** A first bad path of the tail, behind a good head, is the first bad path of the whole. */
  lemma FirstBadPathShift(paths: seq<Path>, e: StackError)
    requires paths != [] && DoyFromFilename(Name(paths[0])).Success?
    requires exists i :: FirstBadPath(paths[1..], i) && e == BadFilename(Name(paths[1..][i]))
    ensures exists i :: FirstBadPath(paths, i) && e == BadFilename(Name(paths[i]))
  {
    var i :| FirstBadPath(paths[1..], i) && e == BadFilename(Name(paths[1..][i]));
    assert forall k :: 1 <= k <= i + 1 ==> paths[k] == paths[1..][k - 1];
    assert FirstBadPath(paths, i + 1);
  }

  /** The keys of a good head followed by the keys of the tail. */
  lemma KeysCons(paths: seq<Path>, d: int, ds: seq<int>)
    requires paths != [] && DoyFromFilename(Name(paths[0])) == Success(d)
    requires |ds| == |paths| - 1
    requires forall i :: 0 <= i < |ds| ==> DoyFromFilename(Name(paths[1..][i])) == Success(ds[i])
    ensures forall i :: 0 <= i < |paths| ==> DoyFromFilename(Name(paths[i])) == Success(([d] + ds)[i])
  {
    ConsPointwise(paths, NameDoy, d, ds, v => Success(v));
  }

  /** The parse of a path's file name. */
  function NameDoy(p: Path): Result<int, StackError> {
    DoyFromFilename(Name(p))
  }

  /** Agreement of `f` and `g` on a head and on a tail is agreement on the whole. */
  lemma ConsPointwise<A, C, B>(xs: seq<A>, f: A -> B, y: C, ys: seq<C>, g: C -> B)
    requires xs != [] && |ys| == |xs| - 1 && f(xs[0]) == g(y)
    requires forall i :: 0 <= i < |ys| ==> f(xs[1..][i]) == g(ys[i])
    ensures forall i :: 0 <= i < |xs| ==> f(xs[i]) == g(([y] + ys)[i])
  {
    forall i | 1 <= i < |xs|
      ensures f(xs[i]) == g(([y] + ys)[i])
    {
      assert xs[i] == xs[1..][i - 1];
    }
  }

  /** `i` is the first path whose name does not parse. */
  predicate FirstBadPath(paths: seq<Path>, i: int) {
    && 0 <= i < |paths|
    && DoyFromFilename(Name(paths[i])).Failure?
    && forall k :: 0 <= k < i ==> DoyFromFilename(Name(paths[k])).Success?
  }

  /** A path paired with its DOY. */
  type Keyed = (Path, int)

  predicate ByDoy(a: Keyed, b: Keyed) {
    a.1 <= b.1
  }

  lemma ByDoyIsTotalPreorder()
    ensures TotalPreorder(ByDoy)
  {
  }

  function Zip(paths: seq<Path>, keys: seq<int>): (r: seq<Keyed>)
    requires |paths| == |keys|
    ensures |r| == |paths|
    ensures forall i :: 0 <= i < |r| ==> r[i] == (paths[i], keys[i])
  {
    seq(|paths|, i requires 0 <= i < |paths| => (paths[i], keys[i]))
  }

  /** `sorted(paths, key=_doy_from_filename)`, each path kept with its DOY. */
  function SortedByDoy(paths: seq<Path>): (r: Result<seq<Keyed>, StackError>)
    ensures r.Failure? <==> DoyKeys(paths).Failure?
    ensures r.Failure? ==> r.error == DoyKeys(paths).error
    ensures r.Success? ==> |r.value| == |paths|
    ensures r.Success? ==> multiset(r.value) == multiset(Zip(paths, DoyKeys(paths).value))
  {
    var keys :- DoyKeys(paths);
    Success(SortBy(Zip(paths, keys), ByDoy))
  }

  /** The sorted listing is ordered by DOY and keeps paths with equal DOYs in input order. */
  lemma SortedByDoyIsStableSort(paths: seq<Path>)
    requires SortedByDoy(paths).Success?
    ensures SortedBy(SortedByDoy(paths).value, ByDoy)
    ensures KeepsEqualKeyOrder(SortedByDoy(paths).value, Zip(paths, DoyKeys(paths).value), ByDoy)
  {
    ByDoyIsTotalPreorder();
    SortBySorted(Zip(paths, DoyKeys(paths).value), ByDoy);
    SortByStable(Zip(paths, DoyKeys(paths).value), ByDoy);
  }

  /** A single-band (or multi-band) raster on a regular grid: `bands[b][y][x]`. */
  datatype Raster = Raster(ys: seq<real>, xs: seq<real>, bands: seq<seq<seq<real>>>)

  /** What every GeoTIFF opened by `rioxarray` gives: at least one band, non-empty
      axes, and band 0 shaped as the axes. */
  predicate WellFormed(r: Raster) {
    && |r.bands| >= 1 && r.ys != [] && r.xs != []
    && |r.bands[0]| == |r.ys|
    && forall y :: 0 <= y < |r.ys| ==> |r.bands[0][y]| == |r.xs|
  }

  /** The stack: one DOY time coordinate and one raster per slice. */
  datatype Stack = Stack(time: seq<int>, rasters: seq<Raster>)

  /** `load_ndvi_stack(paths)`, with `rioxarray.open_rasterio` as `read`. */
  function LoadNdviStack(paths: seq<Path>, read: Path -> Raster): (r: Result<Stack, StackError>)
    ensures paths == [] ==> r == Failure(EmptyPaths)
    ensures paths != [] ==> (r.Failure? <==> DoyKeys(paths).Failure?)
    ensures paths != [] && r.Failure? ==> r.error == DoyKeys(paths).error
    ensures r.Success? ==> |r.value.time| == |r.value.rasters| == |paths|
    ensures r.Success? ==> forall i :: 0 <= i < |paths| ==>
              && r.value.time[i] == SortedByDoy(paths).value[i].1
              && r.value.rasters[i] == read(SortedByDoy(paths).value[i].0)
  {
    if paths == [] then Failure(EmptyPaths)
    else
      var sorted :- SortedByDoy(paths);
      Success(Stack(seq(|sorted|, i requires 0 <= i < |sorted| => sorted[i].1),
                    seq(|sorted|, i requires 0 <= i < |sorted| => read(sorted[i].0))))
  }

  /** The time coordinates of a loaded stack ascend. */
  lemma LoadedTimeAscends(paths: seq<Path>, read: Path -> Raster)
    requires LoadNdviStack(paths, read).Success?
    ensures forall i, j :: 0 <= i < j < |paths| ==>
              LoadNdviStack(paths, read).value.time[i] <= LoadNdviStack(paths, read).value.time[j]
  {
    SortedByDoyIsStableSort(paths);
  }

  /** The series of one point: DOYs and NDVI values in time order. */
  datatype NdviTimeSeries = NdviTimeSeries(doys: seq<int>, ndvi: seq<real>)

  function Dist(a: real, b: real): real {
    if a >= b then a - b else b - a
  }

  /** `i` is an index of `coords` at the least distance from `v`. */
  predicate IsNearest(coords: seq<real>, v: real, i: int) {
    0 <= i < |coords| && forall k :: 0 <= k < |coords| ==> Dist(coords[i], v) <= Dist(coords[k], v)
  }

  /** A nearest index; which of several equally near ones `sel(method="nearest")`
      picks is the library's choice, and the contract does not fix it. */
  function Nearest(coords: seq<real>, v: real): (i: nat)
    requires coords != []
    ensures IsNearest(coords, v, i)
  {
    if |coords| == 1 then 0
    else
      var j := Nearest(coords[1..], v) + 1;
      assert forall k :: 1 <= k < |coords| ==> coords[k] == coords[1..][k - 1];
      if Dist(coords[0], v) <= Dist(coords[j], v) then 0 else j
  }

  /** `x` is the band-0 value of a cell nearest to (`lat`, `lon`), with y the latitude
      axis and x the longitude axis. */
  ghost predicate IsNearestCellValue(r: Raster, lat: real, lon: real, x: real)
    requires WellFormed(r)
  {
    exists iy, ix :: IsNearest(r.ys, lat, iy) && IsNearest(r.xs, lon, ix) && x == r.bands[0][iy][ix]
  }

  function SampleBand0(r: Raster, loc: Location): (x: real)
    requires WellFormed(r)
    ensures IsNearestCellValue(r, loc.lat, loc.lon, x)
  {
    var iy, ix := Nearest(r.ys, loc.lat), Nearest(r.xs, loc.lon);
    r.bands[0][iy][ix]
  }

  /** `extract_ndvi_timeseries(stack, location)`: one value per slice, in time order. */
  function ExtractNdviTimeseries(stack: Stack, loc: Location): (ts: NdviTimeSeries)
    requires |stack.time| == |stack.rasters|
    requires forall i :: 0 <= i < |stack.rasters| ==> WellFormed(stack.rasters[i])
    ensures ts.doys == stack.time
    ensures |ts.ndvi| == |stack.rasters|
    ensures forall i :: 0 <= i < |ts.ndvi| ==> IsNearestCellValue(stack.rasters[i], loc.lat, loc.lon, ts.ndvi[i])
  {
    NdviTimeSeries(stack.time,
                   seq(|stack.rasters|, i requires 0 <= i < |stack.rasters| => SampleBand0(stack.rasters[i], loc)))
  }

  /** Band 0 of `r` holds `v` in every cell. */
  predicate ConstantBand0(r: Raster, v: real)
    requires WellFormed(r)
  {
    forall y, x :: 0 <= y < |r.ys| && 0 <= x < |r.xs| ==> r.bands[0][y][x] == v
  }

  /** Sampling a slice that holds one value everywhere gives that value, wherever the point is. */
  lemma ConstantSliceSample(r: Raster, loc: Location, v: real)
    requires WellFormed(r) && ConstantBand0(r, v)
    ensures SampleBand0(r, loc) == v
  {
    var iy, ix := Nearest(r.ys, loc.lat), Nearest(r.xs, loc.lon);
    assert r.bands[0][iy][ix] == v;
  }

  /** A stack of slices that each hold one value reproduces those values as the series,
      next to the stack's DOYs, wherever the point lies. */
  lemma ConstantStackSeries(stack: Stack, loc: Location, values: seq<real>)
    requires |stack.time| == |stack.rasters| == |values|
    requires forall i :: 0 <= i < |stack.rasters| ==> WellFormed(stack.rasters[i])
    requires forall i :: 0 <= i < |stack.rasters| ==> ConstantBand0(stack.rasters[i], values[i])
    ensures ExtractNdviTimeseries(stack, loc) == NdviTimeSeries(stack.time, values)
  {
    var ts := ExtractNdviTimeseries(stack, loc);
    forall i | 0 <= i < |values|
      ensures ts.ndvi[i] == values[i]
    {
      ConstantSliceSample(stack.rasters[i], loc, values[i]);
    }
  }

  /** Paths named `doy_DDD.tif` whose DOYs already ascend are loaded in the order given:
      the time coordinates are those DOYs and slice `i` is the raster at `paths[i]`. */
  lemma LoadInDoyOrder(paths: seq<Path>, digits: seq<string>, read: Path -> Raster)
    requires paths != [] && |digits| == |paths|
    requires forall i :: 0 <= i < |paths| ==> |digits[i]| == 3 && AllDigits(digits[i])
    requires forall i :: 0 <= i < |paths| ==> Name(paths[i]) == "doy_" + digits[i] + ".tif"
    requires forall i, j :: 0 <= i < j < |paths| ==> Digits3Value(digits[i]) <= Digits3Value(digits[j])
    ensures LoadNdviStack(paths, read).Success?
    ensures LoadNdviStack(paths, read).value.time == seq(|paths|, i requires 0 <= i < |paths| => Digits3Value(digits[i]))
    ensures forall i :: 0 <= i < |paths| ==> LoadNdviStack(paths, read).value.rasters[i] == read(paths[i])
  {
    var doys := seq(|paths|, i requires 0 <= i < |paths| => Digits3Value(digits[i]));
    DoyNamesKeys(paths, digits, doys);
    LoadAscendingKeys(paths, doys, read);
  }

  /** Paths whose DOY keys already ascend are loaded in the order given. */
  lemma LoadAscendingKeys(paths: seq<Path>, doys: seq<int>, read: Path -> Raster)
    requires paths != [] && DoyKeys(paths) == Success(doys)
    requires forall i, j :: 0 <= i < j < |paths| ==> doys[i] <= doys[j]
    ensures LoadNdviStack(paths, read).Success?
    ensures LoadNdviStack(paths, read).value.time == doys
    ensures forall i :: 0 <= i < |paths| ==> LoadNdviStack(paths, read).value.rasters[i] == read(paths[i])
  {
    AscendingKeysKeepOrder(paths, doys);
    LoadUnmoved(paths, doys, read);
  }

  lemma LoadUnmoved(paths: seq<Path>, doys: seq<int>, read: Path -> Raster)
    requires paths != [] && |doys| == |paths|
    requires SortedByDoy(paths) == Success(Zip(paths, doys))
    ensures LoadNdviStack(paths, read).Success?
    ensures LoadNdviStack(paths, read).value.time == doys
    ensures forall i :: 0 <= i < |paths| ==> LoadNdviStack(paths, read).value.rasters[i] == read(paths[i])
  {
  }

  /** When the DOY keys already ascend, sorting by them leaves the paths in place. */
  lemma AscendingKeysKeepOrder(paths: seq<Path>, doys: seq<int>)
    requires DoyKeys(paths) == Success(doys)
    requires forall i, j :: 0 <= i < j < |paths| ==> doys[i] <= doys[j]
    ensures SortedByDoy(paths) == Success(Zip(paths, doys))
  {
    var zipped := Zip(paths, doys);
    assert SortedBy(zipped, ByDoy);
    ByDoyIsTotalPreorder();
    SortByIdentity(zipped, ByDoy);
  }

  lemma DoyNamesKeys(paths: seq<Path>, digits: seq<string>, doys: seq<int>)
    requires |digits| == |paths| == |doys|
    requires forall i :: 0 <= i < |paths| ==> |digits[i]| == 3 && AllDigits(digits[i])
    requires forall i :: 0 <= i < |paths| ==> Name(paths[i]) == "doy_" + digits[i] + ".tif"
    requires forall i :: 0 <= i < |paths| ==> doys[i] == Digits3Value(digits[i])
    ensures DoyKeys(paths) == Success(doys)
  {
    forall i | 0 <= i < |paths|
      ensures DoyFromFilename(Name(paths[i])) == Success(doys[i])
    {
      DoyNameParses(digits[i]);
    }
    ParsedKeys(paths, doys);
  }

  /** When every name parses, the keys are the parsed DOYs, in order. */
  lemma {:induction false} ParsedKeys(paths: seq<Path>, doys: seq<int>)
    requires |doys| == |paths|
    requires forall i :: 0 <= i < |paths| ==> DoyFromFilename(Name(paths[i])) == Success(doys[i])
    ensures DoyKeys(paths) == Success(doys)
  {
    if paths != [] {
      forall i | 0 <= i < |paths| - 1
        ensures DoyFromFilename(Name(paths[1..][i])) == Success(doys[1..][i])
      {
        assert paths[1..][i] == paths[i + 1];
      }
      ParsedKeys(paths[1..], doys[1..]);
      assert DoyFromFilename(Name(paths[0])) == Success(doys[0]);
      assert DoyKeys(paths) == Success([doys[0]] + doys[1..]);
      assert doys == [doys[0]] + doys[1..];
    }
  }
}

=== FILE: paths.dfy ===
/** `pathlib` paths as sequences of components: `base / "raw" / product` is
    `base + ["raw", product]`, and `.name` is the last component. */
module Paths {

  type Path = seq<string>

  /** `Path.name`: the final component, empty for the empty path. */
  function Name(p: Path): string {
    if p == [] then "" else p[|p| - 1]
  }

  /** `p` is `dir / name` for some name: a direct child of `dir`. */
  predicate IsChildOf(p: Path, dir: Path) {
    |p| == |dir| + 1 && p[..|dir|] == dir
  }

  lemma ChildIsDirPlusName(p: Path, dir: Path)
    requires IsChildOf(p, dir)
    ensures p == dir + [Name(p)]
  {
  }

  lemma ChildrenWithSameNameAreEqual(p: Path, q: Path, dir: Path)
    requires IsChildOf(p, dir) && IsChildOf(q, dir) && Name(p) == Name(q)
    ensures p == q
  {
    ChildIsDirPlusName(p, dir);
    ChildIsDirPlusName(q, dir);
  }
}

=== FILE: phenology_service.dfy ===
/** `PhenologyComputationService.compute_point_phenology`: list the NDVI stack of a
    product and year, load it, read the series at the location, detect the season,
    and turn its days of the year into calendar dates. Reading a raster file is the
    parameter `read`. This service keeps no cache. */
module PhenologyService {
  import opened Wrappers
  import opened Text
  import opened Calendar
  import opened Domain
  import opened Paths
  import opened Sorting
  import opened PhenologyAlgorithm
  import opened NdviStack
  import opened RasterRepository

  datatype ComputeError =
    | StackNotFound(product: string, year: int)  // FileNotFoundError
    | StackFailed(stackError: StackError)        // raised while loading the stack
    | AlgorithmFailed(algorithmError: AlgorithmError)
    | DateFailed(dateError: DateError)           // raised by `_date_from_doy`

  const DefaultThresholdFrac: real := 0.5
  const DefaultIsForest: bool := true

  datatype PhenologyComputationService = PhenologyComputationService(rasterStore: RasterStore)

  /** Python truthiness of an optional DOY: None and 0 are both false. */
  predicate Truthy(doy: Option<int>) {
    doy.Some? && doy.value != 0
  }

  /** `_date_from_doy(year, doy) if doy else None`. */
  function DateIfTruthy(year: int, doy: Option<int>): (r: Result<Option<Date>, DateError>)
    ensures !Truthy(doy) ==> r == Success(None)
    ensures Truthy(doy) ==> (r.Success? <==> DateFromDoy(year, doy.value).Success?)
    ensures r.Success? && r.value.Some? ==>
              && Truthy(doy) && ValidDate(r.value.value)
              && Ordinal(r.value.value) == Ordinal(Date(year, 1, 1)) + doy.value - 1
    ensures r.Failure? ==> Truthy(doy) && r.error == DateFromDoy(year, doy.value).error
  {
    if doy.Some? && doy.value != 0 then
      match DateFromDoy(year, doy.value)
      case Success(d) => Success(Some(d))
      case Failure(e) => Failure(e)
    else Success(None)
  }

  /** The metric built from detected season dates: the start date is converted before
      the end date, and everything else is copied unchanged. */
  function MetricFromDates(year: int, location: Location, dates: PhenologyDates, isForest: bool)
    : (r: Result<PhenologyMetric, DateError>)
    ensures r.Success? ==> r.value.year == year && r.value.location == location
    ensures r.Success? ==> r.value.seasonLength == dates.seasonLength && r.value.isForest == isForest
    ensures r.Success? ==> (r.value.sosDate.None? <==> !Truthy(dates.sosDoy))
    ensures r.Success? ==> (r.value.eosDate.None? <==> !Truthy(dates.eosDoy))
    ensures r.Success? <==> DateIfTruthy(year, dates.sosDoy).Success? && DateIfTruthy(year, dates.eosDoy).Success?
    ensures DateIfTruthy(year, dates.sosDoy).Failure? ==> r == Failure(DateIfTruthy(year, dates.sosDoy).error)
  {
    var sos :- DateIfTruthy(year, dates.sosDoy);
    var eos :- DateIfTruthy(year, dates.eosDoy);
    Success(PhenologyMetric(year, location, sos, eos, dates.seasonLength, isForest))
  }

  /** Every file the raster reader can open is a well-formed raster. */
  ghost predicate ReadsWellFormed(read: Path -> Raster) {
    forall p :: WellFormed(read(p))
  }

  /** `compute_point_phenology(product, year, location, threshold_frac, is_forest)`. */
  function ComputePointPhenology(svc: PhenologyComputationService, read: Path -> Raster, product: string,
                                 year: int, location: Location, thresholdFrac: real, isForest: bool)
    : (r: Result<PhenologyMetric, ComputeError>)
    requires ReadsWellFormed(read)
    ensures svc.rasterStore.listNdviStackPaths(product, year) == [] ==> r == Failure(StackNotFound(product, year))
    ensures r.Success? ==> r.value.year == year && r.value.location == location && r.value.isForest == isForest
    ensures r.Failure? && r.error.StackFailed? ==>
              LoadNdviStack(svc.rasterStore.listNdviStackPaths(product, year), read) == Failure(r.error.stackError)
    ensures r.Success? ==>
              var stack := LoadNdviStack(svc.rasterStore.listNdviStackPaths(product, year), read);
              && stack.Success?
              && var ts := ExtractNdviTimeseries(stack.value, location);
                 var dates := ComputeSosEos(ts.ndvi, ts.doys, thresholdFrac);
                 dates.Success? && MetricFromDates(year, location, dates.value, isForest) == Success(r.value)
    ensures var paths := svc.rasterStore.listNdviStackPaths(product, year);
            var stack := LoadNdviStack(paths, read);
            paths != [] && stack.Failure? ==> r == Failure(StackFailed(stack.error))
    ensures var paths := svc.rasterStore.listNdviStackPaths(product, year);
            var stack := LoadNdviStack(paths, read);
            paths != [] && stack.Success? ==>
              var ts := ExtractNdviTimeseries(stack.value, location);
              var dates := ComputeSosEos(ts.ndvi, ts.doys, thresholdFrac);
              && (dates.Failure? ==> r == Failure(AlgorithmFailed(dates.error)))
              && (dates.Success? ==> r == MetricFromDates(year, location, dates.value, isForest).MapFailure(e => DateFailed(e)))
  {
    var paths := svc.rasterStore.listNdviStackPaths(product, year);
    if paths == [] then Failure(StackNotFound(product, year))
    else
      match LoadNdviStack(paths, read)
      case Failure(e) => Failure(StackFailed(e))
      case Success(stack) =>
        var ts := ExtractNdviTimeseries(stack, location);
        match ComputeSosEos(ts.ndvi, ts.doys, thresholdFrac)
        case Failure(e) => Failure(AlgorithmFailed(e))
        case Success(dates) =>
          match MetricFromDates(year, location, dates, isForest)
          case Failure(e) => Failure(DateFailed(e))
          case Success(m) => Success(m)
  }

  /** A loaded stack always has one DOY per slice, so the series handed to the
      algorithm never triggers its length check; with the default `frac` the
      algorithm does not fail at all. */
  lemma ComputeNeverFailsInAlgorithm(svc: PhenologyComputationService, read: Path -> Raster, product: string,
                                     year: int, location: Location, isForest: bool)
    requires ReadsWellFormed(read)
    ensures var r := ComputePointPhenology(svc, read, product, year, location, DefaultThresholdFrac, isForest);
            !(r.Failure? && r.error.AlgorithmFailed?)
  {
  }

  /** A DOY of 0 from the algorithm is falsy: its date is dropped, yet the season length
      computed from it is kept, so a metric can have a length but no dates. */
  lemma DoyZeroDropsDates(year: int, location: Location)
    ensures MetricFromDates(year, location, PhenologyDates(Some(0), Some(0), Some(0)), true)
         == Success(PhenologyMetric(year, location, None, None, Some(0), true))
  {
  }

  /** The algorithm does produce DOY 0 when the first slice is named `doy_000.tif` and
      holds the only value reaching the threshold. */
  lemma AlgorithmCanReturnDoyZero(ndvi: seq<real>, doys: seq<int>)
    requires ndvi == [0.9, 0.1] && doys == [0, 100]
    ensures ComputeSosEos(ndvi, doys, 0.5) == Success(PhenologyDates(Some(0), Some(0), Some(0)))
  {
    MinIs(ndvi, 0.1);
    MaxIs(ndvi, 0.9);
    assert IsFirstAtLeast(ndvi, 0.5, 0) && IsLastAtLeast(ndvi, 0.5, 0);
    SeasonAtCrossings(ndvi, doys, 0.5, 0, 0);
  }

  /** A listing of `doy_DDD.tif` files that ascends by name also ascends by DOY, so
      loading keeps the listing's order. */
  lemma ListedOrderIsDoyOrder(paths: seq<Path>, read: Path -> Raster)
    requires paths != []
    requires forall i :: 0 <= i < |paths| ==> IsDoyName(Name(paths[i]))
    requires forall i, j :: 0 <= i < j < |paths| ==> LexLess(Name(paths[i]), Name(paths[j]))
    ensures LoadNdviStack(paths, read).Success?
    ensures forall i, j :: 0 <= i < j < |paths| ==>
              LoadNdviStack(paths, read).value.time[i] < LoadNdviStack(paths, read).value.time[j]
    ensures forall i :: 0 <= i < |paths| ==> LoadNdviStack(paths, read).value.rasters[i] == read(paths[i])
  {
    var digits := seq(|paths|, i requires 0 <= i < |paths| => Name(paths[i])[4..7]);
    forall i | 0 <= i < |paths|
      ensures |digits[i]| == 3 && AllDigits(digits[i])
      ensures Name(paths[i]) == "doy_" + digits[i] + ".tif"
    {
      var n := Name(paths[i]);
      assert n == n[..4] + n[4..7] + n[7..];
    }
    forall i, j | 0 <= i < j < |paths|
      ensures Digits3Value(digits[i]) < Digits3Value(digits[j])
    {
      DoyNamesOrderedByValue(digits[i], digits[j]);
    }
    LoadInDoyOrder(paths, digits, read);
  }
}

=== FILE: pipeline_scenarios.dfy ===
/** The whole point-phenology pipeline on stacks whose slices are constant: files on
    local disk are listed, loaded in DOY order, sampled, and turned into a metric.
    The last lemma is the synthetic leap-year stack of the repository's tests. */
module PipelineScenarios {
  import opened Wrappers
  import opened Text
  import opened Calendar
  import opened Domain
  import opened Paths
  import opened Sorting
  import opened PhenologyAlgorithm
  import opened NdviStack
  import opened RasterRepository
  import opened PhenologyService
  import opened Scenarios

  /** The stack file holding day of the year `doy`. */
  function DoyFile(dir: Path, doy: int): (p: Path)
    requires 0 <= doy <= 999
    ensures IsChildOf(p, dir)
    ensures DoyFromFilename(Name(p)) == Success(doy)
  {
    DoyFilenameRoundTrip(doy);
    dir + ["doy_" + Format03(doy) + ".tif"]
  }

  /** A listing of DOY-named files whose slices hold one value each yields exactly the
      season the algorithm finds in those values, dated in the requested year. */
  lemma ComputeOnConstantStack(svc: PhenologyComputationService, read: Path -> Raster, product: string,
                               year: int, location: Location, thresholdFrac: real, isForest: bool,
                               doys: seq<int>, values: seq<real>)
    requires ReadsWellFormed(read)
    requires var paths := svc.rasterStore.listNdviStackPaths(product, year);
             && |paths| == |doys| == |values| > 0
             && DoyKeys(paths) == Success(doys)
             && (forall i :: 0 <= i < |paths| ==> ConstantBand0(read(paths[i]), values[i]))
    requires forall i, j :: 0 <= i < j < |doys| ==> doys[i] <= doys[j]
    ensures var r := ComputePointPhenology(svc, read, product, year, location, thresholdFrac, isForest);
            var dates := ComputeSosEos(values, doys, thresholdFrac);
            && (dates.Failure? ==> r == Failure(AlgorithmFailed(dates.error)))
            && (dates.Success? ==> r == MetricFromDates(year, location, dates.value, isForest).MapFailure(e => DateFailed(e)))
  {
    var paths := svc.rasterStore.listNdviStackPaths(product, year);
    LoadAscendingKeys(paths, doys, read);
    var stack := LoadNdviStack(paths, read).value;
    assert |stack.rasters| == |values|;
    ConstantStackSeries(stack, location, values);
    ComputeFromSeries(svc, read, product, year, location, thresholdFrac, isForest, stack, NdviTimeSeries(doys, values));
  }

  /** Once the listing loads into `stack` and `stack` reads as the series `ts` at the
      location, the result is decided by the algorithm on `ts` and the date conversion. */
  lemma ComputeFromSeries(svc: PhenologyComputationService, read: Path -> Raster, product: string,
                          year: int, location: Location, thresholdFrac: real, isForest: bool,
                          stack: Stack, ts: NdviTimeSeries)
    requires ReadsWellFormed(read)
    requires svc.rasterStore.listNdviStackPaths(product, year) != []
    requires LoadNdviStack(svc.rasterStore.listNdviStackPaths(product, year), read) == Success(stack)
    requires ExtractNdviTimeseries(stack, location) == ts
    ensures var r := ComputePointPhenology(svc, read, product, year, location, thresholdFrac, isForest);
            var dates := ComputeSosEos(ts.ndvi, ts.doys, thresholdFrac);
            && (dates.Failure? ==> r == Failure(AlgorithmFailed(dates.error)))
            && (dates.Success? ==> r == MetricFromDates(year, location, dates.value, isForest).MapFailure(e => DateFailed(e)))
  {
  }

  /** The files `doy_DDD.tif` of strictly ascending DOYs, all in one directory. */
  lemma DoyFilesAscend(dir: Path, doys: seq<int>, paths: seq<Path>)
    requires forall i :: 0 <= i < |doys| ==> 0 <= doys[i] <= 999
    requires forall i, j :: 0 <= i < j < |doys| ==> doys[i] < doys[j]
    requires |paths| == |doys| && forall i :: 0 <= i < |doys| ==> paths[i] == DoyFile(dir, doys[i])
    ensures DoyKeys(paths) == Success(doys)
    ensures forall i, j :: 0 <= i < j < |paths| ==> LexLess(Name(paths[i]), Name(paths[j]))
  {
    var digits := seq(|doys|, i requires 0 <= i < |doys| => Format03(doys[i]));
    forall i | 0 <= i < |doys|
      ensures |digits[i]| == 3 && AllDigits(digits[i]) && Digits3Value(digits[i]) == doys[i]
    {
      Format03RoundTrip(doys[i]);
    }
    DoyNamesKeys(paths, digits, doys);
    forall i, j | 0 <= i < j < |paths|
      ensures LexLess(Name(paths[i]), Name(paths[j]))
    {
      DoyNamesOrderedByValue(digits[i], digits[j]);
    }
  }

  const SynthDoys: seq<int> := [1, 50, 100, 150, 200, 250, 300, 350]
  const SynthNdvi: seq<real> := [0.1, 0.12, 0.2, 0.5, 0.7, 0.6, 0.25, 0.12]

  /** The synthetic stack of 2020 on local disk: its directory exists, its matching
      entries are the eight DOY files, and each slice holds one value everywhere.
      Then the computed metric starts on May 29, ends on September 6 and lasts
      100 days, at any location. */
  lemma SyntheticStackPhenology(dataDir: Path, fs: FileSystem, read: Path -> Raster,
                                paths: seq<Path>, location: Location)
    requires ReadsWellFormed(read)
    requires NoDuplicates(fs)
    requires var dir := StackDir(LocalRasterRepository(dataDir), "ndvi_synth", 2020);
             && dir in fs
             && |paths| == 8
             && (forall i :: 0 <= i < 8 ==> paths[i] == DoyFile(dir, SynthDoys[i]))
             && (forall p :: p in fs && GlobHit(p, dir) <==> p in paths)
    requires forall i :: 0 <= i < 8 ==> ConstantBand0(read(paths[i]), SynthNdvi[i])
    ensures var svc := PhenologyComputationService(AsRasterStore(LocalRasterRepository(dataDir), fs));
            ComputePointPhenology(svc, read, "ndvi_synth", 2020, location, DefaultThresholdFrac, DefaultIsForest)
            == Success(PhenologyMetric(2020, location, Some(Date(2020, 5, 29)), Some(Date(2020, 9, 6)), Some(100), true))
  {
    var svc := PhenologyComputationService(AsRasterStore(LocalRasterRepository(dataDir), fs));
    var doys, ndvi := SynthDoys, SynthNdvi;
    SynthDoysAscend(doys);
    ListedDoyFiles(dataDir, fs, "ndvi_synth", 2020, paths, doys);
    assert svc.rasterStore.listNdviStackPaths("ndvi_synth", 2020) == paths;
    assert forall i, j :: 0 <= i < j < |doys| ==> doys[i] <= doys[j];
    ComputeOnConstantStack(svc, read, "ndvi_synth", 2020, location, DefaultThresholdFrac, DefaultIsForest,
                           doys, ndvi);
    SyntheticSeason(location, ndvi, doys);
  }

  /** The DOY files of a stack directory, when they are its only matching entries,
      are listed in DOY order and their names give back their DOYs. */
  lemma ListedDoyFiles(dataDir: Path, fs: FileSystem, product: string, year: int,
                       paths: seq<Path>, doys: seq<int>)
    requires forall i :: 0 <= i < |doys| ==> 0 <= doys[i] <= 999
    requires forall i, j :: 0 <= i < j < |doys| ==> doys[i] < doys[j]
    requires NoDuplicates(fs)
    requires var dir := StackDir(LocalRasterRepository(dataDir), product, year);
             && dir in fs
             && |paths| == |doys|
             && (forall i :: 0 <= i < |doys| ==> paths[i] == DoyFile(dir, doys[i]))
             && (forall p :: p in fs && GlobHit(p, dir) <==> p in paths)
    ensures ListNdviStackPaths(LocalRasterRepository(dataDir), fs, product, year) == paths
    ensures DoyKeys(paths) == Success(doys)
  {
    var repo := LocalRasterRepository(dataDir);
    DoyFilesAscend(StackDir(repo, product, year), doys, paths);
    ListingOfAscendingNames(repo, fs, product, year, paths);
  }

  /** The synthetic DOYs are three-digit and strictly ascending. */
  lemma SynthDoysAscend(doys: seq<int>)
    requires doys == [1, 50, 100, 150, 200, 250, 300, 350]
    ensures forall i :: 0 <= i < |doys| ==> 0 <= doys[i] <= 999
    ensures forall i, j :: 0 <= i < j < |doys| ==> doys[i] < doys[j]
  {
    forall i, j | 0 <= i < j < |doys|
      ensures doys[i] < doys[j]
    {
      assert doys[i] == 50 * i || (i == 0 && doys[i] == 1);
      assert doys[j] == 50 * j;
    }
  }

  /** The synthetic series gives DOYs 150 and 250, which are the dates of the metric. */
  lemma SyntheticSeason(location: Location, ndvi: seq<real>, doys: seq<int>)
    requires ndvi == [0.1, 0.12, 0.2, 0.5, 0.7, 0.6, 0.25, 0.12]
    requires doys == [1, 50, 100, 150, 200, 250, 300, 350]
    ensures ComputeSosEos(ndvi, doys, 0.5).Success?
    ensures MetricFromDates(2020, location, ComputeSosEos(ndvi, doys, 0.5).value, true)
         == Success(PhenologyMetric(2020, location, Some(Date(2020, 5, 29)), Some(Date(2020, 9, 6)), Some(100), true))
  {
    SummerPeakScenario(ndvi, doys);
    LeapYearDateExamples();
  }
}

=== FILE: query_service.dfy ===
/** `QueryService`: read-only phenology queries in front of a repository, each with
    an optional cache-aside cache. A cache is a partial map from key to value (expiry
    could only turn hits into misses); a stored value is never `None`, so
    `cached is not None` is key membership. The service is a value: each query
    returns the next service state, whose `repoCalls` counts repository calls. */
module Query {
  import opened Wrappers
  import opened Domain
  import opened GeoJson
  import opened MetricStorage
  import opened CacheKeys

  datatype QueryService = QueryService(
    repo: PhenologyRepository,
    enc: KeyEncoding,
    pointCache: Option<map<string, PhenologyMetric>>,
    areaStatsCache: Option<map<string, Json>>,
    timeseriesCache: Option<map<string, seq<PhenologyMetric>>>,
    repoCalls: nat)

  const DefaultOnlyForest: bool := false
  const DefaultMinSeasonLength: Option<int> := None
  const DefaultSeasonLengthStat: string := "mean"

  /** A fresh service: no repository call made yet. */
  function NewQueryService(repo: PhenologyRepository, enc: KeyEncoding,
                           pointCache: Option<map<string, PhenologyMetric>>,
                           areaStatsCache: Option<map<string, Json>>,
                           timeseriesCache: Option<map<string, seq<PhenologyMetric>>>): (svc: QueryService)
    ensures svc.repoCalls == 0 && svc.repo == repo && svc.enc == enc
  {
    QueryService(repo, enc, pointCache, areaStatsCache, timeseriesCache, 0)
  }

  /** The point key of a repository lookup: source `repo`, no threshold. */
  function RepoPointKey(enc: KeyEncoding, product: string, location: Location, year: int): string {
    PointMetricKey(enc, "repo", product, year, location, None)
  }

  predicate PointHit(svc: QueryService, key: string) {
    svc.pointCache.Some? && key in svc.pointCache.value
  }

  /** `get_point_metric(product, location, year)`. */
  function GetPointMetric(svc: QueryService, product: string, location: Location, year: int)
    : (r: (QueryService, Option<PhenologyMetric>))
    ensures var key := RepoPointKey(svc.enc, product, location, year);
            PointHit(svc, key) ==> r.0 == svc && r.1 == Some(svc.pointCache.value[key])
    ensures var key := RepoPointKey(svc.enc, product, location, year);
            !PointHit(svc, key) ==>
              && r.0.repoCalls == svc.repoCalls + 1
              && r.1 == svc.repo.metricFor(product, location, year)
              && (r.1.Some? && svc.pointCache.Some? ==> r.0.pointCache == Some(svc.pointCache.value[key := r.1.value]))
              && (r.1.None? || svc.pointCache.None? ==> r.0.pointCache == svc.pointCache)
    ensures r.0.repo == svc.repo && r.0.enc == svc.enc
    ensures r.0.areaStatsCache == svc.areaStatsCache && r.0.timeseriesCache == svc.timeseriesCache
  {
    var key := RepoPointKey(svc.enc, product, location, year);
    if PointHit(svc, key) then (svc, Some(svc.pointCache.value[key]))
    else
      var metric := svc.repo.metricFor(product, location, year);
      var called := svc.(repoCalls := svc.repoCalls + 1);
      if metric.Some? && svc.pointCache.Some? then
        (called.(pointCache := Some(svc.pointCache.value[key := metric.value])), metric)
      else (called, metric)
  }

  predicate TimeseriesHit(svc: QueryService, key: string) {
    svc.timeseriesCache.Some? && key in svc.timeseriesCache.value
  }

  /** `get_point_timeseries(product, location, start_year, end_year)`. Any list the
      repository returns is stored, the empty list included; a raised error is not. */
  function GetPointTimeseries(svc: QueryService, product: string, location: Location, startYear: int, endYear: int)
    : (r: (QueryService, Result<seq<PhenologyMetric>, RepoError>))
    ensures var key := TimeseriesKey(svc.enc, product, location, startYear, endYear);
            TimeseriesHit(svc, key) ==> r.0 == svc && r.1 == Success(svc.timeseriesCache.value[key])
    ensures var key := TimeseriesKey(svc.enc, product, location, startYear, endYear);
            !TimeseriesHit(svc, key) ==>
              && r.0.repoCalls == svc.repoCalls + 1
              && r.1 == svc.repo.timeseriesFor(product, location, startYear, endYear)
              && (r.1.Success? && svc.timeseriesCache.Some? ==>
                    r.0.timeseriesCache == Some(svc.timeseriesCache.value[key := r.1.value]))
              && (r.1.Failure? || svc.timeseriesCache.None? ==> r.0.timeseriesCache == svc.timeseriesCache)
    ensures r.0.repo == svc.repo && r.0.enc == svc.enc
    ensures r.0.pointCache == svc.pointCache && r.0.areaStatsCache == svc.areaStatsCache
  {
    var key := TimeseriesKey(svc.enc, product, location, startYear, endYear);
    if TimeseriesHit(svc, key) then (svc, Success(svc.timeseriesCache.value[key]))
    else
      var data := svc.repo.timeseriesFor(product, location, startYear, endYear);
      var called := svc.(repoCalls := svc.repoCalls + 1);
      match data
      case Failure(e) => (called, Failure(e))
      case Success(series) =>
        if svc.timeseriesCache.Some? then
          (called.(timeseriesCache := Some(svc.timeseriesCache.value[key := series])), data)
        else (called, data)
  }

  predicate AreaHit(svc: QueryService, key: string) {
    svc.areaStatsCache.Some? && key in svc.areaStatsCache.value
  }

  /** `get_area_stats(product, year, polygon_geojson, only_forest, min_season_length,
      season_length_stat)`. A `None` result is not stored. */
  function GetAreaStats(svc: QueryService, product: string, year: int, polygon: Json, onlyForest: bool,
                        minSeasonLength: Option<int>, seasonLengthStat: string)
    : (r: (QueryService, Result<Option<Json>, RepoError>))
    ensures var key := AreaStatsKey(svc.enc, product, year, polygon, onlyForest, minSeasonLength, seasonLengthStat);
            AreaHit(svc, key) ==> r.0 == svc && r.1 == Success(Some(svc.areaStatsCache.value[key]))
    ensures var key := AreaStatsKey(svc.enc, product, year, polygon, onlyForest, minSeasonLength, seasonLengthStat);
            !AreaHit(svc, key) ==>
              && r.0.repoCalls == svc.repoCalls + 1
              && r.1 == svc.repo.areaStatsFor(product, year, polygon, onlyForest, minSeasonLength, seasonLengthStat)
              && (r.1.Success? && r.1.value.Some? && svc.areaStatsCache.Some? ==>
                    r.0.areaStatsCache == Some(svc.areaStatsCache.value[key := r.1.value.value]))
              && (r.1.Failure? || r.1.value.None? || svc.areaStatsCache.None? ==>
                    r.0.areaStatsCache == svc.areaStatsCache)
    ensures r.0.repo == svc.repo && r.0.enc == svc.enc
    ensures r.0.pointCache == svc.pointCache && r.0.timeseriesCache == svc.timeseriesCache
  {
    var key := AreaStatsKey(svc.enc, product, year, polygon, onlyForest, minSeasonLength, seasonLengthStat);
    if AreaHit(svc, key) then (svc, Success(Some(svc.areaStatsCache.value[key])))
    else
      var stats := svc.repo.areaStatsFor(product, year, polygon, onlyForest, minSeasonLength, seasonLengthStat);
      var called := svc.(repoCalls := svc.repoCalls + 1);
      match stats
      case Success(Some(s)) =>
        if svc.areaStatsCache.Some? then
          (called.(areaStatsCache := Some(svc.areaStatsCache.value[key := s])), stats)
        else (called, stats)
      case _ => (called, stats)
  }

  /** A cached point metric is the repository's answer to some lookup with that key. */
  ghost predicate PointEntrySound(repo: PhenologyRepository, enc: KeyEncoding, key: string, m: PhenologyMetric) {
    exists p, l, y :: key == RepoPointKey(enc, p, l, y) && repo.metricFor(p, l, y) == Some(m)
  }

  /** A cached series is the repository's answer to some query with that key. */
  ghost predicate TimeseriesEntrySound(repo: PhenologyRepository, enc: KeyEncoding, key: string,
                                       series: seq<PhenologyMetric>) {
    exists p, l, s, e :: key == TimeseriesKey(enc, p, l, s, e) && repo.timeseriesFor(p, l, s, e) == Success(series)
  }

  /** Cached statistics are the repository's answer to some query with that key. */
  ghost predicate AreaEntrySound(repo: PhenologyRepository, enc: KeyEncoding, key: string, stats: Json) {
    exists p, y, g, f, m, st :: key == AreaStatsKey(enc, p, y, g, f, m, st)
                                && repo.areaStatsFor(p, y, g, f, m, st) == Success(Some(stats))
  }

  /** Every cached entry came from the repository under its own key. */
  ghost predicate CachesSound(svc: QueryService) {
    && (svc.pointCache.Some? ==>
          forall k :: k in svc.pointCache.value ==> PointEntrySound(svc.repo, svc.enc, k, svc.pointCache.value[k]))
    && (svc.timeseriesCache.Some? ==>
          forall k :: k in svc.timeseriesCache.value ==>
                        TimeseriesEntrySound(svc.repo, svc.enc, k, svc.timeseriesCache.value[k]))
    && (svc.areaStatsCache.Some? ==>
          forall k :: k in svc.areaStatsCache.value ==>
                        AreaEntrySound(svc.repo, svc.enc, k, svc.areaStatsCache.value[k]))
  }

  /** A service whose caches start empty, as the application wires it, is sound. */
  lemma FreshServiceSound(repo: PhenologyRepository, enc: KeyEncoding, point: bool, area: bool, series: bool)
    ensures CachesSound(NewQueryService(repo, enc, if point then Some(map[]) else None,
                                        if area then Some(map[]) else None,
                                        if series then Some(map[]) else None))
  {
  }

  /** Every query keeps the caches sound. */
  lemma PointQueryKeepsSound(svc: QueryService, product: string, location: Location, year: int)
    requires CachesSound(svc)
    ensures CachesSound(GetPointMetric(svc, product, location, year).0)
  {
    var r := GetPointMetric(svc, product, location, year);
    var key := RepoPointKey(svc.enc, product, location, year);
    if !PointHit(svc, key) && r.1.Some? && svc.pointCache.Some? {
      forall k | k in r.0.pointCache.value
        ensures PointEntrySound(svc.repo, svc.enc, k, r.0.pointCache.value[k])
      {
        if k == key {
          assert svc.repo.metricFor(product, location, year) == Some(r.0.pointCache.value[k]);
        }
      }
    }
  }

  lemma TimeseriesQueryKeepsSound(svc: QueryService, product: string, location: Location, startYear: int, endYear: int)
    requires CachesSound(svc)
    ensures CachesSound(GetPointTimeseries(svc, product, location, startYear, endYear).0)
  {
    var r := GetPointTimeseries(svc, product, location, startYear, endYear);
    var key := TimeseriesKey(svc.enc, product, location, startYear, endYear);
    if !TimeseriesHit(svc, key) && r.1.Success? && svc.timeseriesCache.Some? {
      forall k | k in r.0.timeseriesCache.value
        ensures TimeseriesEntrySound(svc.repo, svc.enc, k, r.0.timeseriesCache.value[k])
      {
        if k == key {
          assert svc.repo.timeseriesFor(product, location, startYear, endYear)
              == Success(r.0.timeseriesCache.value[k]);
        }
      }
    }
  }

  lemma AreaQueryKeepsSound(svc: QueryService, product: string, year: int, polygon: Json, onlyForest: bool,
                            minSeasonLength: Option<int>, stat: string)
    requires CachesSound(svc)
    ensures CachesSound(GetAreaStats(svc, product, year, polygon, onlyForest, minSeasonLength, stat).0)
  {
    var r := GetAreaStats(svc, product, year, polygon, onlyForest, minSeasonLength, stat);
    var key := AreaStatsKey(svc.enc, product, year, polygon, onlyForest, minSeasonLength, stat);
    if !AreaHit(svc, key) && r.1.Success? && r.1.value.Some? && svc.areaStatsCache.Some? {
      forall k | k in r.0.areaStatsCache.value
        ensures AreaEntrySound(svc.repo, svc.enc, k, r.0.areaStatsCache.value[k])
      {
        if k == key {
          assert svc.repo.areaStatsFor(product, year, polygon, onlyForest, minSeasonLength, stat)
              == Success(Some(r.0.areaStatsCache.value[k]));
        }
      }
    }
  }

  /** With sound caches, a point answer is what the repository holds for the same
      product and year at a location equal to the one asked after rounding to 6
      places; `None` means the repository itself had nothing at that location. */
  lemma PointAnswerComesFromRepository(svc: QueryService, product: string, location: Location, year: int)
    requires CachesSound(svc) && ValidEncoding(svc.enc)
    ensures var r := GetPointMetric(svc, product, location, year);
            r.1.Some? ==> exists l: Location :: && svc.enc.round(l.lat, 6) == svc.enc.round(location.lat, 6)
                                      && svc.enc.round(l.lon, 6) == svc.enc.round(location.lon, 6)
                                      && svc.repo.metricFor(product, l, year) == r.1
    ensures var r := GetPointMetric(svc, product, location, year);
            r.1.None? ==> svc.repo.metricFor(product, location, year) == None
  {
    var key := RepoPointKey(svc.enc, product, location, year);
    if PointHit(svc, key) {
      CachedPointFromRepository(svc, product, location, year);
    }
  }

  /** A cached point metric was read from the repository for the same product and
      year, at a location that rounds to the same coordinates. */
  lemma CachedPointFromRepository(svc: QueryService, product: string, location: Location, year: int)
    requires CachesSound(svc) && ValidEncoding(svc.enc)
    requires PointHit(svc, RepoPointKey(svc.enc, product, location, year))
    ensures exists l: Location :: && svc.enc.round(l.lat, 6) == svc.enc.round(location.lat, 6)
                                  && svc.enc.round(l.lon, 6) == svc.enc.round(location.lon, 6)
                                  && svc.repo.metricFor(product, l, year)
                                     == Some(svc.pointCache.value[RepoPointKey(svc.enc, product, location, year)])
  {
    var key := RepoPointKey(svc.enc, product, location, year);
    SoundPointEntry(svc.repo, svc.enc, product, location, year, svc.pointCache.value[key]);
  }

  /** The service holds no reference to the store it was built on: once a point
      metric is cached, overwriting it in the in-memory store (`add_metric` with the
      same product, location and year) leaves the old metric in the cache, and the
      next query returns it although the store now answers the new one. */
  lemma StaleHitAfterOverwrite(svc: QueryService, store: InMemoryRepository, product: string,
                               m1: PhenologyMetric, m2: PhenologyMetric)
    requires svc.pointCache == Some(map[]) && svc.repo == AsPhenologyRepository(store)
    requires GetMetric(store, product, m1.location, m1.year) == Some(m1)
    requires m2.location == m1.location && m2.year == m1.year && m2 != m1
    ensures var first := GetPointMetric(svc, product, m1.location, m1.year);
            var changed := first.0.(repo := AsPhenologyRepository(AddMetric(store, product, m2)));
            var second := GetPointMetric(changed, product, m1.location, m1.year);
            && first.1 == Some(m1)
            && changed.repo.metricFor(product, m1.location, m1.year) == Some(m2)
            && second.1 == Some(m1)
            && second.0.repoCalls == first.0.repoCalls
  {
    var first := GetPointMetric(svc, product, m1.location, m1.year);
    var key := RepoPointKey(svc.enc, product, m1.location, m1.year);
    assert !PointHit(svc, key);
    assert PointHit(first.0, key);
    AddThenGet(store, product, m2);
  }

  /** What a sound entry under a repository point key says about the repository. */
  lemma SoundPointEntry(repo: PhenologyRepository, enc: KeyEncoding, product: string, location: Location,
                        year: int, m: PhenologyMetric)
    requires ValidEncoding(enc)
    requires PointEntrySound(repo, enc, RepoPointKey(enc, product, location, year), m)
    ensures exists l: Location :: && enc.round(l.lat, 6) == enc.round(location.lat, 6)
                                  && enc.round(l.lon, 6) == enc.round(location.lon, 6)
                                  && repo.metricFor(product, l, year) == Some(m)
  {
    var key := RepoPointKey(enc, product, location, year);
    var p, l, y :| key == RepoPointKey(enc, p, l, y) && repo.metricFor(p, l, y) == Some(m);
    PointKeyInjective(enc, "repo", product, year, location, None, "repo", p, y, l, None);
  }

  /** With a point cache, repeating a query that found a metric makes no second
      repository call and returns the same metric. */
  lemma RepeatedPointQueryHitsCache(svc: QueryService, product: string, location: Location, year: int)
    requires svc.pointCache.Some?
    ensures var first := GetPointMetric(svc, product, location, year);
            var second := GetPointMetric(first.0, product, location, year);
            first.1.Some? ==> second.0.repoCalls == first.0.repoCalls && second.1 == first.1
  {
    var first := GetPointMetric(svc, product, location, year);
    var key := RepoPointKey(svc.enc, product, location, year);
    if first.1.Some? {
      assert PointHit(first.0, key);
    }
  }

  /** A `None` from the repository is not cached, so asking again calls it again. */
  lemma MissingPointQueriedAgain(svc: QueryService, product: string, location: Location, year: int)
    ensures var first := GetPointMetric(svc, product, location, year);
            var second := GetPointMetric(first.0, product, location, year);
            first.1.None? ==> second.0.repoCalls == first.0.repoCalls + 1
  {
    var first := GetPointMetric(svc, product, location, year);
    var key := RepoPointKey(svc.enc, product, location, year);
    if first.1.None? {
      assert !PointHit(svc, key);
      assert !PointHit(first.0, key);
    }
  }

  /** Starting from an empty point cache, asking for two different years calls the
      repository twice, whatever the first call returned. */
  lemma PointYearChangeCallsRepository(svc: QueryService, product: string, location: Location, y1: int, y2: int)
    requires svc.pointCache == Some(map[]) && ValidEncoding(svc.enc)
    requires y1 != y2
    ensures var first := GetPointMetric(svc, product, location, y1);
            GetPointMetric(first.0, product, location, y2).0.repoCalls == svc.repoCalls + 2
  {
    var first := GetPointMetric(svc, product, location, y1);
    var k1 := RepoPointKey(svc.enc, product, location, y1);
    var k2 := RepoPointKey(svc.enc, product, location, y2);
    PointKeyInjective(svc.enc, "repo", product, y1, location, None, "repo", product, y2, location, None);
    assert first.0.pointCache.value.Keys <= {k1};
    assert !PointHit(first.0, k2);
  }

  /** With a timeseries cache, a repeated query is answered from the cache even when
      the stored series is empty. */
  lemma RepeatedTimeseriesQueryHitsCache(svc: QueryService, product: string, location: Location,
                                         startYear: int, endYear: int)
    requires svc.timeseriesCache.Some?
    ensures var first := GetPointTimeseries(svc, product, location, startYear, endYear);
            var second := GetPointTimeseries(first.0, product, location, startYear, endYear);
            first.1.Success? ==> second.0.repoCalls == first.0.repoCalls && second.1 == first.1
  {
    var first := GetPointTimeseries(svc, product, location, startYear, endYear);
    var key := TimeseriesKey(svc.enc, product, location, startYear, endYear);
    if first.1.Success? {
      assert TimeseriesHit(first.0, key);
    }
  }

  /** Starting from an empty timeseries cache, a different start year calls the
      repository again. */
  lemma TimeseriesStartYearChangeCallsRepository(svc: QueryService, product: string, location: Location,
                                                 s1: int, s2: int, endYear: int)
    requires svc.timeseriesCache == Some(map[]) && ValidEncoding(svc.enc)
    requires s1 != s2
    ensures var first := GetPointTimeseries(svc, product, location, s1, endYear);
            GetPointTimeseries(first.0, product, location, s2, endYear).0.repoCalls == svc.repoCalls + 2
  {
    var first := GetPointTimeseries(svc, product, location, s1, endYear);
    var k1 := TimeseriesKey(svc.enc, product, location, s1, endYear);
    var k2 := TimeseriesKey(svc.enc, product, location, s2, endYear);
    TimeseriesKeyInjective(svc.enc, product, location, s1, endYear, product, location, s2, endYear);
    assert first.0.timeseriesCache.value.Keys <= {k1};
    assert !TimeseriesHit(first.0, k2);
  }

  /** Starting from an empty area cache, changing only the forest filter calls the
      repository again, whatever the first call returned. */
  lemma AreaFilterChangeCallsRepository(svc: QueryService, product: string, year: int, polygon: Json,
                                        f1: bool, f2: bool, minSeasonLength: Option<int>, stat: string)
    requires svc.areaStatsCache == Some(map[]) && DigestColonFree(svc.enc)
    requires ':' !in stat && f1 != f2
    ensures var first := GetAreaStats(svc, product, year, polygon, f1, minSeasonLength, stat);
            GetAreaStats(first.0, product, year, polygon, f2, minSeasonLength, stat).0.repoCalls == svc.repoCalls + 2
  {
    var first := GetAreaStats(svc, product, year, polygon, f1, minSeasonLength, stat);
    var k1 := AreaStatsKey(svc.enc, product, year, polygon, f1, minSeasonLength, stat);
    var k2 := AreaStatsKey(svc.enc, product, year, polygon, f2, minSeasonLength, stat);
    AreaStatsKeyInjective(svc.enc, product, year, polygon, f1, minSeasonLength, stat,
                          product, year, polygon, f2, minSeasonLength, stat);
    assert first.0.areaStatsCache.value.Keys <= {k1};
    assert !AreaHit(first.0, k2);
  }

  /** With an area cache, a repeated query that found statistics is answered from
      the cache; one that found `None` calls the repository again. */
  lemma RepeatedAreaQuery(svc: QueryService, product: string, year: int, polygon: Json, onlyForest: bool,
                          minSeasonLength: Option<int>, stat: string)
    requires svc.areaStatsCache.Some?
    ensures var first := GetAreaStats(svc, product, year, polygon, onlyForest, minSeasonLength, stat);
            var second := GetAreaStats(first.0, product, year, polygon, onlyForest, minSeasonLength, stat);
            && (first.1.Success? && first.1.value.Some? ==>
                  second.0.repoCalls == first.0.repoCalls && second.1 == first.1)
            && (first.1 == Success(None) ==> second.0.repoCalls == first.0.repoCalls + 1)
  {
    var first := GetAreaStats(svc, product, year, polygon, onlyForest, minSeasonLength, stat);
    var key := AreaStatsKey(svc.enc, product, year, polygon, onlyForest, minSeasonLength, stat);
    if first.1.Success? && first.1.value.Some? {
      assert AreaHit(first.0, key);
    }
    if first.1 == Success(None) {
      assert !AreaHit(svc, key);
      assert !AreaHit(first.0, key);
    }
  }

  /** A cached area answer also serves the same polygon written with its keys in
      another order. */
  lemma AreaCacheIgnoresKeyOrder(svc: QueryService, product: string, year: int, g1: Json, g2: Json,
                                 onlyForest: bool, minSeasonLength: Option<int>, stat: string)
    requires svc.areaStatsCache.Some?
    requires WellFormed(g1) && WellFormed(g2) && SameUpToMemberOrder(g1, g2)
    ensures var first := GetAreaStats(svc, product, year, g1, onlyForest, minSeasonLength, stat);
            var second := GetAreaStats(first.0, product, year, g2, onlyForest, minSeasonLength, stat);
            first.1.Success? && first.1.value.Some? ==>
              second.0.repoCalls == first.0.repoCalls && second.1 == first.1
  {
    AreaKeyIgnoresMemberOrder(svc.enc, product, year, g1, g2, onlyForest, minSeasonLength, stat);
    RepeatedAreaQuery(svc, product, year, g1, onlyForest, minSeasonLength, stat);
  }
}

=== FILE: raster_repository.dfy ===
/** Finding raw rasters on local disk (`LocalRasterRepository`): the yearly raster
    path `data_dir/raw/product/{year}.tif`, its existence, and the NDVI stack listing
    `sorted((data_dir/raw/product/year).glob("doy_*.tif"))`. The filesystem is the
    sequence of every existing path, files and directories alike, in the arbitrary
    order the operating system enumerates them. */
module RasterRepository {
  import opened Text
  import opened Paths
  import opened Sorting

  /** Every existing path, each once, in enumeration order. */
  type FileSystem = seq<Path>

  /** The interface a raster store offers (the abstract `RasterRepository`). */
  datatype RasterStore = RasterStore(
    rawRasterPath: (string, int) -> Path,
    rasterExists: (string, int) -> bool,
    listNdviStackPaths: (string, int) -> seq<Path>)

  datatype LocalRasterRepository = LocalRasterRepository(dataDir: Path)

  /** `data_dir / "raw" / product / f"{year}.tif"`; no filesystem access. */
  function RawRasterPath(repo: LocalRasterRepository, product: string, year: int): (p: Path)
    ensures |p| == |repo.dataDir| + 3 && p[..|repo.dataDir|] == repo.dataDir
    ensures Name(p) == IntText(year) + ".tif"
  {
    repo.dataDir + ["raw", product, IntText(year) + ".tif"]
  }

  /** Different products or years never share a raw raster path. */
  lemma RawRasterPathInjective(repo: LocalRasterRepository, p1: string, y1: int, p2: string, y2: int)
    requires RawRasterPath(repo, p1, y1) == RawRasterPath(repo, p2, y2)
    ensures p1 == p2 && y1 == y2
  {
    var a, b := RawRasterPath(repo, p1, y1), RawRasterPath(repo, p2, y2);
    var n := |repo.dataDir|;
    assert a[n + 1] == p1 && b[n + 1] == p2;
    assert a[n + 2] == IntText(y1) + ".tif" && b[n + 2] == IntText(y2) + ".tif";
    CancelSuffix(IntText(y1), IntText(y2), ".tif");
    IntTextInjective(y1, y2);
  }

  lemma CancelSuffix(x: string, y: string, t: string)
    requires x + t == y + t
    ensures x == y
  {
    assert x == (x + t)[..|x|];
    assert y == (y + t)[..|y|];
  }

  /** `raw_raster_path(product, year).exists()`. */
  predicate Exists(repo: LocalRasterRepository, fs: FileSystem, product: string, year: int) {
    RawRasterPath(repo, product, year) in fs
  }

  /** An empty data directory holds no raster, and creating a path makes exactly the
      raster stored at that path exist in addition to those that already did. */
  lemma ExistsAfterAdd(repo: LocalRasterRepository, fs: FileSystem, q: Path, product: string, year: int)
    ensures !Exists(repo, [], product, year)
    ensures Exists(repo, fs + [q], product, year) <==> Exists(repo, fs, product, year) || q == RawRasterPath(repo, product, year)
  {
    assert (fs + [q])[|fs|] == q;
    assert forall p :: p in fs + [q] <==> p in fs || p == q;
  }

  /** Storing the yearly raster of one product and year makes no other raster exist. */
  lemma StoringRasterMakesOnlyItExist(repo: LocalRasterRepository, fs: FileSystem, p1: string, y1: int,
                                      p2: string, y2: int)
    ensures Exists(repo, fs + [RawRasterPath(repo, p1, y1)], p2, y2) <==> Exists(repo, fs, p2, y2) || (p1 == p2 && y1 == y2)
  {
    ExistsAfterAdd(repo, fs, RawRasterPath(repo, p1, y1), p2, y2);
    if RawRasterPath(repo, p1, y1) == RawRasterPath(repo, p2, y2) {
      RawRasterPathInjective(repo, p1, y1, p2, y2);
    }
  }

  /** `data_dir / "raw" / product / str(year)`. */
  function StackDir(repo: LocalRasterRepository, product: string, year: int): Path {
    repo.dataDir + ["raw", product, IntText(year)]
  }

  /** `fnmatch` of the name against `doy_*.tif`: the `*` matches any text, empty included. */
  predicate GlobMatch(name: string) {
    |name| >= 8 && name[..4] == "doy_" && name[|name| - 4..] == ".tif"
  }

  /** Entry `p` is what `dir.glob("doy_*.tif")` yields: a direct child with a matching name. */
  predicate GlobHit(p: Path, dir: Path) {
    IsChildOf(p, dir) && GlobMatch(Name(p))
  }

  /** The glob hits in enumeration order. */
  function GlobHits(fs: FileSystem, dir: Path): (r: seq<Path>)
    ensures forall p :: p in r <==> p in fs && GlobHit(p, dir)
    ensures multiset(r) <= multiset(fs)
  {
    if fs == [] then []
    else
      assert fs == [fs[0]] + fs[1..];
      (if GlobHit(fs[0], dir) then [fs[0]] else []) + GlobHits(fs[1..], dir)
  }

  /** Paths ordered by name, which is the order of pathlib's `<` between siblings. */
  predicate ByName(a: Path, b: Path) {
    LexLeq(Name(a), Name(b))
  }

  lemma ByNameIsTotalPreorder()
    ensures TotalPreorder(ByName)
  {
    forall a: Path, b: Path
      ensures ByName(a, b) || ByName(b, a)
    {
      LexTrichotomy(Name(a), Name(b));
    }
    forall a: Path, b: Path, c: Path | ByName(a, b) && ByName(b, c)
      ensures ByName(a, c)
    {
      if LexLess(Name(a), Name(b)) && LexLess(Name(b), Name(c)) {
        LexLessTransitive(Name(a), Name(b), Name(c));
      }
    }
  }

  /** `list_ndvi_stack_paths(product, year)`: nothing when the stack directory is absent,
      otherwise the glob hits sorted. */
  function ListNdviStackPaths(repo: LocalRasterRepository, fs: FileSystem, product: string, year: int): (r: seq<Path>)
    ensures StackDir(repo, product, year) !in fs ==> r == []
    ensures forall p :: p in r <==> StackDir(repo, product, year) in fs && p in fs && GlobHit(p, StackDir(repo, product, year))
    ensures SortedBy(r, ByName)
  {
    var dir := StackDir(repo, product, year);
    if dir !in fs then []
    else
      var hits := GlobHits(fs, dir);
      ByNameIsTotalPreorder();
      SortBySorted(hits, ByName);
      var r := SortBy(hits, ByName);
      assert forall p :: p in r <==> p in multiset(hits);
      r
  }

  /** The local repository seen through the raster-store interface. */
  function AsRasterStore(repo: LocalRasterRepository, fs: FileSystem): (s: RasterStore)
    ensures forall product, year :: s.rasterExists(product, year) <==> RawRasterPath(repo, product, year) in fs
    ensures forall product, year :: s.listNdviStackPaths(product, year) == ListNdviStackPaths(repo, fs, product, year)
  {
    RasterStore(
      (product, year) => RawRasterPath(repo, product, year),
      (product, year) => Exists(repo, fs, product, year),
      (product, year) => ListNdviStackPaths(repo, fs, product, year))
  }

  /** Siblings with equal names are the same path, so the glob hits of a filesystem
      without duplicates have pairwise different names. */
  lemma GlobHitsDistinctNames(fs: FileSystem, dir: Path)
    requires NoDuplicates(fs)
    ensures DistinctKeys(GlobHits(fs, dir), ByName)
  {
    var h := GlobHits(fs, dir);
    NoDuplicatesSub(fs, dir);
    forall i, j | 0 <= i < j < |h|
      ensures !Equivalent(h[i], h[j], ByName)
    {
      if Equivalent(h[i], h[j], ByName) {
        assert h[i] in h && h[j] in h;
        if LexLess(Name(h[i]), Name(h[j])) {
          LexLessAsymmetric(Name(h[i]), Name(h[j]));
        }
        ChildrenWithSameNameAreEqual(h[i], h[j], dir);
      }
    }
  }

  lemma {:induction false} NoDuplicatesSub(fs: FileSystem, dir: Path)
    requires NoDuplicates(fs)
    ensures NoDuplicates(GlobHits(fs, dir))
  {
    if fs != [] {
      NoDuplicatesSub(fs[1..], dir);
      var rest := GlobHits(fs[1..], dir);
      assert fs[0] !in fs[1..];
      assert fs[0] !in rest;
    }
  }

  /** A listing names each file once and is strictly ascending by name. */
  lemma ListingStrictlyAscends(repo: LocalRasterRepository, fs: FileSystem, product: string, year: int)
    requires NoDuplicates(fs)
    ensures var r := ListNdviStackPaths(repo, fs, product, year);
            forall i, j :: 0 <= i < j < |r| ==> LexLess(Name(r[i]), Name(r[j]))
  {
    var dir := StackDir(repo, product, year);
    var r := ListNdviStackPaths(repo, fs, product, year);
    if dir in fs {
      var hits := GlobHits(fs, dir);
      GlobHitsDistinctNames(fs, dir);
      NoDuplicatesSub(fs, dir);
      forall i, j | 0 <= i < j < |r|
        ensures LexLess(Name(r[i]), Name(r[j]))
      {
        assert r[i] in r && r[j] in r;
        assert GlobHit(r[i], dir) && GlobHit(r[j], dir);
        assert ByName(r[i], r[j]);
        if Name(r[i]) == Name(r[j]) {
          ChildrenWithSameNameAreEqual(r[i], r[j], dir);
          SortedNoDuplicates(hits, ByName, i, j);
        }
      }
    }
  }

  /** The listing depends only on which paths exist, not on the order the operating
      system enumerates them in. */
  lemma ListingIgnoresEnumerationOrder(repo: LocalRasterRepository, fs1: FileSystem, fs2: FileSystem,
                                        product: string, year: int)
    requires NoDuplicates(fs1) && NoDuplicates(fs2)
    requires forall p :: p in fs1 <==> p in fs2
    ensures ListNdviStackPaths(repo, fs1, product, year) == ListNdviStackPaths(repo, fs2, product, year)
  {
    var dir := StackDir(repo, product, year);
    if dir in fs1 {
      var h1, h2 := GlobHits(fs1, dir), GlobHits(fs2, dir);
      GlobHitsDistinctNames(fs1, dir);
      GlobHitsDistinctNames(fs2, dir);
      NoDuplicatesSub(fs1, dir);
      NoDuplicatesSub(fs2, dir);
      SameElementsSameMultiset(h1, h2);
      ByNameIsTotalPreorder();
      DistinctKeysSortUnique(h1, h2, ByName);
    }
  }

  /** When the stack directory exists and its matching entries, put in strictly ascending
      name order, are `paths`, the listing is exactly `paths`. */
  lemma ListingOfAscendingNames(repo: LocalRasterRepository, fs: FileSystem, product: string, year: int,
                                paths: seq<Path>)
    requires NoDuplicates(fs)
    requires StackDir(repo, product, year) in fs
    requires forall p :: p in fs && GlobHit(p, StackDir(repo, product, year)) <==> p in paths
    requires forall i, j :: 0 <= i < j < |paths| ==> LexLess(Name(paths[i]), Name(paths[j]))
    ensures ListNdviStackPaths(repo, fs, product, year) == paths
  {
    var dir := StackDir(repo, product, year);
    var hits := GlobHits(fs, dir);
    GlobHitsDistinctNames(fs, dir);
    NoDuplicatesSub(fs, dir);
    forall i, j | 0 <= i < j < |paths|
      ensures paths[i] != paths[j] && !Equivalent(paths[i], paths[j], ByName)
    {
      LexLessIrreflexive(Name(paths[i]));
      LexLessAsymmetric(Name(paths[i]), Name(paths[j]));
    }
    SameElementsSameMultiset(hits, paths);
    ByNameIsTotalPreorder();
    DistinctKeysSortUnique(hits, paths, ByName);
    SortByIdentity(paths, ByName);
  }

  /** The zero-padded names `doy_DDD.tif` sort by name exactly as their DOYs sort. */
  lemma DoyNamesOrderedByValue(d1: string, d2: string)
    requires |d1| == 3 && AllDigits(d1) && |d2| == 3 && AllDigits(d2)
    ensures LexLess("doy_" + d1 + ".tif", "doy_" + d2 + ".tif") <==> Digits3Value(d1) < Digits3Value(d2)
  {
    assert "doy_" + d1 + ".tif" == "doy_" + (d1 + ".tif");
    assert "doy_" + d2 + ".tif" == "doy_" + (d2 + ".tif");
    LexLessCommonPrefix("doy_", d1 + ".tif", d2 + ".tif");
    LexLessSameLengthHeads(d1, d2, ".tif", ".tif");
    LexLessIrreflexive(".tif");
    Digits3Order(d1, d2);
  }

  /** The glob is wider than the loader's pattern: `doy_1.tif` is listed, yet its
      name does not have the three digits loading requires. */
  lemma GlobWiderThanDoyPattern()
    ensures GlobMatch("doy_1.tif")
    ensures GlobMatch("doy_.tif")
    ensures !GlobMatch("doy_001.TIF")
  {
    var a := "doy_1.tif";
    assert a[..4] == "doy_" && a[|a| - 4..] == ".tif";
    var b := "doy_.tif";
    assert b[..4] == "doy_" && b[|b| - 4..] == ".tif";
    var c := "doy_001.TIF";
    assert c[|c| - 4..][1] == 'T';
  }
}

=== FILE: scenarios.dfy ===
/** Concrete scenarios taken from the repository's tests: the calendar conversions
    of 2020 and the synthetic summer-peak NDVI series. */
module Scenarios {
  import opened Wrappers
  import opened Calendar
  import opened PhenologyAlgorithm

  /** `strftime("%j")` of January 1 is 1. */
  lemma NewYearDayOfYear()
    ensures ValidDate(Date(2020, 1, 1)) && DayOfYear(Date(2020, 1, 1)) == 1
  {
  }

  /** `strftime("%j")` of February 29 of the leap year 2020 is 60. */
  lemma LeapDayDayOfYear()
    ensures ValidDate(Date(2020, 2, 29)) && DayOfYear(Date(2020, 2, 29)) == 60
  {
  }

  /** `strftime("%j")` of December 31 of the leap year 2020 is 366. */
  lemma LeapYearLastDayOfYear()
    ensures ValidDate(Date(2020, 12, 31)) && DayOfYear(Date(2020, 12, 31)) == 366
  {
  }

  /** DOY 150 and DOY 250 of 2020 are May 29 and September 6. */
  lemma LeapYearDateExamples()
    ensures DateFromDoy(2020, 150) == Success(Date(2020, 5, 29))
    ensures DateFromDoy(2020, 250) == Success(Date(2020, 9, 6))
  {
    assert ValidDate(Date(2020, 5, 29));
    assert ValidDate(Date(2020, 9, 6));
    assert DayOfYear(Date(2020, 5, 29)) == 150 by {
      assert DaysBeforeMonth(2020, 5) == 121;
    }
    assert DayOfYear(Date(2020, 9, 6)) == 250 by {
      assert DaysBeforeMonth(2020, 9) == 244;
    }
    DateRoundTrip(Date(2020, 5, 29));
    DateRoundTrip(Date(2020, 9, 6));
  }
  /** The synthetic summer-peak series: threshold 0.4, first reached at DOY 150 and
      last at DOY 250, a season of 100 days. */
  lemma SummerPeakScenario(ndvi: seq<real>, doys: seq<int>)
    requires ndvi == [0.1, 0.12, 0.2, 0.5, 0.7, 0.6, 0.25, 0.12]
    requires doys == [1, 50, 100, 150, 200, 250, 300, 350]
    ensures ComputeSosEos(ndvi, doys, 0.5) == Success(PhenologyDates(Some(150), Some(250), Some(100)))
  {
    SummerPeakFacts(ndvi);
    SummerPeakSeason(ndvi, doys);
  }

  /** Minimum 0.1 and maximum 0.7; threshold 0.4 is first reached at index 3 and last at index 5. */
  lemma SummerPeakFacts(ndvi: seq<real>)
    requires ndvi == [0.1, 0.12, 0.2, 0.5, 0.7, 0.6, 0.25, 0.12]
    ensures Min(ndvi) == 0.1 && Max(ndvi) == 0.7
    ensures IsFirstAtLeast(ndvi, 0.4, 3) && IsLastAtLeast(ndvi, 0.4, 5)
  {
    SummerPeakExtremes(ndvi);
    SummerPeakCrossings(ndvi);
  }

  lemma SummerPeakExtremes(ndvi: seq<real>)
    requires ndvi == [0.1, 0.12, 0.2, 0.5, 0.7, 0.6, 0.25, 0.12]
    ensures Min(ndvi) == 0.1 && Max(ndvi) == 0.7
  {
    assert ndvi[0] == 0.1 && ndvi[4] == 0.7;
    MinIs(ndvi, 0.1);
    MaxIs(ndvi, 0.7);
  }

  lemma SummerPeakCrossings(ndvi: seq<real>)
    requires ndvi == [0.1, 0.12, 0.2, 0.5, 0.7, 0.6, 0.25, 0.12]
    ensures IsFirstAtLeast(ndvi, 0.4, 3) && IsLastAtLeast(ndvi, 0.4, 5)
  {
    assert ndvi[0] < 0.4 && ndvi[1] < 0.4 && ndvi[2] < 0.4;
    assert ndvi[6] < 0.4 && ndvi[7] < 0.4;
  }

  /** The summer-peak season, from the facts about the series that decide it. */
  lemma SummerPeakSeason(ndvi: seq<real>, doys: seq<int>)
    requires |ndvi| == |doys| == 8
    requires doys[3] == 150 && doys[5] == 250
    requires Min(ndvi) == 0.1 && Max(ndvi) == 0.7
    requires IsFirstAtLeast(ndvi, 0.4, 3) && IsLastAtLeast(ndvi, 0.4, 5)
    ensures ComputeSosEos(ndvi, doys, 0.5) == Success(PhenologyDates(Some(150), Some(250), Some(100)))
  {
    assert Threshold(Min(ndvi), Max(ndvi), 0.5) == 0.4;
    SeasonAtCrossings(ndvi, doys, 0.5, 3, 5);
  }
}

=== FILE: sorting.dfy ===
/** A stable sort by a total preorder, the behaviour Python's `sorted(xs, key=k)` and
    `list.sort(key=k)` promise: the output is ordered by the key, is a permutation of
    the input, and keeps elements with equal keys in their input order. Insertion sort
    is the reference definition; `StableSortUnique` shows that any sort with those
    three properties (Timsort included) returns the same sequence. */
module Sorting {

  /** `le` is total and transitive, so "equal keys" (`le` both ways) is an equivalence. */
  ghost predicate TotalPreorder<T(!new)>(le: (T, T) -> bool) {
    && (forall a, b :: le(a, b) || le(b, a))
    && (forall a, b, c :: le(a, b) && le(b, c) ==> le(a, c))
  }

  predicate SortedBy<T>(s: seq<T>, le: (T, T) -> bool) {
    forall i, j :: 0 <= i < j < |s| ==> le(s[i], s[j])
  }

  predicate Equivalent<T>(a: T, b: T, le: (T, T) -> bool) {
    le(a, b) && le(b, a)
  }

  /** The elements of `s` whose key equals the key of `x`, in their order in `s`. */
  function KeyClass<T>(s: seq<T>, x: T, le: (T, T) -> bool): (r: seq<T>)
    ensures |r| <= |s|
  {
    if s == [] then []
    else (if Equivalent(s[0], x, le) then [s[0]] else []) + KeyClass(s[1..], x, le)
  }

  /** Stability: every class of equal keys appears in the same order in `r` as in `s`. */
  ghost predicate KeepsEqualKeyOrder<T(!new)>(r: seq<T>, s: seq<T>, le: (T, T) -> bool) {
    forall x :: KeyClass(r, x, le) == KeyClass(s, x, le)
  }

  /** Inserts `x` after every element whose key is not greater than its own. */
  function Insert<T>(t: seq<T>, x: T, le: (T, T) -> bool): (r: seq<T>)
    ensures multiset(r) == multiset(t) + multiset{x}
    ensures |r| == |t| + 1
  {
    if t == [] then [x]
    else if le(t[0], x) then
      assert t == [t[0]] + t[1..];
      [t[0]] + Insert(t[1..], x, le)
    else [x] + t
  }

  /** Insertion sort, taking the input from left to right. */
  function SortBy<T>(s: seq<T>, le: (T, T) -> bool): (r: seq<T>)
    ensures multiset(r) == multiset(s)
    ensures |r| == |s|
  {
    if s == [] then []
    else
      assert s == s[..|s| - 1] + [s[|s| - 1]];
      Insert(SortBy(s[..|s| - 1], le), s[|s| - 1], le)
  }

  lemma {:induction false} InsertSorted<T(!new)>(t: seq<T>, x: T, le: (T, T) -> bool)
    requires TotalPreorder(le)
    requires SortedBy(t, le)
    ensures SortedBy(Insert(t, x, le), le)
  {
    if t != [] {
      if le(t[0], x) {
        InsertSorted(t[1..], x, le);
        var rest := Insert(t[1..], x, le);
        forall k | 0 <= k < |rest|
          ensures le(t[0], rest[k])
        {
          assert rest[k] in multiset(rest);
          assert rest[k] in multiset(t[1..]) || rest[k] == x;
          if rest[k] != x {
            var j :| 0 <= j < |t[1..]| && t[1..][j] == rest[k];
            assert t[j + 1] == rest[k];
          }
        }
      }
    }
  }

  lemma {:induction false} KeyClassConcat<T>(a: seq<T>, b: seq<T>, x: T, le: (T, T) -> bool)
    ensures KeyClass(a + b, x, le) == KeyClass(a, x, le) + KeyClass(b, x, le)
  {
    if a != [] {
      assert (a + b)[1..] == a[1..] + b;
      KeyClassConcat(a[1..], b, x, le);
    } else {
      assert a + b == b;
    }
  }

  lemma {:induction false} KeyClassEmpty<T>(t: seq<T>, x: T, le: (T, T) -> bool)
    requires forall k :: 0 <= k < |t| ==> !Equivalent(t[k], x, le)
    ensures KeyClass(t, x, le) == []
  {
    if t != [] {
      KeyClassEmpty(t[1..], x, le);
    }
  }

  /** Inserting `x` into a sorted sequence appends it at the end of its key class. */
  lemma {:induction false} InsertKeyClass<T(!new)>(t: seq<T>, x: T, y: T, le: (T, T) -> bool)
    requires TotalPreorder(le)
    requires SortedBy(t, le)
    ensures KeyClass(Insert(t, x, le), y, le)
         == KeyClass(t, y, le) + (if Equivalent(x, y, le) then [x] else [])
    decreases |t|, 1
  {
    if t == [] {
    } else if le(t[0], x) {
      InsertAfterKeyClass(t, x, y, le);
    } else {
      InsertBeforeKeyClass(t, x, y, le);
    }
  }

  lemma {:induction false} InsertAfterKeyClass<T(!new)>(t: seq<T>, x: T, y: T, le: (T, T) -> bool)
    requires TotalPreorder(le)
    requires SortedBy(t, le)
    requires t != [] && le(t[0], x)
    ensures KeyClass(Insert(t, x, le), y, le)
         == KeyClass(t, y, le) + (if Equivalent(x, y, le) then [x] else [])
    decreases |t|, 0
  {
      var extra := if Equivalent(x, y, le) then [x] else [];
      var head := if Equivalent(t[0], y, le) then [t[0]] else [];
      var rest := Insert(t[1..], x, le);
      InsertKeyClass(t[1..], x, y, le);
      assert ([t[0]] + rest)[1..] == rest;
      calc {
        KeyClass(Insert(t, x, le), y, le);
        head + KeyClass(rest, y, le);
        head + (KeyClass(t[1..], y, le) + extra);
        (head + KeyClass(t[1..], y, le)) + extra;
        KeyClass(t, y, le) + extra;
      }
  }

  /** When `x` goes in front of a sorted `t`, no element of `t` shares its key. */
  lemma InsertBeforeKeyClass<T(!new)>(t: seq<T>, x: T, y: T, le: (T, T) -> bool)
    requires TotalPreorder(le)
    requires SortedBy(t, le)
    requires t != [] && !le(t[0], x)
    ensures KeyClass([x] + t, y, le)
         == KeyClass(t, y, le) + (if Equivalent(x, y, le) then [x] else [])
  {
    assert ([x] + t)[1..] == t;
    if Equivalent(x, y, le) {
      forall k | 0 <= k < |t|
        ensures !Equivalent(t[k], y, le)
      {
        assert k == 0 || le(t[0], t[k]);
      }
      KeyClassEmpty(t, y, le);
    }
  }

  /** The reference sort orders its output by `le`. */
  lemma {:induction false} SortBySorted<T(!new)>(s: seq<T>, le: (T, T) -> bool)
    requires TotalPreorder(le)
    ensures SortedBy(SortBy(s, le), le)
  {
    if s != [] {
      SortBySorted(s[..|s| - 1], le);
      InsertSorted(SortBy(s[..|s| - 1], le), s[|s| - 1], le);
    }
  }

  lemma {:induction false} SortByKeyClass<T(!new)>(s: seq<T>, x: T, le: (T, T) -> bool)
    requires TotalPreorder(le)
    ensures KeyClass(SortBy(s, le), x, le) == KeyClass(s, x, le)
  {
    if s != [] {
      var p, l := s[..|s| - 1], s[|s| - 1];
      assert s == p + [l];
      SortByKeyClass(p, x, le);
      SortBySorted(p, le);
      InsertKeyClass(SortBy(p, le), l, x, le);
      KeyClassSnoc(p, l, x, le);
    }
  }

  lemma KeyClassSnoc<T>(p: seq<T>, l: T, x: T, le: (T, T) -> bool)
    ensures KeyClass(p + [l], x, le) == KeyClass(p, x, le) + (if Equivalent(l, x, le) then [l] else [])
  {
    KeyClassConcat(p, [l], x, le);
    assert KeyClass([l], x, le) == (if Equivalent(l, x, le) then [l] else []) + KeyClass([], x, le);
  }

  /** The reference sort is stable. */
  lemma SortByStable<T(!new)>(s: seq<T>, le: (T, T) -> bool)
    requires TotalPreorder(le)
    ensures KeepsEqualKeyOrder(SortBy(s, le), s, le)
  {
    forall x
      ensures KeyClass(SortBy(s, le), x, le) == KeyClass(s, x, le)
    {
      SortByKeyClass(s, x, le);
    }
  }

  /** Two sorted, stable arrangements of the same elements are the same sequence:
      the outcome of a stable sort does not depend on the algorithm. */
  lemma {:induction false} StableSortUnique<T(!new)>(r1: seq<T>, r2: seq<T>, le: (T, T) -> bool)
    requires TotalPreorder(le)
    requires SortedBy(r1, le) && SortedBy(r2, le)
    requires KeepsEqualKeyOrder(r1, r2, le)
    ensures r1 == r2
    decreases |r1| + |r2|
  {
    if r1 != [] {
      assert Equivalent(r1[0], r1[0], le);
      assert KeyClass(r1, r1[0], le) != [];
      assert KeyClass(r2, r1[0], le) != [];
    }
    if r2 != [] {
      assert Equivalent(r2[0], r2[0], le);
      assert KeyClass(r2, r2[0], le) != [];
      assert KeyClass(r1, r2[0], le) != [];
    }
    if r1 != [] && r2 != [] {
      var a, b := r1[0], r2[0];
      assert Equivalent(a, a, le);
      assert Equivalent(b, b, le);
      // `a` occurs in r2 (its class there is not empty), so it is not below b, and symmetrically.
      KeyClassMember(r2, a, le);
      KeyClassMember(r1, b, le);
      assert Equivalent(a, b, le);
      assert KeyClass(r1, a, le)[0] == a;
      assert KeyClass(r2, a, le)[0] == b;
      assert a == b;
      forall x
        ensures KeyClass(r1[1..], x, le) == KeyClass(r2[1..], x, le)
      {
        var head := if Equivalent(a, x, le) then [a] else [];
        assert KeyClass(r1, x, le) == head + KeyClass(r1[1..], x, le);
        assert KeyClass(r2, x, le) == head + KeyClass(r2[1..], x, le);
        assert KeyClass(r1, x, le) == KeyClass(r2, x, le);
        CancelHead(head, KeyClass(r1[1..], x, le), KeyClass(r2[1..], x, le));
      }
      StableSortUnique(r1[1..], r2[1..], le);
      assert r1 == [a] + r1[1..] && r2 == [b] + r2[1..];
    }
  }

  /** A common prefix cancels. */
  lemma CancelHead<T>(h: seq<T>, u: seq<T>, v: seq<T>)
    requires h + u == h + v
    ensures u == v
  {
    assert u == (h + u)[|h|..];
    assert v == (h + v)[|h|..];
  }

  /** A non-empty key class of a sorted sequence means its first element is below the class. */
  lemma {:induction false} KeyClassMember<T(!new)>(s: seq<T>, x: T, le: (T, T) -> bool)
    requires TotalPreorder(le)
    requires SortedBy(s, le)
    requires s != []
    requires KeyClass(s, x, le) != []
    ensures le(s[0], x)
  {
    if !Equivalent(s[0], x, le) {
      assert KeyClass(s[1..], x, le) != [];
      KeyClassMember(s[1..], x, le);
      assert le(s[0], s[1]);
    }
  }

  /** Sorting a sequence that is already in order changes nothing. */
  lemma SortByIdentity<T(!new)>(s: seq<T>, le: (T, T) -> bool)
    requires TotalPreorder(le)
    requires SortedBy(s, le)
    ensures SortBy(s, le) == s
  {
    SortBySorted(s, le);
    SortByStable(s, le);
    forall x
      ensures KeyClass(SortBy(s, le), x, le) == KeyClass(s, x, le)
    {
    }
    StableSortUnique(SortBy(s, le), s, le);
  }

  /** No two positions of `s` hold elements with equal keys. */
  predicate DistinctKeys<T>(s: seq<T>, le: (T, T) -> bool) {
    forall i, j :: 0 <= i < j < |s| ==> !Equivalent(s[i], s[j], le)
  }

  /** With distinct keys, the key class of `x` is the one element sharing its key. */
  lemma {:induction false} KeyClassSingleton<T(!new)>(s: seq<T>, x: T, k: int, le: (T, T) -> bool)
    requires TotalPreorder(le)
    requires DistinctKeys(s, le)
    requires 0 <= k < |s| && Equivalent(s[k], x, le)
    ensures KeyClass(s, x, le) == [s[k]]
  {
    if k == 0 {
      forall i | 0 <= i < |s[1..]|
        ensures !Equivalent(s[1..][i], x, le)
      {
        assert s[1..][i] == s[i + 1];
        assert !Equivalent(s[0], s[i + 1], le);
      }
      KeyClassEmpty(s[1..], x, le);
    } else {
      assert !Equivalent(s[0], s[k], le);
      assert !Equivalent(s[0], x, le);
      assert s[1..][k - 1] == s[k];
      KeyClassSingleton(s[1..], x, k - 1, le);
    }
  }

  /** Sequences holding the same elements, each with keys no two of which are equal,
      sort to the same sequence: the enumeration order of the input does not matter. */
  lemma DistinctKeysSortUnique<T(!new)>(a: seq<T>, b: seq<T>, le: (T, T) -> bool)
    requires TotalPreorder(le)
    requires DistinctKeys(a, le) && DistinctKeys(b, le)
    requires multiset(a) == multiset(b)
    ensures SortBy(a, le) == SortBy(b, le)
  {
    forall x
      ensures KeyClass(SortBy(a, le), x, le) == KeyClass(SortBy(b, le), x, le)
    {
      SortByKeyClass(a, x, le);
      SortByKeyClass(b, x, le);
      if k :| 0 <= k < |a| && Equivalent(a[k], x, le) {
        assert a[k] in multiset(b);
        var m :| 0 <= m < |b| && b[m] == a[k];
        KeyClassSingleton(a, x, k, le);
        KeyClassSingleton(b, x, m, le);
      } else {
        KeyClassEmpty(a, x, le);
        forall m | 0 <= m < |b|
          ensures !Equivalent(b[m], x, le)
        {
          assert b[m] in multiset(a);
        }
        KeyClassEmpty(b, x, le);
      }
    }
    SortBySorted(a, le);
    SortBySorted(b, le);
    StableSortUnique(SortBy(a, le), SortBy(b, le), le);
  }

  /** No element occurs twice. */
  predicate NoDuplicates<T(==)>(s: seq<T>) {
    forall i, j :: 0 <= i < j < |s| ==> s[i] != s[j]
  }

  lemma RepeatedCount<T>(s: seq<T>, i: int, j: int)
    requires 0 <= i < j < |s| && s[i] == s[j]
    ensures multiset(s)[s[i]] >= 2
  {
    var x := s[i];
    assert s == s[..j] + s[j..];
    assert x in s[..j] && x in s[j..];
    assert multiset(s) == multiset(s[..j]) + multiset(s[j..]);
  }

  lemma {:induction false} NoDuplicatesCount<T>(s: seq<T>, x: T)
    requires NoDuplicates(s)
    ensures multiset(s)[x] <= 1
  {
    if s != [] {
      NoDuplicatesCount(s[1..], x);
      assert s == [s[0]] + s[1..];
      if s[0] == x {
        assert x !in s[1..];
      }
    }
  }

  /** Sorting a sequence without duplicates leaves it without duplicates. */
  lemma SortedNoDuplicates<T(!new)>(s: seq<T>, le: (T, T) -> bool, i: int, j: int)
    requires NoDuplicates(s)
    requires 0 <= i < j < |SortBy(s, le)|
    ensures SortBy(s, le)[i] != SortBy(s, le)[j]
  {
    var r := SortBy(s, le);
    if r[i] == r[j] {
      RepeatedCount(r, i, j);
      NoDuplicatesCount(s, r[i]);
    }
  }

  /** Elements that `f` leaves unchanged stay unchanged after sorting. */
  lemma SortKeepsFixedPoints<T>(s: seq<T>, f: T -> T, le: (T, T) -> bool)
    requires forall i :: 0 <= i < |s| ==> f(s[i]) == s[i]
    ensures forall k :: 0 <= k < |SortBy(s, le)| ==> f(SortBy(s, le)[k]) == SortBy(s, le)[k]
  {
    var r := SortBy(s, le);
    forall k | 0 <= k < |r|
      ensures f(r[k]) == r[k]
    {
      assert r[k] in multiset(s);
      var i :| 0 <= i < |s| && s[i] == r[k];
    }
  }

  /** Sorting a duplicate-free sequence with distinct keys keeps the keys distinct. */
  lemma SortByDistinctKeys<T(!new)>(s: seq<T>, le: (T, T) -> bool, p: int, q: int)
    requires NoDuplicates(s) && DistinctKeys(s, le)
    requires 0 <= p < q < |SortBy(s, le)|
    ensures !Equivalent(SortBy(s, le)[p], SortBy(s, le)[q], le)
  {
    var r := SortBy(s, le);
    SortedNoDuplicates(s, le, p, q);
    assert r[p] in multiset(r) && r[q] in multiset(r);
    var i :| 0 <= i < |s| && s[i] == r[p];
    var k :| 0 <= k < |s| && s[k] == r[q];
    if i < k {
      assert !Equivalent(s[i], s[k], le);
    } else {
      assert !Equivalent(s[k], s[i], le);
    }
  }

  /** Two duplicate-free sequences with the same elements are permutations of each other. */
  lemma SameElementsSameMultiset<T>(a: seq<T>, b: seq<T>)
    requires NoDuplicates(a) && NoDuplicates(b)
    requires forall x :: x in a <==> x in b
    ensures multiset(a) == multiset(b)
  {
    forall x
      ensures multiset(a)[x] == multiset(b)[x]
    {
      NoDuplicatesCount(a, x);
      NoDuplicatesCount(b, x);
      if x in a {
        assert x in multiset(a) && x in multiset(b);
      } else {
        assert x !in multiset(a) && x !in multiset(b);
      }
    }
  }
}

=== FILE: text.dfy ===
/** Text helpers shared by the model: decimal rendering of integers as Python's
    `str(int)` and `f"{n:03d}"` produce it, the parse of a three-digit group, and
    Python's code-point lexicographic string order. */
module Text {

  predicate IsDigit(c: char) {
    '0' <= c <= '9'
  }

  predicate AllDigits(s: string) {
    forall i :: 0 <= i < |s| ==> IsDigit(s[i])
  }

  function DigitValue(c: char): nat
    requires IsDigit(c)
  {
    (c as int) - 48
  }

  function DigitChar(d: nat): (c: char)
    requires d < 10
    ensures IsDigit(c) && DigitValue(c) == d
  {
    (48 + d) as char
  }

  /** Decimal digits of a natural number, without leading zeros. */
  function NatText(n: nat): (r: string)
    ensures 1 <= |r|
    ensures n >= 10 ==> 2 <= |r|
    ensures AllDigits(r)
    decreases n
  {
    if n < 10 then [DigitChar(n)] else NatText(n / 10) + [DigitChar(n % 10)]
  }

  /** Python's `str(n)` for an `int`. */
  function IntText(n: int): (r: string)
    ensures ':' !in r
    ensures 1 <= |r|
    ensures r[0] == '-' <==> n < 0
  {
    if n < 0 then "-" + NatText(-n) else NatText(n)
  }

  lemma {:induction false} NatTextInjective(a: nat, b: nat)
    requires NatText(a) == NatText(b)
    ensures a == b
    decreases a
  {
    var ta, tb := NatText(a), NatText(b);
    if a < 10 && b < 10 {
      assert DigitValue(ta[0]) == a;
      assert DigitValue(tb[0]) == b;
    } else if a >= 10 && b >= 10 {
      assert DigitValue(ta[|ta| - 1]) == a % 10;
      assert DigitValue(tb[|tb| - 1]) == b % 10;
      assert NatText(a / 10) == ta[..|ta| - 1];
      assert NatText(b / 10) == tb[..|tb| - 1];
      NatTextInjective(a / 10, b / 10);
    }
  }

  /** Distinct integers render to distinct decimal strings. */
  lemma IntTextInjective(a: int, b: int)
    requires IntText(a) == IntText(b)
    ensures a == b
  {
    if a < 0 {
      assert b < 0;
      assert NatText(-a) == IntText(a)[1..];
      assert NatText(-b) == IntText(b)[1..];
      NatTextInjective(-a, -b);
    } else {
      assert b >= 0;
      NatTextInjective(a, b);
    }
  }

  function Zeros(k: nat): (r: string)
    ensures |r| == k
    ensures forall i :: 0 <= i < k ==> r[i] == '0'
  {
    seq(k, _ => '0')
  }

  function PadLeft(s: string, width: nat): string
  {
    if |s| < width then Zeros(width - |s|) + s else s
  }

  /** Python's `f"{n:03d}"`: zero padding to width three, the sign counting in the width. */
  function Format03(n: int): string
  {
    if n < 0 then "-" + PadLeft(NatText(-n), 2) else PadLeft(NatText(n), 3)
  }

  /** Python's `int(s)` on a group of exactly three ASCII digits (leading zeros allowed). */
  function Digits3Value(s: string): (v: nat)
    requires |s| == 3 && AllDigits(s)
    ensures v <= 999
  {
    100 * DigitValue(s[0]) + 10 * DigitValue(s[1]) + DigitValue(s[2])
  }

  /** Every n in 0..999 renders as exactly three digits, and they parse back to n. */
  lemma Format03RoundTrip(n: int)
    requires 0 <= n <= 999
    ensures |Format03(n)| == 3 && AllDigits(Format03(n))
    ensures Digits3Value(Format03(n)) == n
  {
    var s := Format03(n);
    if n < 10 {
      assert NatText(n) == [DigitChar(n)];
      assert s == "00" + [DigitChar(n)];
    } else if n < 100 {
      assert NatText(n / 10) == [DigitChar(n / 10)];
      assert NatText(n) == [DigitChar(n / 10), DigitChar(n % 10)];
      assert s == "0" + NatText(n);
    } else {
      assert NatText(n / 100) == [DigitChar(n / 100)];
      assert NatText(n / 10) == [DigitChar(n / 100), DigitChar(n / 10 % 10)];
      assert NatText(n) == [DigitChar(n / 100), DigitChar(n / 10 % 10), DigitChar(n % 10)];
    }
  }

  /** Python's `<` on `str`: code-point lexicographic order, a proper prefix sorting first. */
  predicate LexLess(a: string, b: string)
    decreases |a|
  {
    |b| > 0 && (|a| == 0 || a[0] < b[0] || (a[0] == b[0] && LexLess(a[1..], b[1..])))
  }

  predicate LexLeq(a: string, b: string) {
    a == b || LexLess(a, b)
  }

  lemma {:induction false} LexLessIrreflexive(a: string)
    ensures !LexLess(a, a)
    decreases |a|
  {
    if |a| > 0 {
      LexLessIrreflexive(a[1..]);
    }
  }

  lemma {:induction false} LexLessTransitive(a: string, b: string, c: string)
    requires LexLess(a, b) && LexLess(b, c)
    ensures LexLess(a, c)
    decreases |a|
  {
    if |a| > 0 && a[0] == b[0] && b[0] == c[0] {
      LexLessTransitive(a[1..], b[1..], c[1..]);
    }
  }

  lemma {:induction false} LexTrichotomy(a: string, b: string)
    ensures a == b || LexLess(a, b) || LexLess(b, a)
    decreases |a|
  {
    if |a| > 0 && |b| > 0 && a[0] == b[0] {
      LexTrichotomy(a[1..], b[1..]);
      if a[1..] == b[1..] {
        assert a == [a[0]] + a[1..];
        assert b == [b[0]] + b[1..];
      }
    }
  }

  lemma LexLessAsymmetric(a: string, b: string)
    requires LexLess(a, b)
    ensures !LexLess(b, a)
  {
    if LexLess(b, a) {
      LexLessTransitive(a, b, a);
      LexLessIrreflexive(a);
    }
  }

  /** A shared prefix does not influence the order. */
  lemma {:induction false} LexLessCommonPrefix(p: string, x: string, y: string)
    ensures LexLess(p + x, p + y) <==> LexLess(x, y)
    decreases |p|
  {
    if |p| > 0 {
      assert (p + x)[1..] == p[1..] + x;
      assert (p + y)[1..] == p[1..] + y;
      LexLessCommonPrefix(p[1..], x, y);
    } else {
      assert p + x == x && p + y == y;
    }
  }

  /** Comparing two strings that start with equally long heads: the heads decide,
      and only when they are equal do the tails. */
  lemma {:induction false} LexLessSameLengthHeads(x: string, y: string, s: string, t: string)
    requires |x| == |y|
    ensures LexLess(x + s, y + t) <==> LexLess(x, y) || (x == y && LexLess(s, t))
    decreases |x|
  {
    if |x| == 0 {
      assert x + s == s && y + t == t;
    } else {
      assert (x + s)[1..] == x[1..] + s;
      assert (y + t)[1..] == y[1..] + t;
      LexLessSameLengthHeads(x[1..], y[1..], s, t);
      if x[0] == y[0] && x[1..] == y[1..] {
        assert x == [x[0]] + x[1..] && y == [y[0]] + y[1..];
      }
      if x == y {
        LexLessIrreflexive(x);
      }
    }
  }

  /** On groups of three digits the string order is the numeric order. */
  lemma Digits3Order(x: string, y: string)
    requires |x| == 3 && AllDigits(x)
    requires |y| == 3 && AllDigits(y)
    ensures LexLess(x, y) <==> Digits3Value(x) < Digits3Value(y)
  {
    var x1, y1 := x[1..], y[1..];
    var x2, y2 := x1[1..], y1[1..];
    assert LexLess(x, y) <==> x[0] < y[0] || (x[0] == y[0] && LexLess(x1, y1));
    assert LexLess(x1, y1) <==> x[1] < y[1] || (x[1] == y[1] && LexLess(x2, y2));
    assert x2[1..] == [] && y2[1..] == [];
    assert LexLess(x2, y2) <==> x[2] < y[2];
  }

  /** Splitting `a + ":" + b` at its first colon recovers `a` and `b` when `a` has no colon. */
  lemma SplitAtColon(a: string, b: string, c: string, d: string)
    requires ':' !in a && ':' !in c
    requires a + ":" + b == c + ":" + d
    ensures a == c && b == d
  {
    var l, r := a + ":" + b, c + ":" + d;
    assert l[|a|] == ':' && r[|c|] == ':';
    assert a == l[..|a|] && c == r[..|c|];
    assert b == l[|a| + 1..] && d == r[|c| + 1..];
  }

  /** Splitting `a + ":" + b` at its last colon recovers `a` and `b` when `b` has no colon. */
  lemma SplitAtLastColon(a: string, b: string, c: string, d: string)
    requires ':' !in b && ':' !in d
    requires a + ":" + b == c + ":" + d
    ensures a == c && b == d
  {
    var l, r := a + ":" + b, c + ":" + d;
    assert l[|a|] == ':' && r[|c|] == ':';
    assert a == l[..|a|] && c == r[..|c|];
    assert b == l[|a| + 1..] && d == r[|c| + 1..];
  }

  /** `":".join(parts)`, which is what an f-string of colon-separated fields builds. */
  function Join(parts: seq<string>): (r: string)
    ensures |parts| == 1 ==> r == parts[0]
    decreases |parts|
  {
    if |parts| == 0 then ""
    else if |parts| == 1 then parts[0]
    else parts[0] + ":" + Join(parts[1..])
  }

  lemma {:induction false} JoinSnoc(parts: seq<string>)
    requires |parts| >= 2
    ensures Join(parts) == Join(parts[..|parts| - 1]) + ":" + parts[|parts| - 1]
    decreases |parts|
  {
    var n := |parts|;
    if n > 2 {
      JoinSnoc(parts[1..]);
      assert parts[1..][..n - 2] == parts[..n - 1][1..];
      assert parts[1..][n - 2] == parts[n - 1];
    }
  }

  /** The fields after the first have no colon, so the joined text determines them all. */
  lemma {:induction false} JoinLastInjective(p: seq<string>, q: seq<string>)
    requires |p| == |q| >= 1
    requires forall i :: 1 <= i < |p| ==> ':' !in p[i] && ':' !in q[i]
    requires Join(p) == Join(q)
    ensures p == q
    decreases |p|
  {
    var n := |p|;
    if n >= 2 {
      JoinSnoc(p);
      JoinSnoc(q);
      SplitAtLastColon(Join(p[..n - 1]), p[n - 1], Join(q[..n - 1]), q[n - 1]);
      JoinLastInjective(p[..n - 1], q[..n - 1]);
      assert p == p[..n - 1] + [p[n - 1]] && q == q[..n - 1] + [q[n - 1]];
    }
  }

  /** Every field but the `m`-th has no colon, so the joined text determines them all. */
  lemma {:induction false} JoinInjectiveAt(p: seq<string>, q: seq<string>, m: nat)
    requires |p| == |q| && m < |p|
    requires forall i :: 0 <= i < |p| && i != m ==> ':' !in p[i] && ':' !in q[i]
    requires Join(p) == Join(q)
    ensures p == q
    decreases m
  {
    if m == 0 {
      JoinLastInjective(p, q);
    } else {
      SplitAtColon(p[0], Join(p[1..]), q[0], Join(q[1..]));
      JoinInjectiveAt(p[1..], q[1..], m - 1);
      assert p == [p[0]] + p[1..] && q == [q[0]] + q[1..];
    }
  }
}

=== FILE: wrappers.dfy ===
/** Failure-compatible wrappers used across the model: `Option` stands for
    Python's `None`-or-value, `Result` for a value or a raised exception. */
module Wrappers {

  datatype Option<+T> = None | Some(value: T) {

    predicate IsFailure() {
      None?
    }

    function PropagateFailure<U>(): Option<U>
      requires None?
    {
      None
    }

    function Extract(): T
      requires Some?
    {
      value
    }
  }

  datatype Result<+R, +E> = Success(value: R) | Failure(error: E) {

    predicate IsFailure() {
      Failure?
    }

    function PropagateFailure<U>(): Result<U, E>
      requires Failure?
    {
      Failure(error)
    }

    function Extract(): R
      requires Success?
    {
      value
    }

    /** Re-labels the error of a failed result, keeping a success as it is. */
    function MapFailure<NewE>(wrap: E -> NewE): Result<R, NewE>
    {
      match this
      case Success(v) => Success(v)
      case Failure(e) => Failure(wrap(e))
    }
  }
}
